=== FILE: README.md ===
# Text fragments, line mapping, style colours and keep-around in Dafny

This project models three parts of a design-spec exporter for a vector
design application and proves properties of the model.

- **Text fragments and lines** (`src/meaxure/export/textFragment.ts`).
  - A rich-text block is a stream of styled runs, called *fragments*. Each
    has `text`, `location`, `length` and `style`.
  - The renderer exports the block as SVG. Its `<tspan>` runs, read as
    `(y, text)` records, are grouped into visual *lines* by their vertical
    coordinate (`getFragmentLinesFromSVG`).
  - `getFragmentsByLines` walks the fragment stream against the lines:
    - it splits a fragment where the renderer wrapped it (`splitFragment`);
    - it strips leading `'\n'` characters;
    - it emits a paragraph-break marker (the source's `null`) for each one,
      plus an empty line between two consecutive breaks.
- **Style extraction** (`src/api/styles.ts`).
  - `parseColor` decodes `#RRGGBBAA` into channels and the `color-hex`,
    `argb-hex` and `ui-color` strings.
  - `getFillsFromStyle` and `getBordersFromStyle` keep the enabled colour and
    gradient entries.
  - `getShadowsFromStyle` lists the enabled outer shadows, then the enabled
    inner ones.
- **Keep-around** (`src/state/keepAround.ts`). The plugin tells the host to
  keep its script context alive while any request ID is registered.

## Modules

| file | module | contents |
|---|---|---|
| wrappers.dfy | Wrappers | `Option`, `Result` |
| seqs.dfy | Seqs | `Flatten` of a sequence of sequences |
| fragments.dfy | Fragments | `Fragment`, `SplitFragment`, tiling and text of a stream |
| svg_lines.dfy | SvgLines | line grouping of extracted `(y, text)` runs |
| mapper.dfy | FragmentMapper | `getFragmentsByLines` as front-recursive functions |
| mapper_proofs.dfy | MapperProperties | per-step and chained facts about the mapper |
| mapper_output.dfy | MapperOutput | what the mapper's output says about its input |
| mapper_examples.dfy | MapperExamples | concrete runs |
| numerals.dfy | Numerals | `toString(base)`, `parseInt`, `toFixed(2)`, ASCII upper-casing |
| colors.dfy | Colors | `parseColor` and the read-back of its strings |
| styles.dfy | Styles | fills, borders, shadows |
| keep_around.dfy | KeepAround | `coscriptKeepAround`, `coscriptNotKeepAround` |

### How the mapper is modelled

- The mapper's state between two rendered elements is a `Cursor`. It holds:
  - the active fragment (`currentFragment`, `None` for `undefined`);
  - the fragments not yet shifted;
  - `isPrevNewLine`.
- `StripNewlines` is the inner `while` loop.
- `TakeElement` is one element of a line.
- `MapLine` is the loop over a line's elements.
- `MapLines` is the loop over the lines.
- `MapLines` returns a processing-order trace. Per line and per element, the
  trace records the entries the strip loop pushed and the fragment placed.
- `Assemble` turns the trace into the source's output. A line's list is
  pushed only when the line is finished, so the markers pushed while that line
  was processed come before the list.
- Contiguity ("each fragment starts where the previous one ended, plus one
  position per stripped break") holds in processing order. That is why the
  location properties, and the positions the text properties read, are
  stated over the trace.
- A placed fragment's own text is one of two things. When the element is as
  long as the active fragment's text, the fragment is the active fragment
  itself. Otherwise it is the left part of a split, whose text is the
  element. `TakeOutcome` states this for one step, and `MapperPlacedText`
  states it for the whole run.

## Model

| member | source | states |
|---|---|---|
| Fragments.SplitFragment | src/meaxure/export/textFragment.ts:149-159 | Splitting fails with the negative-length error exactly when the split text is longer than the fragment. Otherwise the left part has the split text, the fragment's location and style, and the split text's length. The remainder is absent exactly when nothing is left. Otherwise it starts `|splitText|` later, is that much shorter, keeps its style and holds the rest of the text. |
| Fragments.SplitRejoins | src/meaxure/export/textFragment.ts:149-159 | A split loses and duplicates nothing. The parts tile the original span from its location. Their lengths add up to the original length. When the split text is the fragment's own prefix, their texts concatenate back to the original text. |
| FragmentMapper.BreakEntriesShape | src/meaxure/export/textFragment.ts:127-129 | The strip loop's entries for `n` breaks hold exactly `n` markers, and the compensating lines hold no fragments. |
| FragmentMapper.StripOutcome | src/meaxure/export/textFragment.ts:122-132 | The strip loop fails (`shift()` returns `undefined`) exactly when the pending fragments hold only line breaks. Otherwise it stops at a fragment whose text does not start with `'\n'`. |
| FragmentMapper.PendingOutcome | src/meaxure/export/textFragment.ts:121-132 | Shifting a fragment when none is active and then stripping fails exactly when everything pending is line breaks. Otherwise it leaves a fragment that does not start with a break. |
| FragmentMapper.TakeOutcome | src/meaxure/export/textFragment.ts:121-152 | An element step fails with stream exhaustion on a stream of breaks only. Otherwise it fails with the negative-length error exactly when the element is longer than the fragment the strip loop leaves. On success it clears `isPrevNewLine` and places a fragment whose length and text length equal the element's length. That fragment is the active fragment itself when the element is as long as its text. Otherwise its text is the element, at the active fragment's location and in its style. |
| FragmentMapper.StripNewlines | src/meaxure/export/textFragment.ts:122-132 | The function carries only the well-formedness of what it leaves. Its contract is stated by `StripOutcome`, `StripEmits`, `StripText` and `StripLocations`. |
| FragmentMapper.TakeElement | src/meaxure/export/textFragment.ts:120-143 | On success the cursor it leaves is valid. The rest of its contract is stated by `TakeOutcome`, `TakeAdvances` and `TakePlaces`. |
| FragmentMapper.MapLine | src/meaxure/export/textFragment.ts:119-145 | On success the cursor it leaves is valid. The rest of its contract is stated by `LineOutcome` and `LineChain`. |
| FragmentMapper.MapLines | src/meaxure/export/textFragment.ts:118-147 | On success the cursor it leaves is valid. The rest of its contract is stated by `LinesOutcome`, `LinesChain` and the `MapperOutput` lemmas. |
| FragmentMapper.LineOutcome | src/meaxure/export/textFragment.ts:119-145 | A line's run places one fragment per element, each as long as its element. It leaves the flag cleared unless the line has no elements. |
| FragmentMapper.LinesOutcome | src/meaxure/export/textFragment.ts:118-147 | A run has one step list per rendered line and, in processing order, one fragment per element, each as long as its element. The flag stays set only if no element was processed. |
| MapperProperties.StripEmits | src/meaxure/export/textFragment.ts:122-132 | Closed form of the strip loop's output. For the `n` leading breaks it pushes `n` markers, with an empty line before every marker that follows a break (before the first only if the flag was set on entry). |
| MapperProperties.StripText | src/meaxure/export/textFragment.ts:122-132 | The strip loop consumes exactly the leading `'\n'` characters of the pending text, and the remaining fragments spell out the rest of it. |
| MapperProperties.StripLocations | src/meaxure/export/textFragment.ts:122-132 | On fragments that tile the block from `loc`, the fragments left after the strip loop tile it from `loc` plus the number of stripped breaks. |
| MapperProperties.TakeAdvances | src/meaxure/export/textFragment.ts:120-143 | One element step: <br>- its markers are one strip-loop run for the incoming flag, and the step clears the flag; <br>- it consumes its breaks and then its fragment's characters from the front of the pending text; <br>- on a tiling stream, its fragment starts right after its breaks, and the rest still tiles. |
| MapperProperties.LineChain | src/meaxure/export/textFragment.ts:119-145 | A line's run passes through a chain of cursors, one per element, each step advancing from one cursor to the next and placing what `TakePlaces` allows for its element. |
| MapperProperties.LinesChain | src/meaxure/export/textFragment.ts:118-147 | A whole run passes through a chain of cursors, one per element across all lines, each step advancing from one cursor to the next and placing what `TakePlaces` allows for its element. |
| MapperProperties.ChainMarkers | src/meaxure/export/textFragment.ts:127-131 | Along a chain, only the first step's markers can reflect a set incoming flag. Every later step starts its strip loop with the flag cleared. |
| MapperProperties.ChainText | src/meaxure/export/textFragment.ts:122-142 | A chain consumes a prefix of the pending text in processing order, with every marker on a line break and every fragment on the characters right after. |
| MapperProperties.ChainLocations | src/meaxure/export/textFragment.ts:122-142 | On a stream that tiles from `loc`, each fragment of a chain sits right after the previous one plus its markers' positions. What is left tiles on from there. |
| MapperOutput.FragmentsByLinesOutput | src/meaxure/export/textFragment.ts:115-147 | On success, the returned list places one fragment per rendered element, in element order, each exactly as long as its element. Its markers and its fragments' lengths together do not exceed the stream's total length. Rendered text longer than the stream always fails. |
| MapperOutput.AssembleOrder | src/meaxure/export/textFragment.ts:118-146 | The fragments of the assembled output are exactly the placed fragments in processing order. Its markers are all the strip loops' markers. |
| MapperOutput.MapperMarkers | src/meaxure/export/textFragment.ts:117-143 | In a run from the start state, every element's entries are one marker per stripped break, with an empty line before every marker except the element's first. Because the flag is cleared after every element, the flag is never set when the loop is entered. |
| MapperOutput.MapperMarkersOnly | src/meaxure/export/textFragment.ts:127-129 | The entries pushed by the strip loops carry no fragments. |
| MapperOutput.MapperConservation | src/meaxure/export/textFragment.ts:118-147 | The output places one fragment per rendered element, in element order, each exactly as long as its element. The markers, the placed fragments' lengths and the leftover fragments' lengths add up to the stream's total length. |
| MapperOutput.MapperText | src/meaxure/export/textFragment.ts:122-142 | Read against the block text, every marker sits on a `'\n'` and every fragment's positions are the ones right after its breaks. The run consumes a prefix of the text, and what is pending spells out the rest. |
| MapperOutput.MapperPlacedText | src/meaxure/export/textFragment.ts:133-152 | The output has one placed fragment per element. Each lies inside the block text at its offset, which is the characters consumed before it plus its own markers. Its text is the text of its element, or, when a stream fragment was placed whole, the block's characters at that offset. |
| MapperProperties.TakePlaces | src/meaxure/export/textFragment.ts:133-152 | One element step places a fragment whose text is the element's, or the pending text's characters right after the step's breaks. |
| MapperProperties.ChainPlacedText | src/meaxure/export/textFragment.ts:133-152 | Along a chain, every placed fragment lies inside the text the chain starts on and holds its element's text or that text's characters at its offset. |
| MapperOutput.MapperLocations | src/meaxure/export/textFragment.ts:122-155 | For a stream that tiles the block from offset 0, every placed fragment starts where the previous one ended plus one per marker in between, and the leftover fragments tile the rest. |
| MapperExamples.WrapInsideRun | src/meaxure/export/textFragment.ts:133-142 | A wrap inside the second run splits that run at the wrap: `[["Hello ", "Wo"], ["rld"]]` against `("Hello ", A), ("World", B)`. |
| MapperExamples.ElementAcrossRuns | src/meaxure/export/textFragment.ts:140-156 | An element spanning two runs, `[["Hello Wo"], ["rld"]]`, fails with the negative-length error. |
| MapperExamples.ManualBreakOneRow | src/meaxure/export/textFragment.ts:122-145 | `"X\nY"` with both halves on one rendered row gives the marker first, then `[X, Y]`. |
| MapperExamples.ManualBreakTwoRows | src/meaxure/export/textFragment.ts:122-145 | With the halves on two rows, the result is `[X]`, marker, `[Y]`, and the `'\n'` itself is dropped. |
| MapperExamples.ConsecutiveBreaks | src/meaxure/export/textFragment.ts:127-129 | `"P\n\nQ"` gives `[P]`, marker, `[]`, marker, `[Q]`. |
| MapperExamples.TwoBreaks | src/meaxure/export/textFragment.ts:122-132 | The strip loop on `"\n\nQ"` pushes a marker, an empty line and a second marker, and leaves `"Q"` at location 3. |
| MapperExamples.StreamRunsDry | src/meaxure/export/textFragment.ts:121-122 | More elements than characters fails with stream exhaustion. |
| MapperExamples.OnlyBreaksLeft | src/meaxure/export/textFragment.ts:122-130 | A stream holding only a line break cannot supply an element. |
| MapperExamples.LeftoverIgnored | src/meaxure/export/textFragment.ts:118-147 | Characters left after the last line are not reported. |
| MapperExamples.EmptyLine | src/meaxure/export/textFragment.ts:118-146 | A line without elements is pushed as an empty list. |
| SvgLines.GetFragmentLines | src/meaxure/export/textFragment.ts:163-189 | No runs give one empty line. Otherwise the lines are the reference grouping: one more than the number of coordinate changes, none empty, holding every run's text in order. |
| SvgLines.GroupIsGrouping | src/meaxure/export/textFragment.ts:167-188 | The reference grouping cuts the runs into non-empty pieces in order. Each piece is on one coordinate, and neighbouring pieces are on different coordinates. |
| SvgLines.GroupingUnique | src/meaxure/export/textFragment.ts:167-188 | Any such cutting is the reference grouping. |
| SvgLines.GroupingIff | src/meaxure/export/textFragment.ts:167-188 | A list of groups is a grouping of the runs if and only if it is the reference grouping. |
| SvgLines.GroupedLines | src/meaxure/export/textFragment.ts:167-188 | The grouped lines number one more than the coordinate changes, none is empty, and they flatten to the runs' texts. |
| Colors.ParseColor | src/api/styles.ts:74-79 | Each channel is sixteen times the value of its first hex digit plus the value of its second, and is below 256. |
| Colors.ChannelsRoundTrip | src/api/styles.ts:76-79 | Writing the four channels back as two upper-case hex digits each gives the upper-cased input digits. |
| Colors.ColorHexFields | src/api/styles.ts:80-86 | `color-hex` is `#`, the upper-cased `RRGGBB`, a space, a decimal numeral and `%`. Each hex pair reads back to its channel. The numeral has no leading zero, so its spelling is fixed, and it is the alpha percentage rounded to the nearest integer. |
| Colors.PercentNearest | src/api/styles.ts:86 | The integer alpha percentage is the only integer within one half of `a / 255 * 100`, and that value is never a tie. |
| Colors.DropFirstHashRemoves | src/api/styles.ts:87 | `replace("#", "")` drops exactly the first `#`, keeping everything before and after it in order. |
| Colors.ArgbHexFields | src/api/styles.ts:87 | `argb-hex` is `#`, then alpha in upper-case hex without padding (8 characters below 16, 9 from 16), then the upper-cased `RRGGBB`. Each piece reads back to its channel, and no lower-case letter remains. |
| Colors.UiColorFields | src/api/styles.ts:94-99 | `ui-color` is the fields `r`, `g`, `b`, `a` in parentheses, separated by single spaces. Each field is its tag, a colon, a decimal numeral that reads back to the channel, and `.00`. |
| Colors.Fixed2RoundTrip | src/api/styles.ts:95-98 | `toFixed(2)` of an integer is its decimal numeral, which reads back to it, followed by `.00`. |
| Numerals.DigitsValue | src/api/styles.ts:86-87 | Reading back the digits written for `n` in any base gives `n`. |
| Numerals.DigitsUnique | src/api/styles.ts:86-87 | A canonical digit sequence (no leading zero) is the one written for its value, so every number has one spelling. |
| Numerals.UpperHexRoundTrip | src/api/styles.ts:87 | `toString(16).toUpperCase()` reads back with `parseInt(_, 16)`. |
| Numerals.HexValueUpper | src/api/styles.ts:80-87 | Upper-casing hex digits does not change their value. |
| Styles.GetFills | src/api/styles.ts:32-57 | The loop's result is the reference export: enabled colour fills decoded, enabled gradient fills copied, in input order, everything else skipped. |
| Styles.ExportedFillsContents | src/api/styles.ts:32-57 | No exported fill is a pattern. Every enabled colour or gradient input fill is exported. Every exported entry is the conversion of such an input fill. If no input fill is exportable, the result is empty. |
| Styles.ExportedFillsAppend | src/api/styles.ts:32-57 | Exporting a concatenation exports each part in turn, so input order is kept. |
| Styles.GetBorders | src/api/styles.ts:5-31 | The loop's result is the reference export of the borders, with position and thickness copied. |
| Styles.BorderIsFill | src/api/styles.ts:5-31 | An exported border is the exported fill it carries, plus its position and thickness. |
| Styles.GetShadows | src/api/styles.ts:59-73 | The result has one entry per enabled outer or inner shadow. Its front holds the enabled outer shadows converted and tagged `outer`, one for one and in input order. Then come the enabled inner shadows, tagged `inner`, the same way. So no `outer` entry follows an `inner` one. Every enabled shadow appears, and every entry is the conversion of an enabled shadow of its own list. |
| Styles.ShadowsDetermined | src/api/styles.ts:59-73 | Any list with that length and those in-order conversions is the result, so the contract fixes order and counts, duplicates included. |
| Styles.EnabledMembers | src/api/styles.ts:70-71 | The filter keeps exactly the enabled shadows. |
| Styles.EnabledAppend | src/api/styles.ts:70-71 | Filtering a concatenation filters each part in turn. |
| KeepAround.KeepAroundCall | src/state/keepAround.ts:6-14 | A missing or empty ID throws and changes nothing. Otherwise the ID is registered, the flag is set, and the host is told `true` only if the flag was clear. |
| KeepAround.NotKeepAroundCall | src/state/keepAround.ts:17-26 | A missing or empty ID throws. An unregistered ID changes nothing. Otherwise the ID is removed, and when none remain and the flag is set, the flag is cleared and the host is told `false`. |
| KeepAround.KeepAroundConsistent | src/state/keepAround.ts:3-14 | Registering keeps the flag set exactly while some ID is registered. |
| KeepAround.NotKeepAroundConsistent | src/state/keepAround.ts:3-26 | Releasing keeps the flag set exactly while some ID is registered. |
| KeepAround.KeepAroundHostAgrees | src/state/keepAround.ts:8-12 | After registering, the last value handed to the host matches the flag. |
| KeepAround.NotKeepAroundHostAgrees | src/state/keepAround.ts:21-25 | After releasing, the last value handed to the host matches the flag. |
| KeepAround.KeepAroundIdempotent | src/state/keepAround.ts:6-14 | Registering the same ID twice is the same as registering it once. |
| KeepAround.KeepAroundSwitchesOnFirst | src/state/keepAround.ts:8-12 | Under the invariant, the host is told `true` exactly when the first ID is registered. |
| KeepAround.NotKeepAroundSwitchesOnLast | src/state/keepAround.ts:19-25 | Under the invariant, the host is told `false` exactly when the last registered ID is removed. Every other ID stays registered. |
| KeepAround.KeepThenRelease | src/state/keepAround.ts:6-26 | Registering a new ID and releasing it restores the set and the flag. The host was told `true` then `false` exactly if the set was empty before. |

## Left out

- The layout stage of `getTextFragment` (`textFragment.ts` lines 11-109).
  It covers group frames, line heights, alignment and the host's text
  objects, and its arithmetic is host floating point.
- The SVG export and the `<tspan>` regular expression. `SvgLines` starts
  from the extracted `(y, text)` records. The `x` coordinate is parsed by the
  source but never used.
- `parseFloat` of the coordinates. The coordinate type is a parameter with
  equality, so two rows compare equal exactly when the parsed numbers do.
- `css-rgba` of `parseColor`. It needs a floating-point division whose
  decimal printing the model does not represent.
- Colors.ParseColor: requires `#` followed by eight hex digits. The source
  does not check this. On each two-character window, `parseInt(_, 16)` first
  trims leading whitespace and takes a sign and a `0x` prefix, then reads the
  longest hex prefix of what is left; if none is left it gives `NaN`. So
  `"#1g0000ff"` gives `r = 1`. Malformed windows, signed or `NaN` channels and
  a first character other than `#` are not modelled. The style extractors ask
  this only of the colours they actually decode.
- Colors.AlphaPercent: `Math.round(alpha / 255 * 100)` is computed exactly in
  integers. `PercentNearest` shows that `200 * alpha` never equals
  `510 * q - 255`. Both are integers, so the exact value `100 * alpha / 255`
  is at least 1/510 away from every half-integer `q - 1/2`. The double-precision error of
  `alpha / 255 * 100` is below 1e-13 for `alpha < 256`. So floating-point
  error cannot change the rounded result.
- String lengths, string positions and fragment locations are counted in
  characters (Unicode scalar values), not in the UTF-16 code units JavaScript
  counts. The two agree on text without characters outside the Basic
  Multilingual Plane. The colour positions the decoder reads are always
  single characters.
- Numerals.UpperChar: only ASCII letters are upper-cased. Non-ASCII
  `toUpperCase` rules are not modelled.
- `getLayerRadius` and `uuidv4`. They are outside the modelled operations,
  and `uuidv4` uses randomness.
- Calls to `coscript.setShouldKeepAround` and `logger.debug` become entries
  of an event log.
- JavaScript object-key quirks of `requested` are not modelled: keys such as
  `__proto__`, inherited property names, and non-string IDs coerced to
  strings. Request IDs are strings, and a missing ID is `None`.
- Fragments.WellFormed: the model requires `length == |text|` of every
  fragment. The source compares an element with `text.length` but splits
  with `length`, and the host keeps the two equal.
- Fragment `style` and `defaultLineHeight`: the style is a type parameter
  with no operations, so every style in the output is some input fragment's
  style. No lemma ties a placed fragment's style to the input fragment at
  its location. `defaultLineHeight` is used only by the layout stage.
- The shallow copy of `Object.assign` and the in-place mutation of the
  fragment in `splitFragment` become value semantics.

## Code and design notes

- Wrapped element: an element longer than the active fragment (the wrap
  example `[["Hello Wo"], ["rld"]]`) does not split across runs. The source
  throws the negative-length error (`ElementAcrossRuns`). The model follows
  the code. When the renderer reports one element per styled run, the wrap
  is handled (`WrapInsideRun`).
- Manual break: the marker for a manual break is pushed as soon as it is
  stripped, but a line's list is pushed only when the line ends. If the
  renderer reports both halves on one row, the marker comes before that
  line's list (`ManualBreakOneRow`). On two rows it sits between the lists
  (`ManualBreakTwoRows`).
- Leftover fragments: the source does not detect fragments left after the
  last line (`LeftoverIgnored`). The model returns them as the final cursor's
  pending fragments. `MapperConservation` counts them rather than assuming
  there are none.

=== FILE: colors.dfy ===
/** `parseColor` (src/api/styles.ts): a `#RRGGBBAA` string decoded into
    integer channels and the formatted strings the exported specification
    shows. */
module Colors {
  import opened Numerals

  /** What the decoder reads: a `#` and eight hex digits. Anything after
      position 8 is ignored. Every position read is one character, so
      character and UTF-16 offsets agree on positions 0 to 8. */
  predicate WellFormedColor(s: string)
  {
    |s| >= 9 && s[0] == '#' && forall i :: 1 <= i < 9 ==> IsHexChar(s[i])
  }

  /** The decoded colour. The `css-rgba` string is not part of this model. */
  datatype SMColor = SMColor(
    r: nat, g: nat, b: nat, a: nat,
    colorHex: string,
    argbHex: string,
    uiColor: string)

  /** `parseInt(color.substr(at, 2), 16)`. */
  function Channel(s: string, at: nat): (v: nat)
    requires WellFormedColor(s)
    requires 1 <= at <= 7
    ensures v < 256
    ensures v == 16 * HexCharValue(s[at]) + HexCharValue(s[at + 1])
  {
    assert AllHex(s[at..at + 2]) by {
      assert s[at..at + 2][0] == s[at] && s[at..at + 2][1] == s[at + 1];
    }
    HexPair(s[at..at + 2]);
    HexValue(s[at..at + 2])
  }

  /** `Math.round(x)` returns the integer `p` with `p - 1/2 <= x < p + 1/2`;
      here `x` is the alpha percentage `100 * a / 255`, scaled by 510. */
  predicate IsRoundedPercent(a: nat, p: int)
  {
    510 * p - 255 <= 200 * a < 510 * p + 255
  }

  /** `Math.round(alpha / 255 * 100)` in integer arithmetic. */
  function AlphaPercent(a: nat): (p: nat)
    requires a < 256
    ensures p <= 100
    ensures IsRoundedPercent(a, p)
  {
    (200 * a + 255) / 510
  }

  /** The rounded percentage is the only integer within one half of the
      exact percentage, and the exact percentage is never a tie, so no
      rounding direction question arises. */
  lemma PercentNearest(a: nat, q: int)
    requires a < 256
    ensures IsRoundedPercent(a, q) <==> q == AlphaPercent(a)
    ensures 200 * a != 510 * q - 255
  {
  }

  /** `String.prototype.replace("#", "")`: the first `#`, if any, dropped. */
  function DropFirstHash(s: string): (t: string)
    ensures (forall i :: 0 <= i < |s| ==> s[i] != '#') ==> t == s
    ensures (exists i :: 0 <= i < |s| && s[i] == '#') ==> |t| == |s| - 1
  {
    if |s| == 0 then s
    else if s[0] == '#' then s[1..]
    else [s[0]] + DropFirstHash(s[1..])
  }

  /** The character `replace("#", "")` drops is the first `#`: everything
      before it and everything after it is kept, in order. */
  lemma {:induction false} DropFirstHashRemoves(s: string, i: nat)
    requires i < |s| && s[i] == '#'
    requires forall j :: 0 <= j < i ==> s[j] != '#'
    ensures DropFirstHash(s) == s[..i] + s[i + 1..]
  {
    if i > 0 {
      DropFirstHashRemoves(s[1..], i - 1);
      assert s[1..][..i - 1] == s[1..i] && s[1..][i..] == s[i + 1..];
      assert [s[0]] + s[1..i] == s[..i];
    }
  }

  function ParseColor(s: string): (c: SMColor)
    requires WellFormedColor(s)
    ensures c.r == 16 * HexCharValue(s[1]) + HexCharValue(s[2])
    ensures c.g == 16 * HexCharValue(s[3]) + HexCharValue(s[4])
    ensures c.b == 16 * HexCharValue(s[5]) + HexCharValue(s[6])
    ensures c.a == 16 * HexCharValue(s[7]) + HexCharValue(s[8])
    ensures c.r < 256 && c.g < 256 && c.b < 256 && c.a < 256
  {
    var u := Upper(s);
    var red := Channel(s, 1);
    var green := Channel(s, 3);
    var blue := Channel(s, 5);
    var alpha := Channel(s, 7);
    SMColor(
      red, green, blue, alpha,
      u[..7] + " " + Decimal(AlphaPercent(alpha)) + "%",
      "#" + UpperHex(alpha) + DropFirstHash(u[1..7]),
      "(" + Field('r', red) + " " + Field('g', green) + " " + Field('b', blue) + " " + Field('a', alpha) + ")")
  }

  // ---------------------------------------------------------------------
  // Reading the formatted strings back

  /** Two upper-case hex digits for a channel. */
  function Hex2(v: nat): (t: string)
    requires v < 256
    ensures |t| == 2
  {
    [UpperHexChar(v / 16), UpperHexChar(v % 16)]
  }

  lemma UpperHexOfValue(ch: char)
    requires IsHexChar(ch)
    ensures UpperHexChar(HexCharValue(ch)) == UpperChar(ch)
  {
  }

  /** Writing the four channels back as two upper-case hex digits each
      gives the upper-cased input digits: the channels lose nothing. */
  lemma ChannelsRoundTrip(s: string, c: SMColor)
    requires WellFormedColor(s) && c == ParseColor(s)
    ensures Hex2(c.r) + Hex2(c.g) + Hex2(c.b) + Hex2(c.a) == Upper(s[1..9])
  {
    ChannelsWrite(s, c.r, c.g, c.b, c.a);
  }

  lemma ChannelsWrite(s: string, r: nat, g: nat, b: nat, a: nat)
    requires WellFormedColor(s)
    requires r == 16 * HexCharValue(s[1]) + HexCharValue(s[2])
    requires g == 16 * HexCharValue(s[3]) + HexCharValue(s[4])
    requires b == 16 * HexCharValue(s[5]) + HexCharValue(s[6])
    requires a == 16 * HexCharValue(s[7]) + HexCharValue(s[8])
    ensures r < 256 && g < 256 && b < 256 && a < 256
    ensures Hex2(r) + Hex2(g) + Hex2(b) + Hex2(a) == Upper(s[1..9])
  {
    var u := Upper(s[1..9]);
    PairWrites(s, 1, r);
    PairWrites(s, 3, g);
    PairWrites(s, 5, b);
    PairWrites(s, 7, a);
    assert u == [u[0], u[1]] + [u[2], u[3]] + [u[4], u[5]] + [u[6], u[7]];
  }

  /** A channel written back as two upper-case hex digits gives its pair of
      input digits, upper-cased. */
  lemma PairWrites(s: string, at: nat, v: nat)
    requires WellFormedColor(s) && 1 <= at <= 7
    requires v == 16 * HexCharValue(s[at]) + HexCharValue(s[at + 1])
    ensures v < 256 && Hex2(v) == [UpperChar(s[at]), UpperChar(s[at + 1])]
  {
    UpperHexOfValue(s[at]);
    UpperHexOfValue(s[at + 1]);
    assert v / 16 == HexCharValue(s[at]) && v % 16 == HexCharValue(s[at + 1]);
  }

  /** `color-hex` is the upper-cased `#RRGGBB`, a space, the rounded alpha
      percentage in decimal and `%`; each piece reads back to its channel. */
  lemma ColorHexFields(s: string, c: SMColor)
    requires WellFormedColor(s) && c == ParseColor(s)
    ensures |c.colorHex| >= 10
    ensures c.colorHex[0] == '#'
    ensures c.colorHex[..7] == Upper(s[..7])
    ensures AllHex(c.colorHex[1..3]) && HexValue(c.colorHex[1..3]) == c.r
    ensures AllHex(c.colorHex[3..5]) && HexValue(c.colorHex[3..5]) == c.g
    ensures AllHex(c.colorHex[5..7]) && HexValue(c.colorHex[5..7]) == c.b
    ensures c.colorHex[7] == ' ' && c.colorHex[|c.colorHex| - 1] == '%'
    ensures AllDecimal(c.colorHex[8..|c.colorHex| - 1]) && NoLeadingZero(c.colorHex[8..|c.colorHex| - 1])
    ensures IsRoundedPercent(c.a, DecimalValue(c.colorHex[8..|c.colorHex| - 1]))
  {
    assert c.colorHex == Upper(s)[..7] + " " + Decimal(AlphaPercent(c.a)) + "%";
    ColorHexReads(s, c.colorHex, c.r, c.g, c.b, c.a);
  }

  /** The pieces of a `color-hex` string built from `s` and its channels. */
  lemma ColorHexReads(s: string, t: string, r: nat, g: nat, b: nat, a: nat)
    requires WellFormedColor(s) && a < 256
    requires r == 16 * HexCharValue(s[1]) + HexCharValue(s[2])
    requires g == 16 * HexCharValue(s[3]) + HexCharValue(s[4])
    requires b == 16 * HexCharValue(s[5]) + HexCharValue(s[6])
    requires t == Upper(s)[..7] + " " + Decimal(AlphaPercent(a)) + "%"
    ensures |t| >= 10
    ensures t[0] == '#'
    ensures t[..7] == Upper(s[..7])
    ensures AllHex(t[1..3]) && HexValue(t[1..3]) == r
    ensures AllHex(t[3..5]) && HexValue(t[3..5]) == g
    ensures AllHex(t[5..7]) && HexValue(t[5..7]) == b
    ensures t[7] == ' ' && t[|t| - 1] == '%'
    ensures AllDecimal(t[8..|t| - 1]) && NoLeadingZero(t[8..|t| - 1])
    ensures IsRoundedPercent(a, DecimalValue(t[8..|t| - 1]))
  {
    var p := Decimal(AlphaPercent(a));
    assert t[8..|t| - 1] == p;
    DecimalRoundTrip(AlphaPercent(a));
    PairReads(s, t, 1, r);
    PairReads(s, t, 3, g);
    PairReads(s, t, 5, b);
  }

  /** A pair of input digits, copied upper-cased to the same place of `t`,
      reads back to the channel decoded from it. */
  lemma PairReads(s: string, t: string, at: nat, v: nat)
    requires WellFormedColor(s) && 1 <= at <= 7
    requires |t| >= at + 2
    requires t[at] == UpperChar(s[at]) && t[at + 1] == UpperChar(s[at + 1])
    requires v == 16 * HexCharValue(s[at]) + HexCharValue(s[at + 1])
    ensures AllHex(t[at..at + 2]) && HexValue(t[at..at + 2]) == v
  {
    UpperHexKeepsValue(s[at]);
    UpperHexKeepsValue(s[at + 1]);
    var pair := t[at..at + 2];
    assert pair[0] == t[at] && pair[1] == t[at + 1];
    HexPair(pair);
  }

  /** `argb-hex` is `#`, the alpha channel in upper-case hex without zero
      padding (one digit below 16, two from 16), then the upper-cased
      `RRGGBB`; each piece reads back to its channel and no lower-case
      letter remains. */
  lemma ArgbHexFields(s: string, c: SMColor)
    requires WellFormedColor(s) && c == ParseColor(s)
    ensures |c.argbHex| == if c.a < 16 then 8 else 9
    ensures c.argbHex[0] == '#'
    ensures var n := |c.argbHex|;
            && AllHex(c.argbHex[1..n - 6]) && HexValue(c.argbHex[1..n - 6]) == c.a
            && c.argbHex[n - 6..] == Upper(s[1..7])
    ensures forall i :: 0 <= i < |c.argbHex| ==> !('a' <= c.argbHex[i] <= 'z')
  {
    var u := Upper(s);
    assert forall i :: 0 <= i < 6 ==> u[1..7][i] != '#';
    assert c.argbHex == "#" + UpperHex(c.a) + u[1..7];
    ArgbHexReads(s, c.argbHex, c.a);
  }

  /** The pieces of an `argb-hex` string built from `s` and its alpha
      channel. */
  lemma ArgbHexReads(s: string, t: string, a: nat)
    requires |s| >= 7 && a < 256
    requires t == "#" + UpperHex(a) + Upper(s)[1..7]
    ensures |t| == if a < 16 then 8 else 9
    ensures t[0] == '#'
    ensures var n := |t|;
            && AllHex(t[1..n - 6]) && HexValue(t[1..n - 6]) == a
            && t[n - 6..] == Upper(s[1..7])
    ensures forall i :: 0 <= i < |t| ==> !('a' <= t[i] <= 'z')
  {
    var h := UpperHex(a);
    var n := |t|;
    assert t[1..n - 6] == h;
    assert t[n - 6..] == Upper(s)[1..7];
    UpperHexRoundTrip(a);
    UpperHexLength(a);
    assert |h| == if a < 16 then 1 else 2;
  }

  /** Each `ui-color` field reads back to its channel: `toFixed(2)` writes
      the integer in decimal followed by `.00`. */
  lemma Fixed2RoundTrip(v: nat)
    ensures var t := Fixed2(v);
            && AllDecimal(t[..|t| - 3]) && DecimalValue(t[..|t| - 3]) == v
            && t[|t| - 3..] == ".00"
  {
    var t := Fixed2(v);
    assert t[..|t| - 3] == Decimal(v);
    DecimalRoundTrip(v);
  }

  /** One `ui-color` field: the tag, a colon, then a decimal numeral that
      reads back to `v`, then `.00`. */
  ghost predicate ReadsField(f: string, tag: char, v: nat)
  {
    && |f| >= 6 && f[0] == tag && f[1] == ':'
    && AllDecimal(f[2..|f| - 3]) && DecimalValue(f[2..|f| - 3]) == v
    && f[|f| - 3..] == ".00"
  }

  /** The width of a `ui-color` field for `v`. */
  function FieldWidth(v: nat): nat
  {
    |Decimal(v)| + 5
  }

  /** The layout of `ui-color` for channels `r`, `g`, `b`, `a`: the four
      fields tagged `r`, `g`, `b` and `a`, in that order, separated by
      single spaces and enclosed in parentheses, each reading back to its
      channel. */
  ghost predicate UiColorLayout(t: string, r: nat, g: nat, b: nat, a: nat)
  {
    var gAt := 2 + FieldWidth(r);
    var bAt := gAt + 1 + FieldWidth(g);
    var aAt := bAt + 1 + FieldWidth(b);
    && |t| == aAt + FieldWidth(a) + 1
    && t[0] == '(' && t[|t| - 1] == ')'
    && t[gAt - 1] == ' ' && t[bAt - 1] == ' ' && t[aAt - 1] == ' '
    && ReadsField(t[1..gAt - 1], 'r', r)
    && ReadsField(t[gAt..bAt - 1], 'g', g)
    && ReadsField(t[bAt..aAt - 1], 'b', b)
    && ReadsField(t[aAt..|t| - 1], 'a', a)
  }

  /** `ui-color` lists the four channels, each field reading back to its
      channel. */
  lemma UiColorFields(s: string, c: SMColor)
    requires WellFormedColor(s) && c == ParseColor(s)
    ensures UiColorLayout(c.uiColor, c.r, c.g, c.b, c.a)
  {
    var t, r, g, b, a := c.uiColor, c.r, c.g, c.b, c.a;
    assert t == "(" + Field('r', r) + " " + Field('g', g) + " " + Field('b', b) + " " + Field('a', a) + ")";
    UiColorReads(t, r, g, b, a);
  }

  /** A field as `ui-color` writes it. */
  function Field(tag: char, v: nat): (f: string)
    ensures |f| == FieldWidth(v)
  {
    [tag, ':'] + Fixed2(v)
  }

  /** The layout of a `ui-color` string built from four channels. */
  lemma UiColorReads(t: string, r: nat, g: nat, b: nat, a: nat)
    requires t == "(" + Field('r', r) + " " + Field('g', g) + " " + Field('b', b) + " " + Field('a', a) + ")"
    ensures UiColorLayout(t, r, g, b, a)
  {
    UiPunctuation(t, r, g, b, a);
    UiFields(t, r, g, b, a);
  }

  /** The parentheses and separators of a `ui-color` string. */
  lemma UiPunctuation(t: string, r: nat, g: nat, b: nat, a: nat)
    requires t == "(" + Field('r', r) + " " + Field('g', g) + " " + Field('b', b) + " " + Field('a', a) + ")"
    ensures var gAt := 2 + FieldWidth(r);
            var bAt := gAt + 1 + FieldWidth(g);
            var aAt := bAt + 1 + FieldWidth(b);
            && |t| == aAt + FieldWidth(a) + 1
            && t[0] == '(' && t[|t| - 1] == ')'
            && t[gAt - 1] == ' ' && t[bAt - 1] == ' ' && t[aAt - 1] == ' '
  {
  }

  /** The four fields of a `ui-color` string. */
  lemma UiFields(t: string, r: nat, g: nat, b: nat, a: nat)
    requires t == "(" + Field('r', r) + " " + Field('g', g) + " " + Field('b', b) + " " + Field('a', a) + ")"
    ensures var gAt := 2 + FieldWidth(r);
            var bAt := gAt + 1 + FieldWidth(g);
            var aAt := bAt + 1 + FieldWidth(b);
            && |t| == aAt + FieldWidth(a) + 1
            && ReadsField(t[1..gAt - 1], 'r', r)
            && ReadsField(t[gAt..bAt - 1], 'g', g)
            && ReadsField(t[bAt..aAt - 1], 'b', b)
            && ReadsField(t[aAt..|t| - 1], 'a', a)
  {
    var fr, fg, fb, fa := Field('r', r), Field('g', g), Field('b', b), Field('a', a);
    var t4 := "(" + fr + " " + fg + " ";
    var t5 := t4 + fb;
    var t6 := t5 + " ";
    var t7 := t6 + fa;
    var bAt := 2 + FieldWidth(r) + 1 + FieldWidth(g);
    BackFields(t, t4, fb, fa, b, a, bAt);
    assert t[..|t7|] == t7;
    ShorterPrefix(t, t6, fa);
    ShorterPrefix(t, t5, " ");
    ShorterPrefix(t, t4, fb);
    FrontFields(t, fr, fg, r, g);
  }

  /** The first two fields, given the prefix that holds them. */
  lemma FrontFields(t: string, fr: string, fg: string, r: nat, g: nat)
    requires fr == Field('r', r) && fg == Field('g', g)
    requires 3 + |fr| + |fg| <= |t| && t[..3 + |fr| + |fg|] == "(" + fr + " " + fg + " "
    ensures var gAt := 2 + FieldWidth(r);
            var bAt := gAt + 1 + FieldWidth(g);
            && ReadsField(t[1..gAt - 1], 'r', r)
            && ReadsField(t[gAt..bAt - 1], 'g', g)
  {
    var t1 := "(" + fr;
    var t2 := t1 + " ";
    var t3 := t2 + fg;
    ShorterPrefix(t, t3, " ");
    ShorterPrefix(t, t2, fg);
    ShorterPrefix(t, t1, " ");
    var gAt := 2 + FieldWidth(r);
    var bAt := gAt + 1 + FieldWidth(g);
    FieldAfter(t, "(", fr, 'r', r, 1, gAt - 1);
    FieldAfter(t, t2, fg, 'g', g, gAt, bAt - 1);
  }

  /** The last two fields, after a prefix `t4`. */
  lemma BackFields(t: string, t4: string, fb: string, fa: string, b: nat, a: nat, bAt: nat)
    requires fb == Field('b', b) && fa == Field('a', a)
    requires t == t4 + fb + " " + fa + ")" && bAt == |t4|
    ensures var aAt := bAt + 1 + FieldWidth(b);
            && |t| == aAt + FieldWidth(a) + 1
            && ReadsField(t[bAt..aAt - 1], 'b', b)
            && ReadsField(t[aAt..|t| - 1], 'a', a)
  {
    var t5 := t4 + fb;
    var t6 := t5 + " ";
    var t7 := t6 + fa;
    assert t[..|t7|] == t7;
    ShorterPrefix(t, t6, fa);
    ShorterPrefix(t, t5, " ");
    var aAt := bAt + 1 + FieldWidth(b);
    FieldAfter(t, t4, fb, 'b', b, bAt, aAt - 1);
    FieldAfter(t, t6, fa, 'a', a, aAt, |t| - 1);
  }

  /** A prefix of `t` that extends `u` starts with `u`. */
  lemma ShorterPrefix(t: string, u: string, v: string)
    requires |u| + |v| <= |t| && t[..|u| + |v|] == u + v
    ensures t[..|u|] == u
  {
    assert forall i :: 0 <= i < |u| ==> t[i] == (u + v)[i];
  }

  /** A field that `t` spells right after the prefix `x` reads back
      there. */
  lemma FieldAfter(t: string, x: string, f: string, tag: char, v: nat, at: nat, end: nat)
    requires f == Field(tag, v)
    requires |x| + |f| <= |t| && t[..|x| + |f|] == x + f
    requires at == |x| && end == |x| + |f|
    ensures ReadsField(t[at..end], tag, v)
  {
    assert t[|x|..|x| + |f|] == f by {
      forall i | 0 <= i < |f|
        ensures t[|x|..|x| + |f|][i] == f[i]
      {
        assert t[|x| + i] == (x + f)[|x| + i];
      }
    }
    FieldRoundTrip(tag, v);
  }

  /** A field reads back to the channel it was written from. */
  lemma FieldRoundTrip(tag: char, v: nat)
    ensures ReadsField(Field(tag, v), tag, v)
  {
    var f := Field(tag, v);
    assert f[2..|f| - 3] == Decimal(v);
    DecimalRoundTrip(v);
  }
}

=== FILE: fragments.dfy ===
/** Styled text runs of one text block and the split operation
    (`splitFragment` in src/meaxure/export/textFragment.ts). */
module Fragments {
  import opened Wrappers

  /** One styled run: `text` starts at character offset `location` of the
      block and has `length` characters; `style` is carried along untouched. */
  datatype Fragment<S> = Fragment(text: string, location: nat, length: nat, style: S)

  /** The two ways the mapper can throw: a split to a negative length, and
      reading `.text` of the `undefined` that `shift()` returns on an empty
      stream. */
  datatype MapError = NegativeLength | StreamExhausted

  /** The source compares element lengths with `text.length` but splits with
      `.length`; the model requires the two to agree. */
  predicate WellFormed<S>(f: Fragment<S>)
  {
    f.length == |f.text|
  }

  predicate AllWellFormed<S>(fs: seq<Fragment<S>>)
  {
    forall i :: 0 <= i < |fs| ==> WellFormed(fs[i])
  }

  function TotalLength<S>(fs: seq<Fragment<S>>): nat
  {
    if |fs| == 0 then 0 else fs[0].length + TotalLength(fs[1..])
  }

  /** The block text the fragments spell out, in order. */
  function FullText<S>(fs: seq<Fragment<S>>): string
  {
    if |fs| == 0 then "" else fs[0].text + FullText(fs[1..])
  }

  /** The fragments tile the block from offset `loc` on without gap or overlap. */
  predicate Contiguous<S>(fs: seq<Fragment<S>>, loc: int)
  {
    |fs| == 0 || (fs[0].location == loc && Contiguous(fs[1..], loc + fs[0].length))
  }

  lemma {:induction false} FullTextLength<S>(fs: seq<Fragment<S>>)
    requires AllWellFormed(fs)
    ensures |FullText(fs)| == TotalLength(fs)
  {
    if |fs| > 0 {
      FullTextLength(fs[1..]);
    }
  }

  lemma FullTextCons<S>(f: Fragment<S>, fs: seq<Fragment<S>>)
    ensures FullText([f] + fs) == f.text + FullText(fs)
    ensures TotalLength([f] + fs) == f.length + TotalLength(fs)
    ensures Contiguous([f] + fs, f.location) <==> Contiguous(fs, f.location + f.length)
  {
    assert ([f] + fs)[1..] == fs;
  }

  /** The pair `splitFragment` returns: the left part and the remainder,
      which is `undefined` (here `None`) once nothing is left. */
  datatype Split<S> = Split(left: Fragment<S>, rest: Option<Fragment<S>>)

  /** `splitFragment`: cut `splitText.length` characters off the front of `f`.
      The left part carries `splitText` itself as its text. */
  function SplitFragment<S>(f: Fragment<S>, splitText: string): (r: Result<Split<S>, MapError>)
    requires WellFormed(f)
    ensures r.Failure? <==> |splitText| > f.length
    ensures r.Failure? ==> r.error == NegativeLength
    ensures r.Success? ==>
              && r.value.left.text == splitText
              && r.value.left.length == |splitText|
              && r.value.left.location == f.location
              && r.value.left.style == f.style
    ensures r.Success? ==> (r.value.rest.None? <==> |splitText| == f.length)
    ensures r.Success? && r.value.rest.Some? ==>
              var rest := r.value.rest.value;
              && rest.text == f.text[|splitText|..]
              && rest.location == f.location + |splitText|
              && rest.length == f.length - |splitText|
              && rest.style == f.style
              && WellFormed(rest)
  {
    var k := |splitText|;
    if f.length - k < 0 then
      Failure(NegativeLength)
    else
      var rest := Fragment(f.text[k..], f.location + k, f.length - k, f.style);
      Success(Split(Fragment(splitText, f.location, k, f.style), if rest.length == 0 then None else Some(rest)))
  }

  /** The parts of a split, left to right. */
  function Parts<S>(s: Split<S>): seq<Fragment<S>>
  {
    [s.left] + (if s.rest.Some? then [s.rest.value] else [])
  }

  /** Splitting loses and duplicates nothing: the parts tile the original
      span, their lengths add up, and when `splitText` is the fragment's own
      prefix the parts spell out the original text again. */
  lemma SplitRejoins<S>(f: Fragment<S>, splitText: string)
    requires WellFormed(f)
    requires |splitText| <= f.length
    ensures SplitFragment(f, splitText).Success?
    ensures var parts := Parts(SplitFragment(f, splitText).value);
            && AllWellFormed(parts)
            && TotalLength(parts) == f.length
            && Contiguous(parts, f.location)
            && FullText(parts) == splitText + f.text[|splitText|..]
            && (splitText == f.text[..|splitText|] ==> FullText(parts) == f.text)
  {
    var s := SplitFragment(f, splitText).value;
    var parts := Parts(s);
    var k := |splitText|;
    if s.rest.Some? {
      var rest := s.rest.value;
      FullTextCons(rest, []);
      FullTextCons(s.left, [rest]);
      assert parts == [s.left] + [rest];
    } else {
      FullTextCons(s.left, []);
      assert parts == [s.left] + [];
      assert f.text[k..] == "";
    }
    assert f.text[..k] + f.text[k..] == f.text;
  }
}

=== FILE: keep_around.dfy ===
/** The keep-around reference set of src/state/keepAround.ts: the plugin
    asks the host to keep its script context alive while at least one
    request is registered. The module state is the flag
    `globalShouldKeepAround` and the set of registered request IDs; calls
    into the host and debug messages are recorded in an event log. */
module KeepAround {
  import opened Wrappers

  datatype HostEvent =
    | SetShouldKeepAround(on: bool)   // coscript.setShouldKeepAround(on)
    | Debug(message: string)          // logger.debug(message)

  datatype KeepState = KeepState(keepAround: bool, requested: set<string>, log: seq<HostEvent>)

  /** The module's state when it is loaded. */
  function Initial(): (s: KeepState)
    ensures Consistent(s) && HostAgrees(s)
  {
    KeepState(false, {}, [])
  }

  /** The outcome of a call: the state after it, and the message thrown,
      if any. */
  datatype Outcome = Outcome(state: KeepState, thrown: Option<string>)

  const MissingId := "requestID is needed for setShouldKeepAround"

  /** `!requestID`: a missing (`undefined`/`null`) or empty ID. */
  predicate Falsy(id: Option<string>)
  {
    id.None? || id.value == ""
  }

  /** What the host is told when the flag flips. */
  function Switch(on: bool): seq<HostEvent>
  {
    [SetShouldKeepAround(on), Debug(if on then "coscript.setShouldKeepAround(true)" else "coscript.setShouldKeepAround(false)")]
  }

  /** `coscriptKeepAround`. */
  function KeepAroundCall(s: KeepState, id: Option<string>): (o: Outcome)
    ensures Falsy(id) <==> o.thrown.Some?
    ensures Falsy(id) ==> o.state == s && o.thrown == Some(MissingId)
    ensures !Falsy(id) ==>
              && o.state.keepAround
              && o.state.requested == s.requested + {id.value}
              && o.state.log == s.log + (if s.keepAround then [] else Switch(true))
  {
    if Falsy(id) then Outcome(s, Some(MissingId))
    else
      var s' := if !s.keepAround then s.(keepAround := true, log := s.log + Switch(true)) else s;
      Outcome(s'.(requested := s'.requested + {id.value}), None)
  }

  /** `coscriptNotKeepAround`. */
  function NotKeepAroundCall(s: KeepState, id: Option<string>): (o: Outcome)
    ensures Falsy(id) <==> o.thrown.Some?
    ensures Falsy(id) ==> o.state == s && o.thrown == Some(MissingId)
    ensures !Falsy(id) && id.value !in s.requested ==> o.state == s
    ensures !Falsy(id) && id.value in s.requested ==>
              && o.state.requested == s.requested - {id.value}
              && o.state.keepAround == (s.keepAround && o.state.requested != {})
              && o.state.log == s.log + (if s.keepAround && o.state.requested == {} then Switch(false) else [])
  {
    if Falsy(id) then Outcome(s, Some(MissingId))
    else if id.value !in s.requested then Outcome(s, None)
    else
      var s' := s.(requested := s.requested - {id.value});
      if s'.requested == {} && s'.keepAround then
        Outcome(s'.(keepAround := false, log := s'.log + Switch(false)), None)
      else
        Outcome(s', None)
  }

  // ---------------------------------------------------------------------
  // Invariants

  /** The flag is set exactly while some request is registered. */
  predicate Consistent(s: KeepState)
  {
    s.keepAround <==> s.requested != {}
  }

  /** The last value handed to the host, if any. */
  function LastSwitch(log: seq<HostEvent>): Option<bool>
  {
    if |log| == 0 then None
    else if log[|log| - 1].SetShouldKeepAround? then Some(log[|log| - 1].on)
    else LastSwitch(log[..|log| - 1])
  }

  /** The host was last told what the flag says (and never told anything
      while the flag is still at its initial `false`). */
  predicate HostAgrees(s: KeepState)
  {
    LastSwitch(s.log) == (if s.keepAround then Some(true) else if LastSwitch(s.log).None? then None else Some(false))
  }

  lemma LastSwitchOfSwitch(log: seq<HostEvent>, on: bool)
    ensures LastSwitch(log + Switch(on)) == Some(on)
  {
    var l := log + Switch(on);
    assert l[..|l| - 1] == log + [SetShouldKeepAround(on)];
  }

  /** Both calls keep the flag consistent with the registered set. */
  lemma KeepAroundConsistent(s: KeepState, id: Option<string>)
    requires Consistent(s)
    ensures Consistent(KeepAroundCall(s, id).state)
  {
  }

  lemma NotKeepAroundConsistent(s: KeepState, id: Option<string>)
    requires Consistent(s)
    ensures Consistent(NotKeepAroundCall(s, id).state)
  {
  }

  /** Both calls keep the host informed of the flag. */
  lemma KeepAroundHostAgrees(s: KeepState, id: Option<string>)
    requires HostAgrees(s)
    ensures HostAgrees(KeepAroundCall(s, id).state)
  {
    LastSwitchOfSwitch(s.log, true);
  }

  lemma NotKeepAroundHostAgrees(s: KeepState, id: Option<string>)
    requires HostAgrees(s)
    ensures HostAgrees(NotKeepAroundCall(s, id).state)
  {
    LastSwitchOfSwitch(s.log, false);
  }

  // ---------------------------------------------------------------------
  // Behaviour

  /** Registering the same ID twice is the same as registering it once. */
  lemma KeepAroundIdempotent(s: KeepState, id: Option<string>)
    ensures var once := KeepAroundCall(s, id);
            KeepAroundCall(once.state, id) == once
  {
  }

  /** Under the invariant, the host is told to keep the context alive
      exactly when the first request is registered. */
  lemma KeepAroundSwitchesOnFirst(s: KeepState, id: Option<string>)
    requires Consistent(s) && !Falsy(id)
    ensures var after := KeepAroundCall(s, id).state;
            after.log != s.log <==> s.requested == {}
  {
  }

  /** Under the invariant, the host is told to let the context go exactly
      when the last registered request is removed; every other ID stays
      registered. */
  lemma NotKeepAroundSwitchesOnLast(s: KeepState, id: Option<string>)
    requires Consistent(s) && !Falsy(id)
    ensures var after := NotKeepAroundCall(s, id).state;
            && (after.log != s.log <==> s.requested == {id.value})
            && (forall other :: other in s.requested && other != id.value ==> other in after.requested)
            && id.value !in after.requested
  {
  }

  /** Registering a new ID and then removing it restores the registered
      set and the flag; the host has been told both transitions if the
      set was empty before. */
  lemma KeepThenRelease(s: KeepState, id: Option<string>)
    requires Consistent(s) && !Falsy(id) && id.value !in s.requested
    ensures var after := NotKeepAroundCall(KeepAroundCall(s, id).state, id).state;
            && after.requested == s.requested
            && after.keepAround == s.keepAround
            && after.log == s.log + (if s.requested == {} then Switch(true) + Switch(false) else [])
  {
    var mid := KeepAroundCall(s, id).state;
    assert mid.requested - {id.value} == s.requested;
  }
}

=== FILE: mapper.dfy ===
/** The fragment/line mapper (`getFragmentsByLines` in
    src/meaxure/export/textFragment.ts): walks the author's fragment stream
    against the renderer's lines, splitting fragments that wrap and emitting
    a paragraph-break marker for every line break the renderer does not show. */
module FragmentMapper {
  import opened Wrappers
  import opened Seqs
  import opened Fragments

  /** One entry of the mapped output: the fragments of one visual line, or a
      paragraph-break marker (the source's `null`). */
  datatype Entry<S> = Line(fragments: seq<Fragment<S>>) | ParagraphBreak

  /** The mapper's state between two rendered elements: the active fragment
      (`currentFragment`), the not yet shifted stream, and `isPrevNewLine`. */
  datatype Cursor<S> = Cursor(active: Option<Fragment<S>>, stream: seq<Fragment<S>>, prevNewLine: bool)

  /** The fragments still to be consumed, active one first. */
  function Pending<S>(c: Cursor<S>): seq<Fragment<S>>
  {
    match c.active
    case Some(f) => [f] + c.stream
    case None => c.stream
  }

  predicate Valid<S>(c: Cursor<S>)
  {
    AllWellFormed(Pending(c))
  }

  predicate StartsWithNewline(s: string)
  {
    |s| > 0 && s[0] == '\n'
  }

  /** Number of '\n' characters at the front of `s`. */
  function LeadingNewlines(s: string): (n: nat)
    ensures n <= |s|
  {
    if StartsWithNewline(s) then 1 + LeadingNewlines(s[1..]) else 0
  }

  /** A non-empty text made of line breaks only. */
  predicate IsNewlineRun(s: string)
  {
    |s| > 0 && LeadingNewlines(s) == |s|
  }

  predicate AllNewlines<S>(fs: seq<Fragment<S>>)
  {
    forall i :: 0 <= i < |fs| ==> IsNewlineRun(fs[i].text)
  }

  /** How many line breaks the strip loop removes from the front of the
      pending fragments: it crosses into the next fragment only when the
      current one is used up, and stops at the first fragment whose text
      does not start with '\n' (an empty one included). */
  function LeadingBreaks<S>(fs: seq<Fragment<S>>): nat
  {
    if |fs| == 0 then 0
    else if IsNewlineRun(fs[0].text) then |fs[0].text| + LeadingBreaks(fs[1..])
    else LeadingNewlines(fs[0].text)
  }

  /** `m` repetitions of a compensating empty line followed by a marker. */
  function Gaps<S>(m: nat): seq<Entry<S>>
  {
    if m == 0 then [] else [Line([]), ParagraphBreak] + Gaps(m - 1)
  }

  /** The entries the strip loop emits for `n` line breaks when it is entered
      with flag `prevNewLine`: one marker per break, and an empty line before
      every marker whose predecessor was a break. */
  function BreakEntries<S>(prevNewLine: bool, n: nat): seq<Entry<S>>
  {
    if n == 0 then [] else (if prevNewLine then [Line([])] else []) + [ParagraphBreak] + Gaps(n - 1)
  }

  /** Number of paragraph-break markers. */
  function Breaks<S>(es: seq<Entry<S>>): nat
  {
    if |es| == 0 then 0 else (if es[0].ParagraphBreak? then 1 else 0) + Breaks(es[1..])
  }

  /** All fragments of the line entries, in order. */
  function EmittedFragments<S>(es: seq<Entry<S>>): seq<Fragment<S>>
  {
    if |es| == 0 then [] else (if es[0].Line? then es[0].fragments else []) + EmittedFragments(es[1..])
  }

  lemma {:induction false} GapsShape<S>(m: nat)
    ensures Breaks(Gaps<S>(m)) == m && EmittedFragments(Gaps<S>(m)) == []
  {
    if m > 0 {
      GapsShape<S>(m - 1);
      var g: seq<Entry<S>> := [Line([]), ParagraphBreak] + Gaps(m - 1);
      assert g[1..] == [ParagraphBreak] + Gaps(m - 1);
      assert g[1..][1..] == Gaps(m - 1);
    }
  }

  /** Each stripped line break yields exactly one marker, and the
      compensating lines carry no fragments. */
  lemma BreakEntriesShape<S>(prevNewLine: bool, n: nat)
    ensures Breaks(BreakEntries<S>(prevNewLine, n)) == n
    ensures EmittedFragments(BreakEntries<S>(prevNewLine, n)) == []
  {
    if n > 0 {
      GapsShape<S>(n - 1);
      var tail: seq<Entry<S>> := [ParagraphBreak] + Gaps(n - 1);
      assert tail[1..] == Gaps(n - 1);
      if prevNewLine {
        var e: seq<Entry<S>> := [Line([])] + tail;
        assert e[1..] == tail;
        assert BreakEntries<S>(prevNewLine, n) == e;
      } else {
        assert BreakEntries<S>(prevNewLine, n) == tail;
      }
    }
  }

  /** What the strip loop leaves behind: the fragment that became active,
      the rest of the stream, and the entries pushed on the way. */
  datatype Stripped<S> = Stripped(active: Fragment<S>, stream: seq<Fragment<S>>, emitted: seq<Entry<S>>)

  lemma StripStep<S>(c: Fragment<S>, stream: seq<Fragment<S>>)
    requires WellFormed(c) && StartsWithNewline(c.text)
    ensures c.text == "\n" ==>
              && LeadingBreaks([c] + stream) == 1 + LeadingBreaks(stream)
              && (AllNewlines([c] + stream) <==> AllNewlines(stream))
    ensures c.text != "\n" ==>
              var rest := c.(text := c.text[1..], location := c.location + 1, length := c.length - 1);
              && LeadingBreaks([c] + stream) == 1 + LeadingBreaks([rest] + stream)
              && (AllNewlines([c] + stream) <==> AllNewlines([rest] + stream))
  {
    assert ([c] + stream)[1..] == stream;
    assert LeadingNewlines(c.text) == 1 + LeadingNewlines(c.text[1..]);
    if c.text == "\n" {
      assert IsNewlineRun(c.text);
      if AllNewlines(stream) {
        forall i | 0 <= i < |[c] + stream|
          ensures IsNewlineRun(([c] + stream)[i].text)
        {
          if i > 0 {
            assert ([c] + stream)[i] == stream[i - 1];
          }
        }
      }
      if AllNewlines([c] + stream) {
        forall i | 0 <= i < |stream|
          ensures IsNewlineRun(stream[i].text)
        {
          assert stream[i] == ([c] + stream)[i + 1];
        }
      }
    } else {
      var rest := c.(text := c.text[1..], location := c.location + 1, length := c.length - 1);
      assert ([rest] + stream)[1..] == stream;
      assert IsNewlineRun(c.text) <==> IsNewlineRun(rest.text);
      if AllNewlines([rest] + stream) {
        forall i | 0 <= i < |[c] + stream|
          ensures IsNewlineRun(([c] + stream)[i].text)
        {
          if i > 0 {
            assert ([c] + stream)[i] == ([rest] + stream)[i];
          } else {
            assert IsNewlineRun(([rest] + stream)[0].text);
          }
        }
      }
      if AllNewlines([c] + stream) {
        forall i | 0 <= i < |[rest] + stream|
          ensures IsNewlineRun(([rest] + stream)[i].text)
        {
          if i > 0 {
            assert ([c] + stream)[i] == ([rest] + stream)[i];
          } else {
            assert IsNewlineRun(([c] + stream)[0].text);
          }
        }
      }
    }
  }

  /** The inner `while` loop: as long as the active fragment starts with a
      line break, split that break off (the left part is dropped), push a
      compensating empty line if the previous step was a break too, push a
      marker, and shift the next fragment once the active one is used up. */
  function StripNewlines<S>(c: Fragment<S>, stream: seq<Fragment<S>>, prevNewLine: bool): (r: Result<Stripped<S>, MapError>)
    requires WellFormed(c) && AllWellFormed(stream)
    ensures r.Success? ==> WellFormed(r.value.active) && AllWellFormed(r.value.stream)
    decreases |stream|, |c.text|
  {
    if !StartsWithNewline(c.text) then
      Success(Stripped(c, stream, []))
    else
      var marks: seq<Entry<S>> := (if prevNewLine then [Line([])] else []) + [ParagraphBreak];
      var split := SplitFragment(c, "\n");
      if split.Failure? then
        Failure(NegativeLength)
      else
        match split.value.rest
        case Some(rest) =>
          var tail :- StripNewlines(rest, stream, true);
          Success(tail.(emitted := marks + tail.emitted))
        case None =>
          if |stream| == 0 then
            Failure(StreamExhausted)
          else
            assert stream == [stream[0]] + stream[1..];
            var tail :- StripNewlines(stream[0], stream[1..], true);
            Success(tail.(emitted := marks + tail.emitted))
  }

  /** The strip loop fails exactly when the pending fragments hold nothing
      but line breaks (`shift()` then returns `undefined`), and otherwise
      stops at a fragment that does not start with one. */
  lemma {:induction false} StripOutcome<S>(c: Fragment<S>, stream: seq<Fragment<S>>, prevNewLine: bool)
    requires WellFormed(c) && AllWellFormed(stream)
    ensures var r := StripNewlines(c, stream, prevNewLine);
            && (r.Failure? <==> AllNewlines([c] + stream))
            && (r.Failure? ==> r.error == StreamExhausted)
            && (r.Success? ==> !StartsWithNewline(r.value.active.text))
    decreases |stream|, |c.text|
  {
    if !StartsWithNewline(c.text) {
      assert ([c] + stream)[0] == c;
      assert !IsNewlineRun(([c] + stream)[0].text);
    } else {
      StripStep(c, stream);
      var split := SplitFragment(c, "\n");
      match split.value.rest
      case Some(rest) =>
        StripOutcome(rest, stream, true);
      case None =>
        if |stream| > 0 {
          assert stream == [stream[0]] + stream[1..];
          StripOutcome(stream[0], stream[1..], true);
        } else {
          assert AllNewlines<S>([]);
        }
    }
  }

  /** Shift a fragment if none is active, then run the strip loop. */
  function StripPending<S>(cur: Cursor<S>): (r: Result<Stripped<S>, MapError>)
    requires Valid(cur)
    ensures r.Success? ==> WellFormed(r.value.active) && AllWellFormed(r.value.stream)
  {
    var p := Pending(cur);
    if |p| == 0 then
      Failure(StreamExhausted)
    else
      assert p == [p[0]] + p[1..];
      StripNewlines(p[0], p[1..], cur.prevNewLine)
  }

  lemma PendingOutcome<S>(cur: Cursor<S>)
    requires Valid(cur)
    ensures var r := StripPending(cur);
            && (r.Failure? <==> AllNewlines(Pending(cur)))
            && (r.Failure? ==> r.error == StreamExhausted)
            && (r.Success? ==> !StartsWithNewline(r.value.active.text))
  {
    var p := Pending(cur);
    if |p| > 0 {
      assert p == [p[0]] + p[1..];
      StripOutcome(p[0], p[1..], cur.prevNewLine);
    }
  }

  /** What happened for one rendered element, in processing order: the
      entries pushed by the strip loop, then the fragment placed on the line. */
  datatype Step<S> = Step(breaks: seq<Entry<S>>, fragment: Fragment<S>)

  datatype Taken<S> = Taken(cursor: Cursor<S>, step: Step<S>)

  /** One iteration of the element loop: strip line breaks, then either take
      the whole active fragment (lengths equal) or split the element's length
      off it; `isPrevNewLine` is cleared afterwards. */
  function TakeElement<S>(cur: Cursor<S>, element: string): (r: Result<Taken<S>, MapError>)
    requires Valid(cur)
    ensures r.Success? ==> Valid(r.value.cursor)
  {
    var st :- StripPending(cur);
    if |element| == |st.active.text| then
      Success(Taken(Cursor(None, st.stream, false), Step(st.emitted, st.active)))
    else
      var split :- SplitFragment(st.active, element);
      assert Pending(Cursor(split.rest, st.stream, false)) == Parts(split)[1..] + st.stream;
      Success(Taken(Cursor(split.rest, st.stream, false), Step(st.emitted, split.left)))
  }

  /** An element step fails on a stream of line breaks only, and otherwise
      exactly when the element is longer than the fragment the strip loop
      leaves active; on success it clears the flag and places a fragment as
      long as the element: the active fragment itself when the two are
      equally long, and otherwise a fragment holding the element's text at
      the active fragment's location and in its style. */
  lemma TakeOutcome<S>(cur: Cursor<S>, element: string)
    requires Valid(cur)
    ensures var r := TakeElement(cur, element);
            && (AllNewlines(Pending(cur)) ==> r == Failure(StreamExhausted))
            && (!AllNewlines(Pending(cur)) ==>
                  && StripPending(cur).Success?
                  && (r.Failure? <==> |element| > StripPending(cur).value.active.length)
                  && (r.Failure? ==> r.error == NegativeLength))
            && (r.Success? ==>
                  && !r.value.cursor.prevNewLine
                  && r.value.step.fragment.length == |element| == |r.value.step.fragment.text|)
    ensures var r := TakeElement(cur, element);
            r.Success? ==>
              && StripPending(cur).Success?
              && var a := StripPending(cur).value.active;
                 var f := r.value.step.fragment;
                 if |element| == |a.text| then f == a
                 else f.text == element && f.location == a.location && f.style == a.style
  {
    PendingOutcome(cur);
  }

  /** The markers of one step come from a single run of the strip loop. */
  ghost predicate MarkerRun<S>(breaks: seq<Entry<S>>, prevNewLine: bool)
  {
    breaks == BreakEntries(prevNewLine, Breaks(breaks))
  }

  datatype LineRun<S> = LineRun(cursor: Cursor<S>, steps: seq<Step<S>>)

  /** The loop over the elements of one rendered line. */
  function MapLine<S>(cur: Cursor<S>, elements: seq<string>): (r: Result<LineRun<S>, MapError>)
    requires Valid(cur)
    ensures r.Success? ==> Valid(r.value.cursor)
    decreases |elements|
  {
    if |elements| == 0 then
      Success(LineRun(cur, []))
    else
      var first :- TakeElement(cur, elements[0]);
      var rest :- MapLine(first.cursor, elements[1..]);
      Success(LineRun(rest.cursor, [first.step] + rest.steps))
  }

  /** A line's run places one fragment per element, each as long as its
      element, and leaves the flag cleared unless the line is empty. */
  lemma {:induction false} LineOutcome<S>(cur: Cursor<S>, elements: seq<string>)
    requires Valid(cur)
    ensures var r := MapLine(cur, elements);
            r.Success? ==>
              && r.value.cursor.prevNewLine == (cur.prevNewLine && |elements| == 0)
              && |r.value.steps| == |elements|
              && forall i :: 0 <= i < |elements| ==>
                   && r.value.steps[i].fragment.length == |elements[i]|
                   && |r.value.steps[i].fragment.text| == |elements[i]|
    decreases |elements|
  {
    if |elements| > 0 && MapLine(cur, elements).Success? {
      TakeOutcome(cur, elements[0]);
      var first := TakeElement(cur, elements[0]).value;
      LineOutcome(first.cursor, elements[1..]);
      var rest := MapLine(first.cursor, elements[1..]).value;
      assert MapLine(cur, elements).value.steps == [first.step] + rest.steps;
      forall i | 0 < i < |elements|
        ensures elements[i] == elements[1..][i - 1]
      {
      }
    }
  }

  /** The processing-order record of a whole run: per rendered line, per
      element, one step. */
  datatype Run<S> = Run(cursor: Cursor<S>, trace: seq<seq<Step<S>>>)

  /** The loop over the rendered lines. */
  function MapLines<S>(cur: Cursor<S>, lines: seq<seq<string>>): (r: Result<Run<S>, MapError>)
    requires Valid(cur)
    ensures r.Success? ==> Valid(r.value.cursor)
    decreases |lines|
  {
    if |lines| == 0 then
      Success(Run(cur, []))
    else
      var first :- MapLine(cur, lines[0]);
      var rest :- MapLines(first.cursor, lines[1..]);
      Success(Run(rest.cursor, [first.steps] + rest.trace))
  }

  /** A run has one step list per rendered line and, read in processing
      order, one fragment per element, each as long as its element; the
      flag stays set only if no element was processed. */
  lemma {:induction false} LinesOutcome<S>(cur: Cursor<S>, lines: seq<seq<string>>)
    requires Valid(cur)
    ensures var r := MapLines(cur, lines);
            r.Success? ==>
              var steps := Flatten(r.value.trace);
              && r.value.cursor.prevNewLine == (cur.prevNewLine && |Flatten(lines)| == 0)
              && |r.value.trace| == |lines|
              && |steps| == |Flatten(lines)|
              && forall i :: 0 <= i < |steps| ==>
                   && steps[i].fragment.length == |Flatten(lines)[i]|
                   && |steps[i].fragment.text| == |Flatten(lines)[i]|
    decreases |lines|
  {
    if |lines| > 0 && MapLines(cur, lines).Success? {
      LineOutcome(cur, lines[0]);
      var first := MapLine(cur, lines[0]).value;
      LinesOutcome(first.cursor, lines[1..]);
      var rest := MapLines(first.cursor, lines[1..]).value;
      var trace := [first.steps] + rest.trace;
      assert MapLines(cur, lines).value.trace == trace;
      assert Flatten(lines) == lines[0] + Flatten(lines[1..]);
      assert Flatten(trace) == first.steps + Flatten(rest.trace) by {
        assert trace[1..] == rest.trace;
      }
    }
  }

  function StepBreaks<S>(steps: seq<Step<S>>): seq<Entry<S>>
  {
    if |steps| == 0 then [] else steps[0].breaks + StepBreaks(steps[1..])
  }

  function StepFragments<S>(steps: seq<Step<S>>): seq<Fragment<S>>
  {
    if |steps| == 0 then [] else [steps[0].fragment] + StepFragments(steps[1..])
  }

  /** The source's output for a run: for each rendered line, first every
      entry the strip loops pushed while the line was processed, then the
      line's own fragment list (pushed only when the line is finished). */
  function Assemble<S>(trace: seq<seq<Step<S>>>): seq<Entry<S>>
  {
    if |trace| == 0 then []
    else StepBreaks(trace[0]) + [Line(StepFragments(trace[0]))] + Assemble(trace[1..])
  }

  /** `getFragmentsByLines` after the renderer's lines are known; leftover
      fragments after the last line go unnoticed, as in the source. */
  function FragmentsByLines<S>(lines: seq<seq<string>>, fragments: seq<Fragment<S>>): Result<seq<Entry<S>>, MapError>
    requires AllWellFormed(fragments)
  {
    var run :- MapLines(Cursor(None, fragments, false), lines);
    Success(Assemble(run.trace))
  }
}

=== FILE: mapper_examples.dfy ===
/** Concrete runs of the fragment/line mapper on small blocks. The first
    lemmas evaluate one step of each function; the examples chain them. */
module MapperExamples {
  import opened Wrappers
  import opened Fragments
  import opened FragmentMapper

  datatype Style = A | B

  // ---------------------------------------------------------------------
  // One evaluation step at a time

  lemma NoStrip<S>(c: Fragment<S>, stream: seq<Fragment<S>>, prevNewLine: bool)
    requires WellFormed(c) && AllWellFormed(stream)
    requires !StartsWithNewline(c.text)
    ensures StripNewlines(c, stream, prevNewLine) == Success(Stripped(c, stream, []))
  {
  }

  /** Cut one break off a fragment that holds more than that break. */
  lemma StripInside<S>(c: Fragment<S>, stream: seq<Fragment<S>>, prevNewLine: bool, tail: Stripped<S>)
    requires WellFormed(c) && AllWellFormed(stream)
    requires StartsWithNewline(c.text) && |c.text| > 1
    requires StripNewlines(Fragment(c.text[1..], c.location + 1, c.length - 1, c.style), stream, true) == Success(tail)
    ensures StripNewlines(c, stream, prevNewLine)
            == Success(tail.(emitted := (if prevNewLine then [Line([])] else []) + [ParagraphBreak] + tail.emitted))
  {
    var rest := Fragment(c.text[1..], c.location + 1, c.length - 1, c.style);
    assert SplitFragment(c, "\n") == Success(Split(Fragment("\n", c.location, 1, c.style), Some(rest)));
  }

  lemma TakeWhole<S>(cur: Cursor<S>, element: string, st: Stripped<S>)
    requires Valid(cur)
    requires StripPending(cur) == Success(st)
    requires |element| == |st.active.text|
    ensures TakeElement(cur, element) == Success(Taken(Cursor(None, st.stream, false), Step(st.emitted, st.active)))
  {
  }

  lemma TakePart<S>(cur: Cursor<S>, element: string, st: Stripped<S>)
    requires Valid(cur)
    requires StripPending(cur) == Success(st)
    requires |element| < |st.active.text|
    ensures var a := st.active;
            var k := |element|;
            var rest := Fragment(a.text[k..], a.location + k, a.length - k, a.style);
            TakeElement(cur, element)
            == Success(Taken(Cursor(Some(rest), st.stream, false), Step(st.emitted, Fragment(element, a.location, k, a.style))))
  {
  }

  lemma RunLine<S>(cur: Cursor<S>, elements: seq<string>, first: Taken<S>, rest: LineRun<S>)
    requires Valid(cur) && |elements| > 0
    requires TakeElement(cur, elements[0]) == Success(first)
    requires MapLine(first.cursor, elements[1..]) == Success(rest)
    ensures MapLine(cur, elements) == Success(LineRun(rest.cursor, [first.step] + rest.steps))
  {
  }

  lemma EndLine<S>(cur: Cursor<S>)
    requires Valid(cur)
    ensures MapLine(cur, []) == Success(LineRun(cur, []))
  {
  }

  lemma RunLines<S>(cur: Cursor<S>, lines: seq<seq<string>>, first: LineRun<S>, rest: Run<S>)
    requires Valid(cur) && |lines| > 0
    requires MapLine(cur, lines[0]) == Success(first)
    requires MapLines(first.cursor, lines[1..]) == Success(rest)
    ensures MapLines(cur, lines) == Success(Run(rest.cursor, [first.steps] + rest.trace))
  {
  }

  lemma EndLines<S>(cur: Cursor<S>)
    requires Valid(cur)
    ensures MapLines(cur, []) == Success(Run(cur, []))
  {
  }

  lemma LineFails<S>(cur: Cursor<S>, elements: seq<string>, e: MapError)
    requires Valid(cur) && |elements| > 0
    requires TakeElement(cur, elements[0]) == Failure(e)
    ensures MapLine(cur, elements) == Failure(e)
  {
  }

  lemma LinesFail<S>(cur: Cursor<S>, lines: seq<seq<string>>, e: MapError)
    requires Valid(cur) && |lines| > 0
    requires MapLine(cur, lines[0]) == Failure(e)
    ensures MapLines(cur, lines) == Failure(e)
  {
  }

  lemma LaterLinesFail<S>(cur: Cursor<S>, lines: seq<seq<string>>, first: LineRun<S>, e: MapError)
    requires Valid(cur) && |lines| > 0
    requires MapLine(cur, lines[0]) == Success(first)
    requires MapLines(first.cursor, lines[1..]) == Failure(e)
    ensures MapLines(cur, lines) == Failure(e)
  {
  }

  /** A line of one element. */
  lemma OneElement<S>(cur: Cursor<S>, e: string, t: Taken<S>)
    requires Valid(cur)
    requires TakeElement(cur, e) == Success(t)
    ensures MapLine(cur, [e]) == Success(LineRun(t.cursor, [t.step]))
  {
    EndLine(t.cursor);
    assert [e][1..] == [];
    RunLine(cur, [e], t, LineRun(t.cursor, []));
    assert [t.step] + [] == [t.step];
  }

  /** A line of two elements. */
  lemma TwoElements<S>(cur: Cursor<S>, e1: string, e2: string, t1: Taken<S>, t2: Taken<S>)
    requires Valid(cur)
    requires TakeElement(cur, e1) == Success(t1)
    requires TakeElement(t1.cursor, e2) == Success(t2)
    ensures MapLine(cur, [e1, e2]) == Success(LineRun(t2.cursor, [t1.step, t2.step]))
  {
    OneElement(t1.cursor, e2, t2);
    assert [e1, e2][1..] == [e2];
    RunLine(cur, [e1, e2], t1, LineRun(t2.cursor, [t2.step]));
    assert [t1.step] + [t2.step] == [t1.step, t2.step];
  }

  /** A block of one rendered line. */
  lemma OneRow<S>(cur: Cursor<S>, l: seq<string>, run: LineRun<S>)
    requires Valid(cur)
    requires MapLine(cur, l) == Success(run)
    ensures MapLines(cur, [l]) == Success(Run(run.cursor, [run.steps]))
  {
    EndLines(run.cursor);
    assert [l][1..] == [];
    RunLines(cur, [l], run, Run(run.cursor, []));
    assert [run.steps] + [] == [run.steps];
  }

  /** A block of two rendered lines. */
  lemma TwoRows<S>(cur: Cursor<S>, l1: seq<string>, l2: seq<string>, run1: LineRun<S>, run2: LineRun<S>)
    requires Valid(cur)
    requires MapLine(cur, l1) == Success(run1)
    requires MapLine(run1.cursor, l2) == Success(run2)
    ensures MapLines(cur, [l1, l2]) == Success(Run(run2.cursor, [run1.steps, run2.steps]))
  {
    OneRow(run1.cursor, l2, run2);
    assert [l1, l2][1..] == [l2];
    RunLines(cur, [l1, l2], run1, Run(run2.cursor, [run2.steps]));
    assert [run1.steps] + [run2.steps] == [run1.steps, run2.steps];
  }

  lemma OneStep<S>(s: Step<S>)
    ensures StepBreaks([s]) == s.breaks && StepFragments([s]) == [s.fragment]
  {
    assert [s][1..] == [];
  }

  lemma TwoSteps<S>(s: Step<S>, t: Step<S>)
    ensures StepBreaks([s, t]) == s.breaks + t.breaks && StepFragments([s, t]) == [s.fragment, t.fragment]
  {
    assert [s, t][1..] == [t];
    OneStep(t);
  }

  lemma AssembleOne<S>(steps: seq<Step<S>>)
    ensures Assemble([steps]) == StepBreaks(steps) + [Line(StepFragments(steps))]
  {
    assert [steps][1..] == [];
  }

  lemma AssembleTwo<S>(s1: seq<Step<S>>, s2: seq<Step<S>>)
    ensures Assemble([s1, s2])
            == StepBreaks(s1) + [Line(StepFragments(s1))] + StepBreaks(s2) + [Line(StepFragments(s2))]
  {
    assert [s1, s2][1..] == [s2];
    AssembleOne(s2);
  }

  lemma Finish<S>(lines: seq<seq<string>>, fragments: seq<Fragment<S>>, run: Run<S>)
    requires AllWellFormed(fragments)
    requires MapLines(Cursor(None, fragments, false), lines) == Success(run)
    ensures FragmentsByLines(lines, fragments) == Success(Assemble(run.trace))
  {
  }

  // ---------------------------------------------------------------------
  // Examples

  /** A manual break inside one run, with the renderer reporting both
      halves on one coordinate row: the marker comes out before the line's
      list, because the list is pushed only once the line is finished. */
  lemma ManualBreakOneRow()
    ensures FragmentsByLines([["X", "Y"]], [Fragment("X\nY", 0, 3, A)])
            == Success([ParagraphBreak, Line([Fragment("X", 0, 1, A), Fragment("Y", 2, 1, A)])])
  {
    var f := Fragment("X\nY", 0, 3, A);
    var x := Fragment("X", 0, 1, A);
    var r1 := Fragment("\nY", 1, 2, A);
    var y := Fragment("Y", 2, 1, A);
    var c0 := Cursor(None, [f], false);
    assert [f][1..] == [];
    NoStrip(f, [], false);
    assert f.text[1..] == r1.text;
    TakePart(c0, "X", Stripped(f, [], []));
    var c1 := Cursor(Some(r1), [], false);
    var t1 := Taken(c1, Step([], x));
    NoStrip(y, [], true);
    assert r1.text[1..] == y.text;
    StripInside(r1, [], false, Stripped(y, [], []));
    var pb: seq<Entry<Style>> := [ParagraphBreak];
    assert [] + pb + [] == pb;
    var t2 := Taken(Cursor(None, [], false), Step(pb, y));
    TakeWhole(c1, "Y", Stripped(y, [], pb));
    TwoElements(c0, "X", "Y", t1, t2);
    var steps := [t1.step, t2.step];
    OneRow(c0, ["X", "Y"], LineRun(t2.cursor, steps));
    Finish([["X", "Y"]], [f], Run(t2.cursor, [steps]));
    TwoSteps(t1.step, t2.step);
    AssembleOne(steps);
    assert Assemble([steps]) == [ParagraphBreak, Line([x, y])];
  }

  /** The same run with the halves on two rows: the marker sits between
      the two lists, and the "\n" itself is dropped. */
  lemma ManualBreakTwoRows()
    ensures FragmentsByLines([["X"], ["Y"]], [Fragment("X\nY", 0, 3, A)])
            == Success([Line([Fragment("X", 0, 1, A)]), ParagraphBreak, Line([Fragment("Y", 2, 1, A)])])
  {
    var f := Fragment("X\nY", 0, 3, A);
    var x := Fragment("X", 0, 1, A);
    var r1 := Fragment("\nY", 1, 2, A);
    var y := Fragment("Y", 2, 1, A);
    var c0 := Cursor(None, [f], false);
    assert [f][1..] == [];
    NoStrip(f, [], false);
    assert f.text[1..] == r1.text;
    TakePart(c0, "X", Stripped(f, [], []));
    var c1 := Cursor(Some(r1), [], false);
    var t1 := Taken(c1, Step([], x));
    OneElement(c0, "X", t1);
    NoStrip(y, [], true);
    assert r1.text[1..] == y.text;
    StripInside(r1, [], false, Stripped(y, [], []));
    var pb: seq<Entry<Style>> := [ParagraphBreak];
    assert [] + pb + [] == pb;
    var t2 := Taken(Cursor(None, [], false), Step(pb, y));
    TakeWhole(c1, "Y", Stripped(y, [], pb));
    OneElement(c1, "Y", t2);
    TwoRows(c0, ["X"], ["Y"], LineRun(c1, [t1.step]), LineRun(t2.cursor, [t2.step]));
    Finish([["X"], ["Y"]], [f], Run(t2.cursor, [[t1.step], [t2.step]]));
    OneStep(t1.step);
    OneStep(t2.step);
    AssembleTwo([t1.step], [t2.step]);
    assert Assemble([[t1.step], [t2.step]]) == [Line([x]), ParagraphBreak, Line([y])];
  }

  /** Two consecutive breaks: the second marker is preceded by a
      compensating empty line. */
  lemma ConsecutiveBreaks()
    ensures FragmentsByLines([["P"], ["Q"]], [Fragment("P\n\nQ", 0, 4, A)])
            == Success([Line([Fragment("P", 0, 1, A)]), ParagraphBreak, Line([]), ParagraphBreak,
                        Line([Fragment("Q", 3, 1, A)])])
  {
    var f := Fragment("P\n\nQ", 0, 4, A);
    var p := Fragment("P", 0, 1, A);
    var r1 := Fragment("\n\nQ", 1, 3, A);
    var q := Fragment("Q", 3, 1, A);
    var c0 := Cursor(None, [f], false);
    assert [f][1..] == [];
    NoStrip(f, [], false);
    assert f.text[1..] == r1.text;
    TakePart(c0, "P", Stripped(f, [], []));
    var c1 := Cursor(Some(r1), [], false);
    var t1 := Taken(c1, Step([], p));
    OneElement(c0, "P", t1);
    var marks := TwoBreaks(r1, q);
    var t2 := Taken(Cursor(None, [], false), Step(marks, q));
    TakeWhole(c1, "Q", Stripped(q, [], marks));
    OneElement(c1, "Q", t2);
    TwoRows(c0, ["P"], ["Q"], LineRun(c1, [t1.step]), LineRun(t2.cursor, [t2.step]));
    Finish([["P"], ["Q"]], [f], Run(t2.cursor, [[t1.step], [t2.step]]));
    OneStep(t1.step);
    OneStep(t2.step);
    AssembleTwo([t1.step], [t2.step]);
    assert Assemble([[t1.step], [t2.step]]) == [Line([p]), ParagraphBreak, Line([]), ParagraphBreak, Line([q])];
  }

  /** The strip loop on "\n\nQ": a marker, then an empty line and a second
      marker. */
  lemma TwoBreaks(r1: Fragment<Style>, q: Fragment<Style>) returns (marks: seq<Entry<Style>>)
    requires r1 == Fragment("\n\nQ", 1, 3, A) && q == Fragment("Q", 3, 1, A)
    ensures marks == [ParagraphBreak, Line([]), ParagraphBreak]
    ensures StripNewlines(r1, [], false) == Success(Stripped(q, [], marks))
  {
    var r2 := Fragment("\nQ", 2, 2, A);
    NoStrip(q, [], true);
    assert r2.text[1..] == q.text;
    StripInside(r2, [], true, Stripped(q, [], []));
    var gap: seq<Entry<Style>> := [Line([]), ParagraphBreak];
    assert [Line([])] + [ParagraphBreak] + [] == gap;
    assert r1.text[1..] == r2.text;
    StripInside(r1, [], false, Stripped(q, [], gap));
    marks := [ParagraphBreak, Line([]), ParagraphBreak];
    assert [] + [ParagraphBreak] + gap == marks;
  }

  /** A wrap inside the second run, when the renderer reports one element
      per styled run: the run is split at the wrap. */
  lemma WrapInsideRun()
    ensures FragmentsByLines([["Hello ", "Wo"], ["rld"]],
                             [Fragment("Hello ", 0, 6, A), Fragment("World", 6, 5, B)])
            == Success([Line([Fragment("Hello ", 0, 6, A), Fragment("Wo", 6, 2, B)]),
                        Line([Fragment("rld", 8, 3, B)])])
  {
    var h := Fragment("Hello ", 0, 6, A);
    var wo := Fragment("Wo", 6, 2, B);
    var rld := Fragment("rld", 8, 3, B);
    var line1 := [Step([], h), Step([], wo)];
    var line2 := [Step([], rld)];
    WrapRun();
    Finish([["Hello ", "Wo"], ["rld"]], [h, Fragment("World", 6, 5, B)], Run(Cursor(None, [], false), [line1, line2]));
    TwoSteps(line1[0], line1[1]);
    OneStep(line2[0]);
    AssembleTwo(line1, line2);
    assert Assemble([line1, line2]) == [Line([h, wo]), Line([rld])];
  }

  /** The steps of the wrap example: `"Hello "` whole, then `"Wo"` split off
      the second run, then the rest of that run on the next row. */
  lemma WrapRun()
    ensures MapLines(Cursor(None, [Fragment("Hello ", 0, 6, A), Fragment("World", 6, 5, B)], false),
                     [["Hello ", "Wo"], ["rld"]])
            == Success(Run(Cursor(None, [], false),
                           [[Step([], Fragment("Hello ", 0, 6, A)), Step([], Fragment("Wo", 6, 2, B))],
                            [Step([], Fragment("rld", 8, 3, B))]]))
  {
    var h := Fragment("Hello ", 0, 6, A);
    var w := Fragment("World", 6, 5, B);
    var wo := Fragment("Wo", 6, 2, B);
    var rld := Fragment("rld", 8, 3, B);
    var c0 := Cursor(None, [h, w], false);
    assert [h, w] == [h] + [w];
    NoStrip(h, [w], false);
    TakeWhole(c0, "Hello ", Stripped(h, [w], []));
    var c1 := Cursor(None, [w], false);
    var t1 := Taken(c1, Step([], h));
    assert [w][1..] == [];
    NoStrip(w, [], false);
    assert w.text[2..] == rld.text;
    TakePart(c1, "Wo", Stripped(w, [], []));
    var c2 := Cursor(Some(rld), [], false);
    var t2 := Taken(c2, Step([], wo));
    TwoElements(c0, "Hello ", "Wo", t1, t2);
    NoStrip(rld, [], false);
    var t3 := Taken(Cursor(None, [], false), Step([], rld));
    TakeWhole(c2, "rld", Stripped(rld, [], []));
    OneElement(c2, "rld", t3);
    TwoRows(c0, ["Hello ", "Wo"], ["rld"], LineRun(c2, [t1.step, t2.step]), LineRun(t3.cursor, [t3.step]));
  }

  /** An element spanning two runs is longer than the active run: the split
      goes negative. */
  lemma ElementAcrossRuns()
    ensures FragmentsByLines([["Hello Wo"], ["rld"]],
                             [Fragment("Hello ", 0, 6, A), Fragment("World", 6, 5, B)])
            == Failure(NegativeLength)
  {
    var h := Fragment("Hello ", 0, 6, A);
    var w := Fragment("World", 6, 5, B);
    var c0 := Cursor(None, [h, w], false);
    assert [h, w] == [h] + [w];
    NoStrip(h, [w], false);
    assert TakeElement(c0, "Hello Wo") == Failure(NegativeLength);
    LineFails(c0, ["Hello Wo"], NegativeLength);
    LinesFail(c0, [["Hello Wo"], ["rld"]], NegativeLength);
  }

  /** More elements than characters: the stream runs dry. */
  lemma StreamRunsDry()
    ensures FragmentsByLines([["ab"], ["c"]], [Fragment("ab", 0, 2, A)]) == Failure(StreamExhausted)
  {
    var f := Fragment("ab", 0, 2, A);
    var c0 := Cursor(None, [f], false);
    assert [f][1..] == [];
    NoStrip(f, [], false);
    var c1 := Cursor(None, [], false);
    var t1 := Taken(c1, Step([], f));
    TakeWhole(c0, "ab", Stripped(f, [], []));
    OneElement(c0, "ab", t1);
    assert TakeElement(c1, "c") == Failure(StreamExhausted);
    LineFails(c1, ["c"], StreamExhausted);
    var lines := [["ab"], ["c"]];
    assert lines[1..] == [["c"]];
    LinesFail(c1, lines[1..], StreamExhausted);
    LaterLinesFail(c0, lines, LineRun(c1, [t1.step]), StreamExhausted);
  }

  /** A stream that holds only line breaks cannot supply an element. */
  lemma OnlyBreaksLeft()
    ensures FragmentsByLines([["a"]], [Fragment("\n", 0, 1, A)]) == Failure(StreamExhausted)
  {
    var f := Fragment("\n", 0, 1, A);
    var c0 := Cursor(None, [f], false);
    assert [f][1..] == [];
    assert StripNewlines(f, [], false) == Failure(StreamExhausted);
    assert TakeElement(c0, "a") == Failure(StreamExhausted);
    LineFails(c0, ["a"], StreamExhausted);
    LinesFail(c0, [["a"]], StreamExhausted);
  }

  /** Characters left over after the last line go unnoticed. */
  lemma LeftoverIgnored()
    ensures FragmentsByLines([["a"]], [Fragment("ab", 0, 2, A), Fragment("c", 2, 1, B)])
            == Success([Line([Fragment("a", 0, 1, A)])])
  {
    var f := Fragment("ab", 0, 2, A);
    var g := Fragment("c", 2, 1, B);
    var a := Fragment("a", 0, 1, A);
    var b := Fragment("b", 1, 1, A);
    var c0 := Cursor(None, [f, g], false);
    assert [f, g] == [f] + [g];
    assert [f, g][1..] == [g];
    NoStrip(f, [g], false);
    assert f.text[1..] == b.text;
    TakePart(c0, "a", Stripped(f, [g], []));
    var t1 := Taken(Cursor(Some(b), [g], false), Step([], a));
    OneElement(c0, "a", t1);
    OneRow(c0, ["a"], LineRun(t1.cursor, [t1.step]));
    Finish([["a"]], [f, g], Run(t1.cursor, [[t1.step]]));
    OneStep(t1.step);
    AssembleOne([t1.step]);
    assert Assemble([[t1.step]]) == [Line([a])];
  }

  /** A line without elements is pushed as an empty list. */
  lemma EmptyLine()
    ensures FragmentsByLines<Style>([[]], []) == Success([Line([])])
  {
    var c0: Cursor<Style> := Cursor(None, [], false);
    EndLine(c0);
    OneRow(c0, [], LineRun(c0, []));
    Finish<Style>([[]], [], Run(c0, [[]]));
    AssembleOne<Style>([]);
    assert Assemble<Style>([[]]) == [Line([])];
  }
}

=== FILE: mapper_output.dfy ===
/** What `getFragmentsByLines` returns, read off the processing-order trace:
    one fragment per rendered element in element order, one marker per
    stripped line break, no character lost, and every fragment located
    right after its predecessor plus its markers. */
module MapperOutput {
  import opened Wrappers
  import opened Seqs
  import opened Fragments
  import opened FragmentMapper
  import opened MapperProperties

  // ---------------------------------------------------------------------
  // Counting entries

  lemma BreaksAppend<S>(a: seq<Entry<S>>, b: seq<Entry<S>>)
    ensures Breaks(a + b) == Breaks(a) + Breaks(b)
    ensures EmittedFragments(a + b) == EmittedFragments(a) + EmittedFragments(b)
  {
    BreakCountAppend(a, b);
    EmittedAppend(a, b);
  }

  lemma {:induction false} BreakCountAppend<S>(a: seq<Entry<S>>, b: seq<Entry<S>>)
    ensures Breaks(a + b) == Breaks(a) + Breaks(b)
  {
    if |a| == 0 {
      assert a + b == b;
    } else {
      assert (a + b)[0] == a[0];
      assert (a + b)[1..] == a[1..] + b;
      BreakCountAppend(a[1..], b);
    }
  }

  lemma {:induction false} EmittedAppend<S>(a: seq<Entry<S>>, b: seq<Entry<S>>)
    ensures EmittedFragments(a + b) == EmittedFragments(a) + EmittedFragments(b)
  {
    if |a| == 0 {
      assert a + b == b;
    } else {
      assert (a + b)[0] == a[0];
      assert (a + b)[1..] == a[1..] + b;
      EmittedAppend(a[1..], b);
      var head := if a[0].Line? then a[0].fragments else [];
      assert EmittedFragments(a + b) == head + EmittedFragments(a[1..] + b);
    }
  }

  lemma {:induction false} TotalLengthAppend<S>(a: seq<Fragment<S>>, b: seq<Fragment<S>>)
    ensures TotalLength(a + b) == TotalLength(a) + TotalLength(b)
  {
    if |a| == 0 {
      assert a + b == b;
    } else {
      assert (a + b)[0] == a[0];
      assert (a + b)[1..] == a[1..] + b;
      TotalLengthAppend(a[1..], b);
    }
  }

  lemma StepsAppend<S>(a: seq<Step<S>>, b: seq<Step<S>>)
    ensures StepBreaks(a + b) == StepBreaks(a) + StepBreaks(b)
    ensures StepFragments(a + b) == StepFragments(a) + StepFragments(b)
  {
    StepBreaksAppend(a, b);
    StepFragmentsAppend(a, b);
  }

  lemma {:induction false} StepBreaksAppend<S>(a: seq<Step<S>>, b: seq<Step<S>>)
    ensures StepBreaks(a + b) == StepBreaks(a) + StepBreaks(b)
  {
    if |a| == 0 {
      assert a + b == b;
    } else {
      assert (a + b)[0] == a[0];
      assert (a + b)[1..] == a[1..] + b;
      StepBreaksAppend(a[1..], b);
      assert StepBreaks(a + b) == a[0].breaks + StepBreaks(a[1..] + b);
    }
  }

  lemma {:induction false} StepFragmentsAppend<S>(a: seq<Step<S>>, b: seq<Step<S>>)
    ensures StepFragments(a + b) == StepFragments(a) + StepFragments(b)
  {
    if |a| == 0 {
      assert a + b == b;
    } else {
      assert (a + b)[0] == a[0];
      assert (a + b)[1..] == a[1..] + b;
      StepFragmentsAppend(a[1..], b);
      assert StepFragments(a + b) == [a[0].fragment] + StepFragments(a[1..] + b);
    }
  }

  /** Steps whose marker entries carry no fragments: what the strip loop
      pushes between two placed fragments. */
  ghost predicate MarkersOnly<S>(steps: seq<Step<S>>)
  {
    forall i :: 0 <= i < |steps| ==> EmittedFragments(steps[i].breaks) == []
  }

  /** The characters a list of steps consumed are its markers plus its
      fragments' lengths, and the markers' entries hold no fragment. */
  lemma {:induction false} StepsCount<S>(steps: seq<Step<S>>)
    requires MarkersOnly(steps)
    ensures EmittedFragments(StepBreaks(steps)) == []
    ensures Consumed(steps) == Breaks(StepBreaks(steps)) + TotalLength(StepFragments(steps))
    ensures |StepFragments(steps)| == |steps|
  {
    if |steps| > 0 {
      assert MarkersOnly(steps[1..]) by {
        forall i | 0 <= i < |steps[1..]|
          ensures EmittedFragments(steps[1..][i].breaks) == []
        {
          assert steps[1..][i] == steps[i + 1];
        }
      }
      StepsCount(steps[1..]);
      BreaksAppend(steps[0].breaks, StepBreaks(steps[1..]));
      assert EmittedFragments(steps[0].breaks) == [];
    }
  }

  lemma MarkersOnlySplit<S>(a: seq<Step<S>>, b: seq<Step<S>>, steps: seq<Step<S>>)
    requires steps == a + b
    requires MarkersOnly(steps)
    ensures MarkersOnly(a) && MarkersOnly(b)
  {
    forall i | 0 <= i < |a|
      ensures EmittedFragments(a[i].breaks) == []
    {
      assert a[i] == steps[i];
    }
    forall i | 0 <= i < |b|
      ensures EmittedFragments(b[i].breaks) == []
    {
      assert b[i] == steps[|a| + i];
    }
  }

  /** The entries of one rendered line: its strip-loop markers, then the
      line itself. */
  lemma LineEntries<S>(breaks: seq<Entry<S>>, fs: seq<Fragment<S>>, rest: seq<Entry<S>>)
    requires EmittedFragments(breaks) == []
    ensures EmittedFragments(breaks + [Line(fs)] + rest) == fs + EmittedFragments(rest)
    ensures Breaks(breaks + [Line(fs)] + rest) == Breaks(breaks) + Breaks(rest)
  {
    var line: seq<Entry<S>> := [Line(fs)];
    assert line[0] == Line(fs) && line[1..] == [];
    assert Breaks(line[1..]) == 0 && EmittedFragments(line[1..]) == [];
    assert EmittedFragments(line) == fs && Breaks(line) == 0;
    BreaksAppend(breaks, line);
    BreaksAppend(breaks + line, rest);
  }

  /** Output order against processing order: the fragments of the assembled
      entries are exactly the placed fragments, in processing order, and
      the markers are all the strip loops' markers. */
  lemma {:induction false} AssembleOrder<S>(trace: seq<seq<Step<S>>>)
    requires MarkersOnly(Flatten(trace))
    ensures EmittedFragments(Assemble(trace)) == StepFragments(Flatten(trace))
    ensures Breaks(Assemble(trace)) == Breaks(StepBreaks(Flatten(trace)))
  {
    if |trace| > 0 {
      var head := trace[0];
      var tail := Flatten(trace[1..]);
      assert Flatten(trace) == head + tail;
      MarkersOnlySplit(head, tail, Flatten(trace));
      AssembleOrder(trace[1..]);
      StepsCount(head);
      StepsAppend(head, tail);
      LineEntries(StepBreaks(head), StepFragments(head), Assemble(trace[1..]));
      BreaksAppend(StepBreaks(head), StepBreaks(tail));
    }
  }

  // ---------------------------------------------------------------------
  // The whole mapping

  /** The mapper's state when `getFragmentsByLines` starts its loop. */
  function Start<S>(fragments: seq<Fragment<S>>): (c: Cursor<S>)
    ensures Pending(c) == fragments
    ensures !c.prevNewLine
  {
    Cursor(None, fragments, false)
  }

  /** What `getFragmentsByLines` returns. On success: one fragment per
      rendered element, in element order, each exactly as long as its
      element, and the markers and fragments together no longer than the
      stream. So rendered text longer than the stream always fails. */
  lemma FragmentsByLinesOutput<S>(lines: seq<seq<string>>, fragments: seq<Fragment<S>>)
    requires AllWellFormed(fragments)
    ensures var r := FragmentsByLines(lines, fragments);
            && (r.Success? ==>
                  var placed := EmittedFragments(r.value);
                  && |placed| == |Flatten(lines)|
                  && (forall i :: 0 <= i < |placed| ==> placed[i].length == |Flatten(lines)[i]|)
                  && Breaks(r.value) + TotalLength(placed) <= TotalLength(fragments))
            && (|Flatten(Flatten(lines))| > TotalLength(fragments) ==> r.Failure?)
  {
    var m := MapLines(Start(fragments), lines);
    if m.Success? {
      var out := Assemble(m.value.trace);
      assert FragmentsByLines(lines, fragments) == Success(out);
      MapperConservation(lines, fragments, m.value);
      MatchedLengths(EmittedFragments(out), Flatten(lines));
    }
  }

  /** Fragments as long as the strings they stand for, one for one, are as
      long as those strings together. */
  lemma {:induction false} MatchedLengths<S>(placed: seq<Fragment<S>>, elements: seq<string>)
    requires |placed| == |elements|
    requires forall i :: 0 <= i < |placed| ==> placed[i].length == |elements[i]|
    ensures TotalLength(placed) == |Flatten(elements)|
  {
    if |placed| > 0 {
      assert forall i :: 0 <= i < |placed[1..]| ==> placed[1..][i] == placed[i + 1];
      MatchedLengths(placed[1..], elements[1..]);
    }
  }

  /** Every step's entries are the strip loop's output for a loop entered
      with `isPrevNewLine` cleared. */
  ghost predicate FlagNeverSet<S>(steps: seq<Step<S>>)
  {
    forall i :: 0 <= i < |steps| ==> steps[i].breaks == BreakEntries(false, Breaks(steps[i].breaks))
  }

  /** The strip loop never sees the flag set: every element's markers
      are one marker per stripped break, with a compensating empty line
      before each marker except the element's first. */
  lemma MapperMarkers<S>(lines: seq<seq<string>>, fragments: seq<Fragment<S>>, run: Run<S>)
    requires AllWellFormed(fragments)
    requires MapLines(Start(fragments), lines) == Success(run)
    ensures FlagNeverSet(Flatten(run.trace))
  {
    var cursors := LinesChain(Start(fragments), lines, run);
    ChainMarkers(cursors, Flatten(run.trace));
    MarkerRunsCleared(Flatten(run.trace), Start(fragments).prevNewLine);
  }

  lemma MarkerRunsCleared<S>(steps: seq<Step<S>>, flag: bool)
    requires forall i :: 0 <= i < |steps| ==> MarkerRun(steps[i].breaks, i == 0 && flag)
    requires !flag
    ensures FlagNeverSet(steps)
  {
    forall i | 0 <= i < |steps|
      ensures steps[i].breaks == BreakEntries(false, Breaks(steps[i].breaks))
    {
      assert MarkerRun(steps[i].breaks, i == 0 && flag);
    }
  }

  /** Every step's entries hold markers and empty lines only. */
  lemma MapperMarkersOnly<S>(lines: seq<seq<string>>, fragments: seq<Fragment<S>>, run: Run<S>)
    requires AllWellFormed(fragments)
    requires MapLines(Start(fragments), lines) == Success(run)
    ensures MarkersOnly(Flatten(run.trace))
  {
    MapperMarkers(lines, fragments, run);
    MarkerRunsOnly(Flatten(run.trace));
  }

  lemma MarkerRunsOnly<S>(steps: seq<Step<S>>)
    requires FlagNeverSet(steps)
    ensures MarkersOnly(steps)
  {
    forall i | 0 <= i < |steps|
      ensures EmittedFragments(steps[i].breaks) == []
    {
      BreakEntriesShape<S>(false, Breaks(steps[i].breaks));
    }
  }

  /** One fragment per rendered element, in element order, each exactly as
      long as its element; and no character is lost or counted twice: the
      markers, the placed fragments and the fragments left over add up to
      the stream's total length. */
  lemma MapperConservation<S>(lines: seq<seq<string>>, fragments: seq<Fragment<S>>, run: Run<S>)
    requires AllWellFormed(fragments)
    requires MapLines(Start(fragments), lines) == Success(run)
    ensures var out := Assemble(run.trace);
            var placed := EmittedFragments(out);
            && |placed| == |Flatten(lines)|
            && (forall i :: 0 <= i < |placed| ==> placed[i].length == |Flatten(lines)[i]|)
            && Breaks(out) + TotalLength(placed) + TotalLength(Pending(run.cursor)) == TotalLength(fragments)
  {
    var steps := Flatten(run.trace);
    LinesOutcome(Start(fragments), lines);
    MapperMarkersOnly(lines, fragments, run);
    AssembleOrder(run.trace);
    StepsCount(steps);
    var placed := StepFragments(steps);
    assert forall i :: 0 <= i < |placed| ==> placed[i] == steps[i].fragment by {
      StepFragmentsAt(steps);
    }
    MapperText(lines, fragments, run);
    var p := FullText(fragments);
    FullTextLength(fragments);
    FullTextLength(Pending(run.cursor));
  }

  lemma {:induction false} StepFragmentsAt<S>(steps: seq<Step<S>>)
    ensures |StepFragments(steps)| == |steps|
    ensures forall i :: 0 <= i < |steps| ==> StepFragments(steps)[i] == steps[i].fragment
  {
    if |steps| > 0 {
      StepFragmentsAt(steps[1..]);
      forall i | 0 < i < |steps|
        ensures StepFragments(steps)[i] == steps[i].fragment
      {
        assert StepFragments(steps)[i] == StepFragments(steps[1..])[i - 1];
        assert steps[1..][i - 1] == steps[i];
      }
    }
  }

  /** Read against the block text in processing order, every marker sits on
      a line break, and the steps consume a prefix of the text. */
  lemma MapperText<S>(lines: seq<seq<string>>, fragments: seq<Fragment<S>>, run: Run<S>)
    requires AllWellFormed(fragments)
    requires MapLines(Start(fragments), lines) == Success(run)
    ensures CoversText(Flatten(run.trace), FullText(fragments))
    ensures Consumed(Flatten(run.trace)) <= |FullText(fragments)|
    ensures FullText(Pending(run.cursor)) == FullText(fragments)[Consumed(Flatten(run.trace))..]
  {
    var cursors := LinesChain(Start(fragments), lines, run);
    ChainText(cursors, Flatten(run.trace));
  }

  /** Every placed fragment holds the text of the element it was placed
      for, or, when a stream fragment was placed whole, the block's
      characters from the fragment's offset on, that offset counting the
      characters consumed before it and its own markers. */
  lemma MapperPlacedText<S>(lines: seq<seq<string>>, fragments: seq<Fragment<S>>, run: Run<S>)
    requires AllWellFormed(fragments)
    requires MapLines(Start(fragments), lines) == Success(run)
    ensures |EmittedFragments(Assemble(run.trace))| == |Flatten(run.trace)| == |Flatten(lines)|
    ensures var placed := EmittedFragments(Assemble(run.trace));
            forall i :: 0 <= i < |placed| ==>
              HoldsText(placed[i], Flatten(lines)[i], FullText(fragments), Offset(Flatten(run.trace), i))
  {
    var steps := Flatten(run.trace);
    MapperConservation(lines, fragments, run);
    MapperMarkersOnly(lines, fragments, run);
    AssembleOrder(run.trace);
    StepsCount(steps);
    StepFragmentsAt(steps);
    var cursors := LinesChain(Start(fragments), lines, run);
    ChainReads(cursors, steps);
    ChainPlacedText(cursors, Flatten(lines), steps);
  }

  /** For a stream that tiles the block from offset 0, every placed
      fragment starts where the previous one ended plus one position per
      marker in between, and the leftover fragments still tile the rest. */
  lemma MapperLocations<S>(lines: seq<seq<string>>, fragments: seq<Fragment<S>>, run: Run<S>)
    requires AllWellFormed(fragments)
    requires Contiguous(fragments, 0)
    requires MapLines(Start(fragments), lines) == Success(run)
    ensures Located(Flatten(run.trace), 0)
    ensures Contiguous(Pending(run.cursor), Consumed(Flatten(run.trace)))
  {
    var cursors := LinesChain(Start(fragments), lines, run);
    ChainLocations(cursors, Flatten(run.trace), 0);
  }
}

=== FILE: mapper_proofs.dfy ===
/** Properties of the fragment/line mapper: what the strip loop emits, that
    no character of the stream is lost or counted twice, and where every
    emitted fragment and marker sits in the block. */
module MapperProperties {
  import opened Wrappers
  import opened Seqs
  import opened Fragments
  import opened FragmentMapper

  // ---------------------------------------------------------------------
  // Processing-order views of a trace

  /** Characters a sequence of steps consumed from the stream: one per
      marker, plus every placed fragment's length. */
  function Consumed<S>(steps: seq<Step<S>>): nat
  {
    if |steps| == 0 then 0
    else Breaks(steps[0].breaks) + steps[0].fragment.length + Consumed(steps[1..])
  }

  /** Read against the block text in processing order, every marker of a
      step sits on a '\n' and the step's fragment covers the characters
      right after those line breaks. */
  ghost predicate CoversText<S>(steps: seq<Step<S>>, text: string)
  {
    |steps| == 0 ||
    (var n := Breaks(steps[0].breaks);
     var k := steps[0].fragment.length;
     && n + k <= |text|
     && (forall i :: 0 <= i < n ==> text[i] == '\n')
     && CoversText(steps[1..], text[n + k..]))
  }

  /** Every step's fragment starts where the previous one ended, plus one
      position per marker emitted in between. */
  ghost predicate Located<S>(steps: seq<Step<S>>, loc: int)
  {
    |steps| == 0 ||
    (var n := Breaks(steps[0].breaks);
     && steps[0].fragment.location == loc + n
     && Located(steps[1..], loc + n + steps[0].fragment.length))
  }

  // ---------------------------------------------------------------------
  // The strip loop

  lemma BreakEntriesTrue<S>(m: nat)
    ensures BreakEntries<S>(true, m) == Gaps<S>(m)
  {
  }

  /** The fragments that remain once the strip loop has removed one line
      break: the active fragment minus its first character, or, when that
      was all of it, the stream. */
  ghost predicate DropsNewline<S>(c: Fragment<S>, stream: seq<Fragment<S>>, next: Fragment<S>, more: seq<Fragment<S>>)
  {
    || (c.text == "\n" && stream == [next] + more)
    || (c.text != "\n" && |c.text| >= 1 && c.length >= 1 && more == stream
        && next == c.(text := c.text[1..], location := c.location + 1, length := c.length - 1))
  }

  /** One turn of the strip loop, unfolded once: it pushes its marker (and
      the compensating line if the flag was set) and runs on with the flag
      set from the remaining fragments. */
  lemma StripUnfold<S>(c: Fragment<S>, stream: seq<Fragment<S>>, prevNewLine: bool)
    returns (next: Fragment<S>, more: seq<Fragment<S>>)
    requires WellFormed(c) && AllWellFormed(stream)
    requires StartsWithNewline(c.text)
    requires StripNewlines(c, stream, prevNewLine).Success?
    ensures WellFormed(next) && AllWellFormed(more)
    ensures DropsNewline(c, stream, next, more)
    ensures |more| < |stream| || (|more| == |stream| && |next.text| < |c.text|)
    ensures StripNewlines(next, more, true).Success?
    ensures var tail := StripNewlines(next, more, true).value;
            StripNewlines(c, stream, prevNewLine).value
              == tail.(emitted := (if prevNewLine then [Line([])] else []) + [ParagraphBreak] + tail.emitted)
  {
    var split := SplitFragment(c, "\n");
    match split.value.rest
    case Some(rest) =>
      next, more := rest, stream;
    case None =>
      next, more := stream[0], stream[1..];
      assert stream == [next] + more;
  }

  /** Removing one line break: one break fewer ahead, the text loses its
      first character, and the tiling moves on by one position. */
  lemma DropNewline<S>(c: Fragment<S>, stream: seq<Fragment<S>>, next: Fragment<S>, more: seq<Fragment<S>>)
    requires WellFormed(c) && StartsWithNewline(c.text)
    requires DropsNewline(c, stream, next, more)
    ensures LeadingBreaks([c] + stream) == 1 + LeadingBreaks([next] + more)
    ensures FullText([c] + stream) == "\n" + FullText([next] + more)
    ensures Contiguous([c] + stream, c.location) ==> Contiguous([next] + more, c.location + 1)
  {
    StripStep(c, stream);
    FullTextCons(c, stream);
    FullTextCons(next, more);
    assert c.text == "\n" + c.text[1..];
    if c.text == "\n" {
      assert [next] + more == stream;
    }
  }

  /** The strip loop's output in closed form: for `n` stripped breaks it
      pushes `n` markers, with a compensating empty line before each marker
      that follows a break (the first one only if the loop was entered with
      `isPrevNewLine` set). */
  lemma {:induction false} StripEmits<S>(c: Fragment<S>, stream: seq<Fragment<S>>, prevNewLine: bool)
    requires WellFormed(c) && AllWellFormed(stream)
    ensures var r := StripNewlines(c, stream, prevNewLine);
            r.Success? ==> r.value.emitted == BreakEntries(prevNewLine, LeadingBreaks([c] + stream))
    decreases |stream|, |c.text|
  {
    if StripNewlines(c, stream, prevNewLine).Success? {
      if !StartsWithNewline(c.text) {
        assert ([c] + stream)[0] == c;
      } else {
        var next, more := StripUnfold(c, stream, prevNewLine);
        StripEmits(next, more, true);
        DropNewline(c, stream, next, more);
        BreakEntriesTrue<S>(LeadingBreaks([next] + more));
      }
    }
  }

  /** The strip loop consumes exactly the leading line breaks of the pending
      text. */
  lemma {:induction false} StripText<S>(c: Fragment<S>, stream: seq<Fragment<S>>, prevNewLine: bool, st: Stripped<S>)
    requires WellFormed(c) && AllWellFormed(stream)
    requires StripNewlines(c, stream, prevNewLine) == Success(st)
    ensures LeadingBreaks([c] + stream) <= |FullText([c] + stream)|
    ensures forall i :: 0 <= i < LeadingBreaks([c] + stream) ==> FullText([c] + stream)[i] == '\n'
    ensures FullText([st.active] + st.stream) == FullText([c] + stream)[LeadingBreaks([c] + stream)..]
    decreases |stream|, |c.text|
  {
    if !StartsWithNewline(c.text) {
      assert ([c] + stream)[0] == c;
      FullTextCons(c, stream);
    } else {
      var next, more := StripUnfold(c, stream, prevNewLine);
      var tail := StripNewlines(next, more, true).value;
      StripText(next, more, true, tail);
      DropNewline(c, stream, next, more);
      BreaksPrefix(FullText([c] + stream), FullText([next] + more), LeadingBreaks([next] + more));
    }
  }

  /** Putting one more line break in front of a text that starts with `m`
      line breaks. */
  lemma BreaksPrefix(p: string, q: string, m: nat)
    requires p == "\n" + q
    requires m <= |q| && forall i :: 0 <= i < m ==> q[i] == '\n'
    ensures m + 1 <= |p| && forall i :: 0 <= i < m + 1 ==> p[i] == '\n'
    ensures p[m + 1..] == q[m..]
  {
    assert forall i :: 0 < i < m + 1 ==> p[i] == q[i - 1];
  }

  /** The strip loop advances the start of the pending fragments by one
      position per stripped line break and keeps them contiguous. */
  lemma {:induction false} StripLocations<S>(c: Fragment<S>, stream: seq<Fragment<S>>, prevNewLine: bool, st: Stripped<S>, loc: int)
    requires WellFormed(c) && AllWellFormed(stream)
    requires StripNewlines(c, stream, prevNewLine) == Success(st)
    requires Contiguous([c] + stream, loc)
    ensures Contiguous([st.active] + st.stream, loc + LeadingBreaks([c] + stream))
    decreases |stream|, |c.text|
  {
    if !StartsWithNewline(c.text) {
      assert ([c] + stream)[0] == c;
    } else {
      var next, more := StripUnfold(c, stream, prevNewLine);
      var tail := StripNewlines(next, more, true).value;
      DropNewline(c, stream, next, more);
      StripLocations(next, more, true, tail, loc + 1);
    }
  }

  // ---------------------------------------------------------------------
  // One element

  lemma SliceSlice<T>(s: seq<T>, i: nat, j: nat)
    requires i + j <= |s|
    ensures s[i..][j..] == s[i + j..]
  {
  }

  lemma DropPrefix<T>(x: seq<T>, y: seq<T>, k: nat)
    requires k <= |x|
    ensures (x + y)[k..] == x[k..] + y
  {
  }

  /** The fragment an element step places and what stays pending after
      it, once the strip loop has left `a` active before `stream`: the
      whole of `a`, or its first `k` characters with the rest kept active. */
  ghost predicate TakesFront<S>(a: Fragment<S>, stream: seq<Fragment<S>>, k: nat, f: Fragment<S>, pending: seq<Fragment<S>>)
  {
    || (k == |a.text| && f == a && pending == stream)
    || (k < |a.text| && k <= a.length && f.location == a.location && f.length == k
        && pending == [a.(text := a.text[k..], location := a.location + k, length := a.length - k)] + stream)
  }

  /** One element step, unfolded once: the strip loop runs on the pending
      fragments, then the front of what it leaves active is placed. */
  lemma TakeUnfold<S>(cur: Cursor<S>, element: string, t: Taken<S>) returns (st: Stripped<S>)
    requires Valid(cur)
    requires TakeElement(cur, element) == Success(t)
    ensures |Pending(cur)| > 0
    ensures WellFormed(Pending(cur)[0]) && AllWellFormed(Pending(cur)[1..])
    ensures StripNewlines(Pending(cur)[0], Pending(cur)[1..], cur.prevNewLine) == Success(st)
    ensures WellFormed(st.active) && AllWellFormed(st.stream)
    ensures TakesFront(st.active, st.stream, |element|, t.step.fragment, Pending(t.cursor))
    ensures t.step.breaks == st.emitted && !t.cursor.prevNewLine
  {
    var pending := Pending(cur);
    assert pending == [pending[0]] + pending[1..];
    st := StripPending(cur).value;
    if |element| != |st.active.text| {
      var split := SplitFragment(st.active, element).value;
      assert Pending(t.cursor) == [split.rest.value] + st.stream;
    }
  }

  /** Taking the front of the active fragment consumes that many
      characters of the pending text. */
  lemma TakeFrontText<S>(a: Fragment<S>, stream: seq<Fragment<S>>, k: nat, f: Fragment<S>, pending: seq<Fragment<S>>)
    requires WellFormed(a)
    requires TakesFront(a, stream, k, f, pending)
    ensures k <= |FullText([a] + stream)|
    ensures FullText(pending) == FullText([a] + stream)[k..]
  {
    FullTextCons(a, stream);
    DropPrefix(a.text, FullText(stream), k);
    if k < |a.text| {
      FullTextCons(pending[0], stream);
      assert pending[1..] == stream;
    }
  }

  /** Taking the front of the active fragment places it where the tiling
      puts the active fragment, and the rest still tiles on from there. */
  lemma TakeFrontLocations<S>(a: Fragment<S>, stream: seq<Fragment<S>>, k: nat, f: Fragment<S>, pending: seq<Fragment<S>>, loc: int)
    requires WellFormed(a)
    requires TakesFront(a, stream, k, f, pending)
    requires Contiguous([a] + stream, loc)
    ensures f.location == loc && Contiguous(pending, loc + k)
  {
    FullTextCons(a, stream);
    if k < |a.text| {
      FullTextCons(pending[0], stream);
      assert pending[1..] == stream;
    }
  }

  /** The strip loop's part of an element step, from the pending
      fragments to the fragment `st.active` it leaves active: one marker
      per leading line break, those breaks consumed, and the tiling moved
      on by as many positions. */
  ghost predicate StripDone<S>(pending: seq<Fragment<S>>, prevNewLine: bool, st: Stripped<S>)
  {
    var p := FullText(pending);
    var n := LeadingBreaks(pending);
    && |pending| > 0
    && MarkerRun(st.emitted, prevNewLine)
    && Breaks(st.emitted) == n
    && n <= |p|
    && (forall i :: 0 <= i < n ==> p[i] == '\n')
    && FullText([st.active] + st.stream) == p[n..]
    && (Contiguous(pending, pending[0].location) ==> Contiguous([st.active] + st.stream, pending[0].location + n))
  }

  lemma StripPart<S>(pending: seq<Fragment<S>>, prevNewLine: bool, st: Stripped<S>)
    requires |pending| > 0 && WellFormed(pending[0]) && AllWellFormed(pending[1..])
    requires StripNewlines(pending[0], pending[1..], prevNewLine) == Success(st)
    ensures StripDone(pending, prevNewLine, st)
  {
    var c, stream := pending[0], pending[1..];
    assert pending == [c] + stream;
    StripEmits(c, stream, prevNewLine);
    BreakEntriesShape<S>(prevNewLine, LeadingBreaks(pending));
    StripText(c, stream, prevNewLine, st);
    if Contiguous(pending, c.location) {
      StripLocations(c, stream, prevNewLine, st, c.location);
    }
  }

  /** The placing part of an element step: the front `k` characters of
      what the strip loop left, placed and consumed. */
  ghost predicate FrontDone<S>(a: Fragment<S>, stream: seq<Fragment<S>>, k: nat, f: Fragment<S>, pending: seq<Fragment<S>>)
  {
    && f.length == k
    && k <= |FullText([a] + stream)|
    && FullText(pending) == FullText([a] + stream)[k..]
    && (Contiguous([a] + stream, a.location) ==> f.location == a.location && Contiguous(pending, a.location + k))
  }

  lemma FrontPart<S>(a: Fragment<S>, stream: seq<Fragment<S>>, k: nat, f: Fragment<S>, pending: seq<Fragment<S>>)
    requires WellFormed(a)
    requires TakesFront(a, stream, k, f, pending)
    ensures FrontDone(a, stream, k, f, pending)
  {
    TakeFrontText(a, stream, k, f, pending);
    if Contiguous([a] + stream, a.location) {
      TakeFrontLocations(a, stream, k, f, pending, a.location);
    }
  }

  /** The two parts of an element step put together. */
  lemma StepParts<S>(before: Cursor<S>, st: Stripped<S>, k: nat, step: Step<S>, after: Cursor<S>)
    requires StripDone(Pending(before), before.prevNewLine, st)
    requires FrontDone(st.active, st.stream, k, step.fragment, Pending(after))
    requires step.breaks == st.emitted && !after.prevNewLine
    ensures Advances(before, step, after)
  {
    var p := FullText(Pending(before));
    var n := LeadingBreaks(Pending(before));
    SliceSlice(p, n, k);
  }

  /** An element step advances the cursor. */
  lemma TakeAdvances<S>(cur: Cursor<S>, element: string, t: Taken<S>)
    requires Valid(cur)
    requires TakeElement(cur, element) == Success(t)
    ensures Advances(cur, t.step, t.cursor)
  {
    var st := TakeUnfold(cur, element, t);
    StripPart(Pending(cur), cur.prevNewLine, st);
    FrontPart(st.active, st.stream, |element|, t.step.fragment, Pending(t.cursor));
    StepParts(cur, st, |element|, t.step, t.cursor);
  }

  /** What an element step places, read against the pending text: the
      element's own text, or the characters right after the step's markers
      (when a stream fragment is placed whole). */
  ghost predicate Places<S>(before: Cursor<S>, element: string, step: Step<S>)
  {
    var p := FullText(Pending(before));
    var n := Breaks(step.breaks);
    var k := step.fragment.length;
    && n + k <= |p|
    && (step.fragment.text == element || step.fragment.text == p[n..n + k])
  }

  lemma TakePlaces<S>(cur: Cursor<S>, element: string, t: Taken<S>)
    requires Valid(cur)
    requires TakeElement(cur, element) == Success(t)
    ensures Places(cur, element, t.step)
  {
    var st := TakeUnfold(cur, element, t);
    assert StripPending(cur) == Success(st);
    TakeOutcome(cur, element);
    StripPart(Pending(cur), cur.prevNewLine, st);
    FrontPart(st.active, st.stream, |element|, t.step.fragment, Pending(t.cursor));
    if |element| == |st.active.text| {
      WholeFront(FullText(Pending(cur)), LeadingBreaks(Pending(cur)), st.active, st.stream);
    }
  }

  /** A fragment that starts the text after `n` characters spells that
      text's next characters. */
  lemma WholeFront<S>(p: string, n: nat, a: Fragment<S>, stream: seq<Fragment<S>>)
    requires n <= |p| && FullText([a] + stream) == p[n..]
    ensures n + |a.text| <= |p| && a.text == p[n..n + |a.text|]
  {
    FullTextCons(a, stream);
    assert p[n..][..|a.text|] == p[n..n + |a.text|];
  }

  // ---------------------------------------------------------------------
  // Chains of steps

  /** What one element's step does, read off the cursors before and after
      it: its markers are one strip-loop run for the incoming flag, which it
      clears; it consumes its markers' line breaks and then its fragment's
      characters from the front of the pending text; and on a stream that
      tiles the block, its fragment sits right after its markers and the
      rest still tiles the block. */
  ghost predicate Advances<S>(before: Cursor<S>, step: Step<S>, after: Cursor<S>)
  {
    && MarkerRun(step.breaks, before.prevNewLine)
    && !after.prevNewLine
    && Reads(before, step, after)
    && Moves(before, step, after)
  }

  /** The text part of `Advances`. */
  ghost predicate Reads<S>(before: Cursor<S>, step: Step<S>, after: Cursor<S>)
  {
    var p := FullText(Pending(before));
    var n := Breaks(step.breaks);
    var k := step.fragment.length;
    && n + k <= |p|
    && (forall i :: 0 <= i < n ==> p[i] == '\n')
    && FullText(Pending(after)) == p[n + k..]
  }

  /** The location part of `Advances`: if the pending fragments tile the
      text from where the first of them starts, the step's fragment sits
      right after its markers and the rest tiles on after it. A stream that
      tiles from any offset tiles from its first fragment's location. */
  ghost predicate Moves<S>(before: Cursor<S>, step: Step<S>, after: Cursor<S>)
  {
    var p := Pending(before);
    var n := Breaks(step.breaks);
    && |p| > 0
    && (Contiguous(p, p[0].location) ==>
          && step.fragment.location == p[0].location + n
          && Contiguous(Pending(after), p[0].location + n + step.fragment.length))
  }

  /** `cursors` are the mapper's states around `steps`: one more cursor
      than steps, each step advancing from its cursor to the next. */
  ghost predicate Chain<S>(cursors: seq<Cursor<S>>, steps: seq<Step<S>>)
  {
    && |cursors| == |steps| + 1
    && forall i {:trigger steps[i]} :: 0 <= i < |steps| ==> Advances(cursors[i], steps[i], cursors[i + 1])
  }

  /** The text part of `Chain`. */
  ghost predicate ReadsAlong<S>(cursors: seq<Cursor<S>>, steps: seq<Step<S>>)
  {
    && |cursors| == |steps| + 1
    && forall i {:trigger steps[i]} :: 0 <= i < |steps| ==> Reads(cursors[i], steps[i], cursors[i + 1])
  }

  lemma ChainReads<S>(cursors: seq<Cursor<S>>, steps: seq<Step<S>>)
    requires Chain(cursors, steps)
    ensures ReadsAlong(cursors, steps)
  {
    forall i | 0 <= i < |steps|
      ensures Reads(cursors[i], steps[i], cursors[i + 1])
    {
      assert Advances(cursors[i], steps[i], cursors[i + 1]);
    }
  }

  lemma ReadsTail<S>(cursors: seq<Cursor<S>>, steps: seq<Step<S>>)
    requires ReadsAlong(cursors, steps) && |steps| > 0
    ensures ReadsAlong(cursors[1..], steps[1..])
    ensures Reads(cursors[0], steps[0], cursors[1])
    ensures cursors[1..][0] == cursors[1] && cursors[1..][|steps| - 1] == cursors[|steps|]
  {
    forall i | 0 <= i < |steps| - 1
      ensures Reads(cursors[1..][i], steps[1..][i], cursors[1..][i + 1])
    {
      assert cursors[1..][i] == cursors[i + 1] && steps[1..][i] == steps[i + 1] && cursors[1..][i + 1] == cursors[i + 2];
    }
  }

  /** The location part of `Chain`. */
  ghost predicate MovesAlong<S>(cursors: seq<Cursor<S>>, steps: seq<Step<S>>)
  {
    && |cursors| == |steps| + 1
    && forall i {:trigger steps[i]} :: 0 <= i < |steps| ==> Moves(cursors[i], steps[i], cursors[i + 1])
  }

  lemma ChainMoves<S>(cursors: seq<Cursor<S>>, steps: seq<Step<S>>)
    requires Chain(cursors, steps)
    ensures MovesAlong(cursors, steps)
  {
    forall i | 0 <= i < |steps|
      ensures Moves(cursors[i], steps[i], cursors[i + 1])
    {
      assert Advances(cursors[i], steps[i], cursors[i + 1]);
    }
  }

  lemma MovesTail<S>(cursors: seq<Cursor<S>>, steps: seq<Step<S>>)
    requires MovesAlong(cursors, steps) && |steps| > 0
    ensures MovesAlong(cursors[1..], steps[1..])
    ensures Moves(cursors[0], steps[0], cursors[1])
    ensures cursors[1..][0] == cursors[1] && cursors[1..][|steps| - 1] == cursors[|steps|]
  {
    forall i | 0 <= i < |steps| - 1
      ensures Moves(cursors[1..][i], steps[1..][i], cursors[1..][i + 1])
    {
      assert cursors[1..][i] == cursors[i + 1] && steps[1..][i] == steps[i + 1] && cursors[1..][i + 1] == cursors[i + 2];
    }
  }

  lemma ChainCons<S>(c: Cursor<S>, step: Step<S>, cursors: seq<Cursor<S>>, steps: seq<Step<S>>)
    requires Chain(cursors, steps)
    requires Advances(c, step, cursors[0])
    ensures Chain([c] + cursors, [step] + steps)
  {
    var cs := [c] + cursors;
    var ss := [step] + steps;
    forall i | 0 <= i < |ss|
      ensures Advances(cs[i], ss[i], cs[i + 1])
    {
      if i > 0 {
        assert cs[i] == cursors[i - 1] && ss[i] == steps[i - 1] && cs[i + 1] == cursors[i];
      }
    }
  }

  lemma ChainAppend<S>(a: seq<Cursor<S>>, x: seq<Step<S>>, b: seq<Cursor<S>>, y: seq<Step<S>>)
    requires Chain(a, x) && Chain(b, y)
    requires a[|x|] == b[0]
    ensures Chain(a + b[1..], x + y)
    ensures (a + b[1..])[0] == a[0] && (a + b[1..])[|x| + |y|] == b[|y|]
  {
    var cs := a + b[1..];
    var ss := x + y;
    forall i | 0 <= i < |ss|
      ensures Advances(cs[i], ss[i], cs[i + 1])
    {
      if i < |x| {
        assert cs[i] == a[i] && ss[i] == x[i] && cs[i + 1] == a[i + 1];
      } else {
        assert cs[i] == b[i - |x|] && ss[i] == y[i - |x|] && cs[i + 1] == b[i - |x| + 1];
      }
    }
  }

  /** Every step of a chain places what `Places` allows for the element
      it was taken for. */
  ghost predicate PlacesAlong<S>(cursors: seq<Cursor<S>>, elements: seq<string>, steps: seq<Step<S>>)
  {
    && |cursors| == |steps| + 1
    && |elements| == |steps|
    && forall i {:trigger steps[i]} :: 0 <= i < |steps| ==> Places(cursors[i], elements[i], steps[i])
  }

  lemma PlacesCons<S>(c: Cursor<S>, element: string, step: Step<S>, cursors: seq<Cursor<S>>, elements: seq<string>, steps: seq<Step<S>>)
    requires PlacesAlong(cursors, elements, steps)
    requires Places(c, element, step)
    ensures PlacesAlong([c] + cursors, [element] + elements, [step] + steps)
  {
    var cs, es, ss := [c] + cursors, [element] + elements, [step] + steps;
    forall i | 0 <= i < |ss|
      ensures Places(cs[i], es[i], ss[i])
    {
      if i > 0 {
        assert cs[i] == cursors[i - 1] && es[i] == elements[i - 1] && ss[i] == steps[i - 1];
      }
    }
  }

  lemma PlacesAppend<S>(a: seq<Cursor<S>>, ea: seq<string>, x: seq<Step<S>>, b: seq<Cursor<S>>, eb: seq<string>, y: seq<Step<S>>)
    requires PlacesAlong(a, ea, x) && PlacesAlong(b, eb, y)
    requires a[|x|] == b[0]
    ensures PlacesAlong(a + b[1..], ea + eb, x + y)
  {
    var cs, es, ss := a + b[1..], ea + eb, x + y;
    forall i | 0 <= i < |ss|
      ensures Places(cs[i], es[i], ss[i])
    {
      if i < |x| {
        assert cs[i] == a[i] && es[i] == ea[i] && ss[i] == x[i];
      } else {
        assert cs[i] == b[i - |x|] && es[i] == eb[i - |x|] && ss[i] == y[i - |x|];
      }
    }
  }

  /** The markers of the chain's first step reflect the incoming flag;
      every later step's markers start with the flag cleared. */
  lemma ChainMarkers<S>(cursors: seq<Cursor<S>>, steps: seq<Step<S>>)
    requires Chain(cursors, steps)
    ensures forall i :: 0 <= i < |steps| ==> MarkerRun(steps[i].breaks, i == 0 && cursors[0].prevNewLine)
  {
    forall i | 0 <= i < |steps|
      ensures MarkerRun(steps[i].breaks, i == 0 && cursors[0].prevNewLine)
    {
      assert Advances(cursors[i], steps[i], cursors[i + 1]);
      if i > 0 {
        assert Advances(cursors[i - 1], steps[i - 1], cursors[i]);
      }
    }
  }

  /** A chain consumes a prefix of the pending text, in processing order,
      markers on line breaks. */
  lemma ChainText<S>(cursors: seq<Cursor<S>>, steps: seq<Step<S>>)
    requires Chain(cursors, steps)
    ensures var p := FullText(Pending(cursors[0]));
            && Consumed(steps) <= |p|
            && CoversText(steps, p)
            && FullText(Pending(cursors[|steps|])) == p[Consumed(steps)..]
  {
    ChainReads(cursors, steps);
    ReadsText(cursors, steps);
  }

  lemma {:induction false} ReadsText<S>(cursors: seq<Cursor<S>>, steps: seq<Step<S>>)
    requires ReadsAlong(cursors, steps)
    ensures var p := FullText(Pending(cursors[0]));
            && Consumed(steps) <= |p|
            && CoversText(steps, p)
            && FullText(Pending(cursors[|steps|])) == p[Consumed(steps)..]
  {
    if |steps| > 0 {
      ReadsTail(cursors, steps);
      ReadsText(cursors[1..], steps[1..]);
      CoversCons(steps, FullText(Pending(cursors[0])), FullText(Pending(cursors[1])), FullText(Pending(cursors[|steps|])));
    }
  }

  /** Where the `i`-th step's fragment starts in the text its chain reads:
      after every character the earlier steps consumed and after its own
      markers. */
  function Offset<S>(steps: seq<Step<S>>, i: nat): nat
    requires i < |steps|
  {
    Consumed(steps[..i]) + Breaks(steps[i].breaks)
  }

  /** `f`, placed for `element` at offset `at` of `text`, lies inside the
      text and holds the element's text or the text's characters there. */
  ghost predicate HoldsText<S>(f: Fragment<S>, element: string, text: string, at: nat)
  {
    && at + f.length <= |text|
    && (f.text == element || f.text == text[at..at + f.length])
  }

  lemma ReadsPrefix<S>(cursors: seq<Cursor<S>>, steps: seq<Step<S>>, i: nat)
    requires ReadsAlong(cursors, steps) && i <= |steps|
    ensures ReadsAlong(cursors[..i + 1], steps[..i])
    ensures cursors[..i + 1][0] == cursors[0] && cursors[..i + 1][i] == cursors[i]
  {
    forall j | 0 <= j < i
      ensures Reads(cursors[..i + 1][j], steps[..i][j], cursors[..i + 1][j + 1])
    {
      assert cursors[..i + 1][j] == cursors[j] && steps[..i][j] == steps[j] && cursors[..i + 1][j + 1] == cursors[j + 1];
    }
  }

  /** Read against a text `p` whose suffix from `c` is pending, a step
      holds its element's text or `p`'s characters after its markers. */
  lemma PlacedAt<S>(before: Cursor<S>, element: string, step: Step<S>, p: string, c: nat)
    requires Places(before, element, step)
    requires c <= |p| && FullText(Pending(before)) == p[c..]
    ensures HoldsText(step.fragment, element, p, c + Breaks(step.breaks))
  {
    var f := step.fragment;
    SliceAt(p, c, FullText(Pending(before)), Breaks(step.breaks), f.length, f.text, element);
  }

  /** Every step of a chain, read against the text the chain starts on,
      holds its element's text or the characters at its offset. */
  lemma ChainPlacedText<S>(cursors: seq<Cursor<S>>, elements: seq<string>, steps: seq<Step<S>>)
    requires ReadsAlong(cursors, steps) && PlacesAlong(cursors, elements, steps)
    ensures forall i :: 0 <= i < |steps| ==>
              HoldsText(steps[i].fragment, elements[i], FullText(Pending(cursors[0])), Offset(steps, i))
  {
    var p := FullText(Pending(cursors[0]));
    ReadsSuffixes(cursors, steps);
    forall i | 0 <= i < |steps|
      ensures HoldsText(steps[i].fragment, elements[i], p, Offset(steps, i))
    {
      assert Places(cursors[i], elements[i], steps[i]);
      assert Consumed(steps[..i]) <= |p| && FullText(Pending(cursors[i])) == p[Consumed(steps[..i])..];
      PlacedAt(cursors[i], elements[i], steps[i], p, Consumed(steps[..i]));
    }
  }

  /** Before each step of a chain, what is pending is the text the chain
      starts on less what the earlier steps consumed. */
  ghost predicate SuffixesAlong<S>(cursors: seq<Cursor<S>>, steps: seq<Step<S>>, p: string)
  {
    && |cursors| == |steps| + 1
    && forall i {:trigger steps[i]} :: 0 <= i < |steps| ==>
         Consumed(steps[..i]) <= |p| && FullText(Pending(cursors[i])) == p[Consumed(steps[..i])..]
  }

  lemma ReadsSuffixes<S>(cursors: seq<Cursor<S>>, steps: seq<Step<S>>)
    requires ReadsAlong(cursors, steps)
    ensures SuffixesAlong(cursors, steps, FullText(Pending(cursors[0])))
  {
    forall i | 0 <= i < |steps|
      ensures Consumed(steps[..i]) <= |FullText(Pending(cursors[0]))|
      ensures FullText(Pending(cursors[i])) == FullText(Pending(cursors[0]))[Consumed(steps[..i])..]
    {
      ReadsUpTo(cursors, steps, i);
    }
  }

  /** What is pending before the `i`-th step of a chain is the text the
      chain starts on, less what the earlier steps consumed. */
  lemma ReadsUpTo<S>(cursors: seq<Cursor<S>>, steps: seq<Step<S>>, i: nat)
    requires ReadsAlong(cursors, steps) && i <= |steps|
    ensures var p := FullText(Pending(cursors[0]));
            Consumed(steps[..i]) <= |p| && FullText(Pending(cursors[i])) == p[Consumed(steps[..i])..]
  {
    ReadsPrefix(cursors, steps, i);
    ReadsText(cursors[..i + 1], steps[..i]);
    assert |steps[..i]| == i;
  }

  /** A slice of a suffix is a slice of the whole. */
  lemma SliceAt<T>(p: seq<T>, c: nat, q: seq<T>, n: nat, k: nat, t: seq<T>, e: seq<T>)
    requires c <= |p| && q == p[c..] && n + k <= |q|
    requires t == e || t == q[n..n + k]
    ensures c + n + k <= |p| && (t == e || t == p[c + n..c + n + k])
  {
    assert q[n..n + k] == p[c + n..c + n + k];
  }

  /** One more step in front of a covering. */
  lemma CoversCons<S>(steps: seq<Step<S>>, p: string, q: string, r: string)
    requires |steps| > 0
    requires var n := Breaks(steps[0].breaks);
             var k := steps[0].fragment.length;
             && n + k <= |p|
             && (forall i :: 0 <= i < n ==> p[i] == '\n')
             && q == p[n + k..]
    requires Consumed(steps[1..]) <= |q| && CoversText(steps[1..], q) && r == q[Consumed(steps[1..])..]
    ensures Consumed(steps) <= |p| && CoversText(steps, p) && r == p[Consumed(steps)..]
  {
    var n, k, m := Breaks(steps[0].breaks), steps[0].fragment.length, Consumed(steps[1..]);
    assert Consumed(steps) == n + k + m;
    CoversStep(steps, p, q);
    SliceSlice(p, n + k, m);
  }

  /** The covering part of `CoversCons`. */
  lemma CoversStep<S>(steps: seq<Step<S>>, p: string, q: string)
    requires |steps| > 0
    requires var n := Breaks(steps[0].breaks);
             var k := steps[0].fragment.length;
             && n + k <= |p|
             && (forall i :: 0 <= i < n ==> p[i] == '\n')
             && q == p[n + k..]
    requires CoversText(steps[1..], q)
    ensures CoversText(steps, p)
  {
  }

  /** On a stream that tiles the block, a chain's fragments sit right after
      their markers' positions, and what is left stays contiguous. */
  lemma ChainLocations<S>(cursors: seq<Cursor<S>>, steps: seq<Step<S>>, loc: int)
    requires Chain(cursors, steps)
    requires Contiguous(Pending(cursors[0]), loc)
    ensures Located(steps, loc)
    ensures Contiguous(Pending(cursors[|steps|]), loc + Consumed(steps))
  {
    ChainMoves(cursors, steps);
    MovesLocations(cursors, steps, loc);
  }

  lemma {:induction false} MovesLocations<S>(cursors: seq<Cursor<S>>, steps: seq<Step<S>>, loc: int)
    requires MovesAlong(cursors, steps)
    requires Contiguous(Pending(cursors[0]), loc)
    ensures Located(steps, loc)
    ensures Contiguous(Pending(cursors[|steps|]), loc + Consumed(steps))
  {
    if |steps| > 0 {
      var n := Breaks(steps[0].breaks);
      var k := steps[0].fragment.length;
      MovesTail(cursors, steps);
      MovesLocations(cursors[1..], steps[1..], loc + n + k);
    }
  }

  // ---------------------------------------------------------------------
  // One rendered line, and all lines

  /** One element off the front of a line. */
  lemma MapLineUnfold<S>(cur: Cursor<S>, elements: seq<string>, run: LineRun<S>) returns (first: Taken<S>, rest: LineRun<S>)
    requires Valid(cur)
    requires MapLine(cur, elements) == Success(run)
    requires |elements| > 0
    ensures TakeElement(cur, elements[0]) == Success(first)
    ensures Valid(first.cursor)
    ensures MapLine(first.cursor, elements[1..]) == Success(rest)
    ensures run.steps == [first.step] + rest.steps && run.cursor == rest.cursor
  {
    var r1 := TakeElement(cur, elements[0]);
    assert r1.Success?;
    first := r1.value;
    var r2 := MapLine(first.cursor, elements[1..]);
    assert r2.Success?;
    rest := r2.value;
  }

  /** The cursors a line's run passes through. */
  lemma {:induction false} LineChain<S>(cur: Cursor<S>, elements: seq<string>, run: LineRun<S>) returns (cursors: seq<Cursor<S>>)
    requires Valid(cur)
    requires MapLine(cur, elements) == Success(run)
    ensures Chain(cursors, run.steps)
    ensures PlacesAlong(cursors, elements, run.steps)
    ensures cursors[0] == cur && cursors[|run.steps|] == run.cursor
    decreases |elements|
  {
    if |elements| == 0 {
      assert run == LineRun(cur, []);
      cursors := [cur];
    } else {
      var first, rest := MapLineUnfold(cur, elements, run);
      TakeAdvances(cur, elements[0], first);
      TakePlaces(cur, elements[0], first);
      var tail := LineChain(first.cursor, elements[1..], rest);
      ChainCons(cur, first.step, tail, rest.steps);
      PlacesCons(cur, elements[0], first.step, tail, elements[1..], rest.steps);
      assert elements == [elements[0]] + elements[1..];
      cursors := [cur] + tail;
    }
  }

  /** One line off the front of the block. */
  lemma MapLinesUnfold<S>(cur: Cursor<S>, lines: seq<seq<string>>, run: Run<S>) returns (first: LineRun<S>, rest: Run<S>)
    requires Valid(cur)
    requires MapLines(cur, lines) == Success(run)
    requires |lines| > 0
    ensures MapLine(cur, lines[0]) == Success(first)
    ensures Valid(first.cursor)
    ensures MapLines(first.cursor, lines[1..]) == Success(rest)
    ensures Flatten(run.trace) == first.steps + Flatten(rest.trace) && run.cursor == rest.cursor
  {
    var r1 := MapLine(cur, lines[0]);
    assert r1.Success?;
    first := r1.value;
    var r2 := MapLines(first.cursor, lines[1..]);
    assert r2.Success?;
    rest := r2.value;
    assert run.trace == [first.steps] + rest.trace;
    assert run.trace[1..] == rest.trace;
  }

  /** The cursors a whole run passes through, element by element across
      all lines. */
  lemma {:induction false} LinesChain<S>(cur: Cursor<S>, lines: seq<seq<string>>, run: Run<S>) returns (cursors: seq<Cursor<S>>)
    requires Valid(cur)
    requires MapLines(cur, lines) == Success(run)
    ensures Chain(cursors, Flatten(run.trace))
    ensures PlacesAlong(cursors, Flatten(lines), Flatten(run.trace))
    ensures cursors[0] == cur && cursors[|Flatten(run.trace)|] == run.cursor
    decreases |lines|
  {
    if |lines| == 0 {
      assert run == Run(cur, []);
      cursors := [cur];
    } else {
      var first, rest := MapLinesUnfold(cur, lines, run);
      var head := LineChain(cur, lines[0], first);
      var tail := LinesChain(first.cursor, lines[1..], rest);
      assert Flatten(lines) == lines[0] + Flatten(lines[1..]);
      cursors := JoinChains(head, lines[0], first.steps, tail, Flatten(lines[1..]), Flatten(rest.trace), Flatten(lines), Flatten(run.trace));
    }
  }

  /** Two chains, the second starting where the first ends, make one. */
  lemma JoinChains<S>(a: seq<Cursor<S>>, ea: seq<string>, x: seq<Step<S>>, b: seq<Cursor<S>>, eb: seq<string>, y: seq<Step<S>>,
                      es: seq<string>, ss: seq<Step<S>>) returns (cs: seq<Cursor<S>>)
    requires Chain(a, x) && PlacesAlong(a, ea, x)
    requires Chain(b, y) && PlacesAlong(b, eb, y)
    requires a[|x|] == b[0]
    requires es == ea + eb && ss == x + y
    ensures Chain(cs, ss) && PlacesAlong(cs, es, ss)
    ensures cs[0] == a[0] && cs[|ss|] == b[|y|]
  {
    ChainAppend(a, x, b, y);
    PlacesAppend(a, ea, x, b, eb, y);
    cs := a + b[1..];
  }
}

=== FILE: numerals.dfy ===
/** Positional numerals as JavaScript writes and reads them for the colour
    decoder: `Number.prototype.toString(base)` on a non-negative integer,
    `parseInt(s, 16)` on hex digits, `toFixed(2)` on an integer and
    `String.prototype.toUpperCase` on ASCII text. */
module Numerals {

  // ---------------------------------------------------------------------
  // Digits in a base

  /** The digits of `n` in base `base`, most significant first, with no
      leading zero (zero itself is the single digit 0). */
  function Digits(n: nat, base: nat): (ds: seq<nat>)
    requires 2 <= base
    ensures |ds| > 0
    ensures forall i :: 0 <= i < |ds| ==> ds[i] < base
    ensures n == 0 <==> ds == [0]
    ensures ds[0] != 0 || n == 0
    decreases n
  {
    if n < base then [n]
    else
      DivMod(n, base);
      Digits(n / base, base) + [n % base]
  }

  lemma DivMod(n: nat, base: nat)
    requires 2 <= base <= n
    ensures n == n / base * base + n % base
    ensures 1 <= n / base < n && n % base < base
  {
  }

  /** The number a digit sequence denotes in base `base`. */
  function Value(ds: seq<nat>, base: nat): nat
  {
    if |ds| == 0 then 0 else Value(ds[..|ds| - 1], base) * base + ds[|ds| - 1]
  }

  /** Reading the digits back gives the number written. */
  lemma {:induction false} DigitsValue(n: nat, base: nat)
    requires 2 <= base
    ensures Value(Digits(n, base), base) == n
    decreases n
  {
    if n >= base {
      var ds := Digits(n, base);
      var q := n / base;
      var r := n % base;
      DivMod(n, base);
      DigitsValue(q, base);
      assert ds == Digits(q, base) + [r];
      assert ds[..|ds| - 1] == Digits(q, base);
      assert Value(ds, base) == Value(Digits(q, base), base) * base + r;
    }
  }

  /** A canonical digit sequence (non-empty, every digit below the base,
      no leading zero unless it is the single digit 0) is the one `Digits`
      writes for its value: each number has exactly one spelling. */
  lemma {:induction false} DigitsUnique(ds: seq<nat>, base: nat)
    requires 2 <= base
    requires |ds| > 0
    requires forall i :: 0 <= i < |ds| ==> ds[i] < base
    requires ds[0] != 0 || |ds| == 1
    ensures Digits(Value(ds, base), base) == ds
  {
    var n := Value(ds, base);
    if |ds| > 1 {
      var init := ds[..|ds| - 1];
      var last := ds[|ds| - 1];
      assert forall i :: 0 <= i < |init| ==> init[i] == ds[i];
      DigitsUnique(init, base);
      LeadingDigit(init, base);
      DivModOf(Value(init, base), last, base);
      assert init + [last] == ds;
    }
  }

  /** A spelling longer than one digit with a non-zero lead denotes at
      least the base. */
  lemma {:induction false} LeadingDigit(ds: seq<nat>, base: nat)
    requires 2 <= base
    requires |ds| > 0 && ds[0] != 0
    ensures Value(ds, base) >= 1
  {
    if |ds| > 1 {
      var init := ds[..|ds| - 1];
      LeadingDigit(init, base);
      MulMono(1, Value(init, base), base);
    }
  }

  /** Division by the base undoes one step of `Value`. */
  lemma DivModOf(q: nat, r: nat, base: nat)
    requires 2 <= base && r < base
    ensures (q * base + r) / base == q && (q * base + r) % base == r
    ensures q >= 1 ==> q * base + r >= base
  {
    var n := q * base + r;
    var d := n / base;
    var m := n % base;
    assert n == d * base + m;
    if d > q {
      MulMono(q + 1, d, base);
      MulAdd(q, base);
    } else if d < q {
      MulMono(d + 1, q, base);
      MulAdd(d, base);
    }
    if q >= 1 {
      MulMono(1, q, base);
    }
  }

  lemma MulMono(x: nat, y: nat, base: nat)
    requires x <= y
    ensures x * base <= y * base
  {
  }

  lemma MulAdd(x: nat, base: nat)
    ensures (x + 1) * base == x * base + base
  {
  }

  /** Exactly the numbers below the base take a single digit. */
  lemma DigitsSingle(n: nat, base: nat)
    requires 2 <= base
    ensures |Digits(n, base)| == 1 <==> n < base
  {
    if n >= base {
      assert |Digits(n, base)| == |Digits(n / base, base)| + 1;
    }
  }

  // ---------------------------------------------------------------------
  // Characters

  predicate IsDecimalChar(c: char)
  {
    '0' <= c <= '9'
  }

  /** A character `parseInt(_, 16)` accepts as a digit. */
  predicate IsHexChar(c: char)
  {
    '0' <= c <= '9' || 'a' <= c <= 'f' || 'A' <= c <= 'F'
  }

  function HexCharValue(c: char): (v: nat)
    requires IsHexChar(c)
    ensures v < 16
    ensures v < 10 <==> IsDecimalChar(c)
  {
    if '0' <= c <= '9' then c as int - '0' as int
    else if 'a' <= c <= 'f' then c as int - 'a' as int + 10
    else c as int - 'A' as int + 10
  }

  /** The digit character `toString(16).toUpperCase()` writes. */
  function UpperHexChar(d: nat): (c: char)
    requires d < 16
    ensures IsHexChar(c) && HexCharValue(c) == d
    ensures !('a' <= c <= 'z')
  {
    if d < 10 then ('0' as int + d) as char else ('A' as int + d - 10) as char
  }

  function DecimalChar(d: nat): (c: char)
    requires d < 10
    ensures IsDecimalChar(c) && HexCharValue(c) == d
  {
    ('0' as int + d) as char
  }

  /** ASCII upper-casing of one character. */
  function UpperChar(c: char): (u: char)
    ensures 'a' <= c <= 'z' ==> u as int == c as int - 32
    ensures !('a' <= c <= 'z') ==> u == c
    ensures !('a' <= u <= 'z')
  {
    if 'a' <= c <= 'z' then (c as int - 32) as char else c
  }

  /** Upper-casing keeps a hex digit a hex digit of the same value. */
  lemma UpperHexKeepsValue(c: char)
    requires IsHexChar(c)
    ensures IsHexChar(UpperChar(c)) && HexCharValue(UpperChar(c)) == HexCharValue(c)
  {
  }

  function Upper(s: string): (u: string)
    ensures |u| == |s|
    ensures forall i :: 0 <= i < |s| ==> u[i] == UpperChar(s[i])
  {
    seq(|s|, i requires 0 <= i < |s| => UpperChar(s[i]))
  }

  // ---------------------------------------------------------------------
  // Writing and reading numerals

  /** `n.toString()` for a non-negative integer. */
  function Decimal(n: nat): (s: string)
    ensures |s| == |Digits(n, 10)|
    ensures forall i :: 0 <= i < |s| ==> IsDecimalChar(s[i])
    ensures NoLeadingZero(s)
  {
    var ds := Digits(n, 10);
    seq(|ds|, i requires 0 <= i < |ds| => DecimalChar(ds[i]))
  }

  /** `n.toString(16).toUpperCase()` for a non-negative integer. */
  function UpperHex(n: nat): (s: string)
    ensures |s| == |Digits(n, 16)|
    ensures forall i :: 0 <= i < |s| ==> IsHexChar(s[i]) && !('a' <= s[i] <= 'z')
  {
    var ds := Digits(n, 16);
    seq(|ds|, i requires 0 <= i < |ds| => UpperHexChar(ds[i]))
  }

  /** `n.toFixed(2)` for a non-negative integer. */
  function Fixed2(n: nat): (s: string)
    ensures |s| == |Decimal(n)| + 3
    ensures s[|s| - 3..] == ".00"
    ensures forall i :: 0 <= i < |s| ==> s[i] != ' '
  {
    Decimal(n) + ".00"
  }

  predicate AllHex(s: string)
  {
    forall i :: 0 <= i < |s| ==> IsHexChar(s[i])
  }

  /** `parseInt(s, 16)` on a string of hex digits. */
  function HexValue(s: string): nat
    requires AllHex(s)
  {
    Value(seq(|s|, i requires 0 <= i < |s| => HexCharValue(s[i])), 16)
  }

  /** A numeral as `toString` writes it: a single digit, or digits that do
      not start with `0`. */
  predicate NoLeadingZero(s: string)
  {
    |s| == 1 || (|s| > 1 && s[0] != '0')
  }

  predicate AllDecimal(s: string)
  {
    forall i :: 0 <= i < |s| ==> IsDecimalChar(s[i])
  }

  /** `parseInt(s, 10)` on a string of decimal digits. */
  function DecimalValue(s: string): nat
    requires AllDecimal(s)
  {
    Value(seq(|s|, i requires 0 <= i < |s| => HexCharValue(s[i])), 10)
  }

  /** Two hex digits denote sixteen times the first plus the second. */
  lemma HexPair(s: string)
    requires |s| == 2 && AllHex(s)
    ensures HexValue(s) == 16 * HexCharValue(s[0]) + HexCharValue(s[1])
    ensures HexValue(s) < 256
  {
    var ds := seq(|s|, i requires 0 <= i < |s| => HexCharValue(s[i]));
    assert ds[..1] == [HexCharValue(s[0])] && ds[..1][..0] == [];
    assert Value(ds[..1], 16) == HexCharValue(s[0]);
  }

  /** Upper-casing a run of hex digits does not change what it denotes. */
  lemma HexValueUpper(s: string)
    requires AllHex(s)
    ensures AllHex(Upper(s)) && HexValue(Upper(s)) == HexValue(s)
  {
    assert seq(|s|, i requires 0 <= i < |s| => HexCharValue(Upper(s)[i]))
        == seq(|s|, i requires 0 <= i < |s| => HexCharValue(s[i]));
  }

  /** Reading back what `UpperHex` wrote gives the number. */
  lemma UpperHexRoundTrip(n: nat)
    ensures AllHex(UpperHex(n)) && HexValue(UpperHex(n)) == n
  {
    var s := UpperHex(n);
    assert seq(|s|, i requires 0 <= i < |s| => HexCharValue(s[i])) == Digits(n, 16);
    DigitsValue(n, 16);
  }

  /** Reading back what `Decimal` wrote gives the number. */
  lemma DecimalRoundTrip(n: nat)
    ensures AllDecimal(Decimal(n)) && DecimalValue(Decimal(n)) == n
  {
    var s := Decimal(n);
    assert seq(|s|, i requires 0 <= i < |s| => HexCharValue(s[i])) == Digits(n, 10);
    DigitsValue(n, 10);
  }

  /** `toString(16)` writes one digit exactly below 16 and at most two
      below 256. */
  lemma UpperHexLength(n: nat)
    ensures |UpperHex(n)| == 1 <==> n < 16
    ensures n < 256 ==> |UpperHex(n)| <= 2
  {
    DigitsSingle(n, 16);
    if 16 <= n < 256 {
      DigitsSingle(n / 16, 16);
    }
  }
}

=== FILE: seqs.dfy ===
/** Sequence helpers shared by the line grouper and the fragment mapper. */
module Seqs {

  /** Concatenation of a sequence of sequences, in order. */
  function Flatten<T>(xss: seq<seq<T>>): seq<T>
  {
    if |xss| == 0 then [] else xss[0] + Flatten(xss[1..])
  }

  lemma {:induction false} FlattenAppend<T>(a: seq<seq<T>>, b: seq<seq<T>>)
    ensures Flatten(a + b) == Flatten(a) + Flatten(b)
  {
    if |a| == 0 {
      assert a + b == b;
    } else {
      assert (a + b)[0] == a[0];
      assert (a + b)[1..] == a[1..] + b;
      FlattenAppend(a[1..], b);
    }
  }

  lemma FlattenSnoc<T>(a: seq<seq<T>>, x: seq<T>)
    ensures Flatten(a + [x]) == Flatten(a) + x
  {
    FlattenAppend(a, [x]);
    assert Flatten([x]) == x + Flatten([x][1..]);
  }

  /** An element of a slice is an element of the whole, at the shifted
      index. */
  lemma SliceAt<T>(r: seq<T>, n: nat, b: seq<T>, k: nat)
    requires n <= |r| && r[n..] == b && k < |b|
    ensures n + k < |r| && r[n + k] == b[k] && b[k] in r
  {
    assert r[n..][k] == r[n + k];
  }
}

=== FILE: styles.dfy ===
/** The style extractors of src/api/styles.ts: fills and borders keep the
    enabled colour and gradient entries in order, shadows list the enabled
    outer shadows before the enabled inner ones. Gradients, border
    positions, thicknesses and shadow geometry are opaque values that are
    only copied, so they are type parameters here. */
module Styles {
  import opened Wrappers
  import opened Seqs
  import opened Colors

  datatype FillType = Color | Gradient | Pattern

  /** A fill of a layer style as the host reports it. */
  datatype Fill<G> = Fill(enabled: bool, fillType: FillType, color: string, gradient: G)

  /** A border: a fill with a position and a thickness. */
  datatype Border<G, P, T> = Border(
    enabled: bool, fillType: FillType, position: P, thickness: T, color: string, gradient: G)

  /** An exported fill. The source fills the unused one of `color` and
      `gradient` with an empty object; that is `None` here. */
  datatype FillData<G> = FillData(fillType: FillType, color: Option<SMColor>, gradient: Option<G>)

  datatype BorderData<G, P, T> = BorderData(
    fillType: FillType, position: P, thickness: T, color: Option<SMColor>, gradient: Option<G>)

  /** The loops skip disabled entries and, through the `switch` default,
      every type other than colour and gradient. */
  predicate Exported(enabled: bool, fillType: FillType)
  {
    enabled && fillType != Pattern
  }

  // ---------------------------------------------------------------------
  // Fills

  /** A fill the loop decodes has a decodable colour. */
  predicate FillReadable<G>(f: Fill<G>)
  {
    f.enabled && f.fillType == Color ==> WellFormedColor(f.color)
  }

  predicate FillsReadable<G>(fills: seq<Fill<G>>)
  {
    forall i :: 0 <= i < |fills| ==> FillReadable(fills[i])
  }

  lemma FillsReadableAppend<G>(a: seq<Fill<G>>, b: seq<Fill<G>>)
    ensures FillsReadable(a + b) <==> FillsReadable(a) && FillsReadable(b)
  {
    assert forall i :: 0 <= i < |a| ==> (a + b)[i] == a[i];
    assert forall i :: 0 <= i < |b| ==> (a + b)[|a| + i] == b[i];
  }

  function FillOf<G>(f: Fill<G>): (d: FillData<G>)
    requires Exported(f.enabled, f.fillType)
    requires f.fillType == Color ==> WellFormedColor(f.color)
    ensures d.fillType == f.fillType
    ensures f.fillType == Color ==> d.color == Some(ParseColor(f.color)) && d.gradient == None
    ensures f.fillType == Gradient ==> d.color == None && d.gradient == Some(f.gradient)
  {
    if f.fillType == Color then FillData(Color, Some(ParseColor(f.color)), None)
    else FillData(Gradient, None, Some(f.gradient))
  }

  /** Reference definition: the exported fills, in input order. */
  function ExportedFills<G>(fills: seq<Fill<G>>): seq<FillData<G>>
    requires FillsReadable(fills)
  {
    if |fills| == 0 then []
    else
      var f := fills[0];
      (if Exported(f.enabled, f.fillType) then [FillOf(f)] else []) + ExportedFills(fills[1..])
  }

  /** Exporting the fills of a concatenation exports each part in turn. */
  lemma {:induction false} ExportedFillsAppend<G>(a: seq<Fill<G>>, b: seq<Fill<G>>)
    requires FillsReadable(a + b)
    ensures FillsReadable(a) && FillsReadable(b)
    ensures ExportedFills(a + b) == ExportedFills(a) + ExportedFills(b)
  {
    FillsReadableAppend(a, b);
    if |a| > 0 {
      assert (a + b)[0] == a[0];
      assert (a + b)[1..] == a[1..] + b;
      FillsReadableAppend(a[..1], a[1..]);
      assert a == a[..1] + a[1..];
      ExportedFillsAppend(a[1..], b);
    } else {
      assert a + b == b;
    }
  }

  /** Every exported fill is a colour or a gradient; every exported input
      fill appears; every entry is the conversion of an exported input fill;
      and with nothing exportable the result is empty. */
  lemma {:induction false} ExportedFillsContents<G>(fills: seq<Fill<G>>)
    requires FillsReadable(fills)
    ensures forall d :: d in ExportedFills(fills) ==> d.fillType != Pattern
    ensures forall f :: f in fills && Exported(f.enabled, f.fillType) ==> FillOf(f) in ExportedFills(fills)
    ensures forall d :: d in ExportedFills(fills) ==>
              exists f :: f in fills && FillReadable(f) && Exported(f.enabled, f.fillType) && d == FillOf(f)
    ensures (forall i :: 0 <= i < |fills| ==> !Exported(fills[i].enabled, fills[i].fillType)) ==> ExportedFills(fills) == []
  {
    if |fills| > 0 {
      assert FillsReadable(fills[1..]) by {
        assert forall i :: 0 <= i < |fills[1..]| ==> fills[1..][i] == fills[i + 1];
      }
      ExportedFillsContents(fills[1..]);
      assert forall f :: f in fills ==> f == fills[0] || f in fills[1..];
    }
  }

  /** The loop's step: one more input fill exports at most that fill. */
  lemma ExportedFillsSnoc<G>(fills: seq<Fill<G>>, i: nat)
    requires FillsReadable(fills) && i < |fills|
    ensures FillsReadable(fills[..i]) && FillsReadable(fills[..i + 1])
    ensures ExportedFills(fills[..i + 1])
         == ExportedFills(fills[..i]) + (if Exported(fills[i].enabled, fills[i].fillType) then [FillOf(fills[i])] else [])
  {
    assert fills[..i + 1] == fills[..i] + [fills[i]];
    assert FillsReadable(fills[..i + 1]) by {
      assert forall k :: 0 <= k < i + 1 ==> fills[..i + 1][k] == fills[k];
    }
    ExportedFillsAppend(fills[..i], [fills[i]]);
    assert [fills[i]][1..] == [];
  }

  /** `getFillsFromStyle`. */
  method GetFills<G>(fills: seq<Fill<G>>) returns (fillsData: seq<FillData<G>>)
    requires FillsReadable(fills)
    ensures fillsData == ExportedFills(fills)
  {
    fillsData := [];
    for i := 0 to |fills|
      invariant FillsReadable(fills[..i])
      invariant fillsData == ExportedFills(fills[..i])
    {
      var fill := fills[i];
      ExportedFillsSnoc(fills, i);
      if !fill.enabled {
        continue;
      }
      var fillData: FillData<G>;
      match fill.fillType {
        case Color =>
          fillData := FillData(Color, Some(ParseColor(fill.color)), None);
        case Gradient =>
          fillData := FillData(Gradient, None, Some(fill.gradient));
        case Pattern =>
          continue;
      }
      assert fillData == FillOf(fill);
      fillsData := fillsData + [fillData];
    }
    assert fills[..|fills|] == fills;
  }

  // ---------------------------------------------------------------------
  // Borders

  predicate BorderReadable<G, P, T>(b: Border<G, P, T>)
  {
    b.enabled && b.fillType == Color ==> WellFormedColor(b.color)
  }

  predicate BordersReadable<G, P, T>(borders: seq<Border<G, P, T>>)
  {
    forall i :: 0 <= i < |borders| ==> BorderReadable(borders[i])
  }

  lemma BordersReadableAppend<G, P, T>(a: seq<Border<G, P, T>>, b: seq<Border<G, P, T>>)
    ensures BordersReadable(a + b) <==> BordersReadable(a) && BordersReadable(b)
  {
    assert forall i :: 0 <= i < |a| ==> (a + b)[i] == a[i];
    assert forall i :: 0 <= i < |b| ==> (a + b)[|a| + i] == b[i];
  }

  function BorderOf<G, P, T>(b: Border<G, P, T>): (d: BorderData<G, P, T>)
    requires Exported(b.enabled, b.fillType)
    requires b.fillType == Color ==> WellFormedColor(b.color)
    ensures d.fillType == b.fillType && d.position == b.position && d.thickness == b.thickness
    ensures b.fillType == Color ==> d.color == Some(ParseColor(b.color)) && d.gradient == None
    ensures b.fillType == Gradient ==> d.color == None && d.gradient == Some(b.gradient)
  {
    if b.fillType == Color then BorderData(Color, b.position, b.thickness, Some(ParseColor(b.color)), None)
    else BorderData(Gradient, b.position, b.thickness, None, Some(b.gradient))
  }

  /** Reference definition: the exported borders, in input order. */
  function ExportedBorders<G, P, T>(borders: seq<Border<G, P, T>>): seq<BorderData<G, P, T>>
    requires BordersReadable(borders)
  {
    if |borders| == 0 then []
    else
      var b := borders[0];
      (if Exported(b.enabled, b.fillType) then [BorderOf(b)] else []) + ExportedBorders(borders[1..])
  }

  lemma {:induction false} ExportedBordersAppend<G, P, T>(a: seq<Border<G, P, T>>, b: seq<Border<G, P, T>>)
    requires BordersReadable(a + b)
    ensures BordersReadable(a) && BordersReadable(b)
    ensures ExportedBorders(a + b) == ExportedBorders(a) + ExportedBorders(b)
  {
    BordersReadableAppend(a, b);
    if |a| > 0 {
      assert (a + b)[0] == a[0];
      assert (a + b)[1..] == a[1..] + b;
      BordersReadableAppend(a[..1], a[1..]);
      assert a == a[..1] + a[1..];
      ExportedBordersAppend(a[1..], b);
    } else {
      assert a + b == b;
    }
  }

  /** Exporting a border is exporting the fill it carries, with the
      position and thickness copied alongside. */
  lemma BorderIsFill<G, P, T>(b: Border<G, P, T>)
    requires Exported(b.enabled, b.fillType)
    requires b.fillType == Color ==> WellFormedColor(b.color)
    ensures var d := BorderOf(b);
            var f := FillOf(Fill(b.enabled, b.fillType, b.color, b.gradient));
            d == BorderData(f.fillType, b.position, b.thickness, f.color, f.gradient)
  {
  }

  /** The loop's step: one more input border exports at most that border. */
  lemma ExportedBordersSnoc<G, P, T>(borders: seq<Border<G, P, T>>, i: nat)
    requires BordersReadable(borders) && i < |borders|
    ensures BordersReadable(borders[..i]) && BordersReadable(borders[..i + 1])
    ensures ExportedBorders(borders[..i + 1])
         == ExportedBorders(borders[..i]) + (if Exported(borders[i].enabled, borders[i].fillType) then [BorderOf(borders[i])] else [])
  {
    assert borders[..i + 1] == borders[..i] + [borders[i]];
    assert BordersReadable(borders[..i + 1]) by {
      assert forall k :: 0 <= k < i + 1 ==> borders[..i + 1][k] == borders[k];
    }
    ExportedBordersAppend(borders[..i], [borders[i]]);
    assert [borders[i]][1..] == [];
  }

  /** `getBordersFromStyle`. */
  method GetBorders<G, P, T>(borders: seq<Border<G, P, T>>) returns (bordersData: seq<BorderData<G, P, T>>)
    requires BordersReadable(borders)
    ensures bordersData == ExportedBorders(borders)
  {
    bordersData := [];
    for i := 0 to |borders|
      invariant BordersReadable(borders[..i])
      invariant bordersData == ExportedBorders(borders[..i])
    {
      var border := borders[i];
      ExportedBordersSnoc(borders, i);
      if !border.enabled {
        continue;
      }
      var borderData := BorderData(border.fillType, border.position, border.thickness, None, None);
      match border.fillType {
        case Color =>
          borderData := borderData.(color := Some(ParseColor(border.color)));
        case Gradient =>
          borderData := borderData.(gradient := Some(border.gradient));
        case Pattern =>
          continue;
      }
      assert borderData == BorderOf(border);
      bordersData := bordersData + [borderData];
    }
    assert borders[..|borders|] == borders;
  }

  // ---------------------------------------------------------------------
  // Shadows

  datatype Shadow<N> = Shadow(enabled: bool, x: N, y: N, blur: N, spread: N, color: string)

  datatype ShadowType = Outer | Inner

  datatype SMShadow<N> = SMShadow(
    shadowType: ShadowType, offsetX: N, offsetY: N, blurRadius: N, spread: N, color: SMColor)

  predicate ShadowReadable<N>(s: Shadow<N>)
  {
    s.enabled ==> WellFormedColor(s.color)
  }

  predicate ShadowsReadable<N>(shadows: seq<Shadow<N>>)
  {
    forall k :: 0 <= k < |shadows| ==> ShadowReadable(shadows[k])
  }

  /** `filter(s => s.enabled)`. */
  function Enabled<N>(shadows: seq<Shadow<N>>): (r: seq<Shadow<N>>)
    ensures |r| <= |shadows|
    ensures forall k :: 0 <= k < |r| ==> r[k].enabled
    ensures ShadowsReadable(shadows) ==> forall k :: 0 <= k < |r| ==> WellFormedColor(r[k].color)
  {
    if |shadows| == 0 then []
    else
      assert ShadowsReadable(shadows) ==> ShadowsReadable(shadows[1..]) by {
        assert forall k :: 0 <= k < |shadows[1..]| ==> shadows[1..][k] == shadows[k + 1];
      }
      (if shadows[0].enabled then [shadows[0]] else []) + Enabled(shadows[1..])
  }

  /** The filter keeps exactly the enabled shadows. */
  lemma {:induction false} EnabledMembers<N>(shadows: seq<Shadow<N>>)
    ensures forall s :: s in Enabled(shadows) <==> s in shadows && s.enabled
  {
    if |shadows| > 0 {
      EnabledMembers(shadows[1..]);
      assert forall s :: s in shadows <==> s == shadows[0] || s in shadows[1..];
    }
  }

  /** The filter of a concatenation filters each part in turn, so input
      order is kept. */
  lemma {:induction false} EnabledAppend<N>(a: seq<Shadow<N>>, b: seq<Shadow<N>>)
    ensures Enabled(a + b) == Enabled(a) + Enabled(b)
  {
    if |a| > 0 {
      assert (a + b)[0] == a[0];
      assert (a + b)[1..] == a[1..] + b;
      EnabledAppend(a[1..], b);
    } else {
      assert a + b == b;
    }
  }

  /** Shadows that are all enabled pass unchanged. */
  lemma {:induction false} EnabledAll<N>(shadows: seq<Shadow<N>>)
    requires forall k :: 0 <= k < |shadows| ==> shadows[k].enabled
    ensures Enabled(shadows) == shadows
  {
    if |shadows| > 0 {
      EnabledAll(shadows[1..]);
    }
  }

  /** `convertShadow`. */
  function ShadowOf<N>(s: Shadow<N>, t: ShadowType): (d: SMShadow<N>)
    requires WellFormedColor(s.color)
    ensures d.shadowType == t
    ensures d.offsetX == s.x && d.offsetY == s.y && d.blurRadius == s.blur && d.spread == s.spread
    ensures d.color == ParseColor(s.color)
  {
    SMShadow(t, s.x, s.y, s.blur, s.spread, ParseColor(s.color))
  }

  function ShadowsOf<N>(shadows: seq<Shadow<N>>, t: ShadowType): (ds: seq<SMShadow<N>>)
    requires forall k :: 0 <= k < |shadows| ==> WellFormedColor(shadows[k].color)
    ensures |ds| == |shadows|
    ensures forall k :: 0 <= k < |shadows| ==> ds[k] == ShadowOf(shadows[k], t)
  {
    seq(|shadows|, k requires 0 <= k < |shadows| => ShadowOf(shadows[k], t))
  }

  /** No `outer` entry follows an `inner` one. */
  ghost predicate OuterFirst<N>(r: seq<SMShadow<N>>)
  {
    forall i, j :: 0 <= i < j < |r| && r[i].shadowType == Inner ==> r[j].shadowType == Inner
  }

  /** Every enabled shadow of `shadows` appears in `r`, converted and tagged `t`. */
  ghost predicate ExportsAll<N>(r: seq<SMShadow<N>>, shadows: seq<Shadow<N>>, t: ShadowType)
  {
    forall s :: s in shadows && s.enabled ==> WellFormedColor(s.color) && ShadowOf(s, t) in r
  }

  /** Every entry of `r` tagged `t` is an enabled shadow of `shadows`, converted. */
  ghost predicate ExportsOnly<N>(r: seq<SMShadow<N>>, shadows: seq<Shadow<N>>, t: ShadowType)
  {
    forall j :: 0 <= j < |r| && r[j].shadowType == t ==>
      exists s :: s in shadows && s.enabled && WellFormedColor(s.color) && r[j] == ShadowOf(s, t)
  }

  /** From position `n` on, `r` holds the conversions of `es`, tagged `t`,
      one for one and in order. */
  ghost predicate ConvertsAt<N>(r: seq<SMShadow<N>>, n: nat, es: seq<Shadow<N>>, t: ShadowType)
  {
    forall k :: 0 <= k < |es| ==> n + k < |r| && WellFormedColor(es[k].color) && r[n + k] == ShadowOf(es[k], t)
  }

  /** `getShadowsFromStyle`: every enabled outer shadow, converted and
      tagged `outer`, then every enabled inner shadow tagged `inner`, and
      nothing else. */
  function GetShadows<N>(shadows: seq<Shadow<N>>, innerShadows: seq<Shadow<N>>): (r: seq<SMShadow<N>>)
    requires ShadowsReadable(shadows) && ShadowsReadable(innerShadows)
    ensures |r| == |Enabled(shadows)| + |Enabled(innerShadows)|
    ensures OuterFirst(r)
    ensures ExportsAll(r, shadows, Outer) && ExportsAll(r, innerShadows, Inner)
    ensures ExportsOnly(r, shadows, Outer) && ExportsOnly(r, innerShadows, Inner)
    ensures ConvertsAt(r, 0, Enabled(shadows), Outer)
    ensures ConvertsAt(r, |Enabled(shadows)|, Enabled(innerShadows), Inner)
  {
    var outer := ShadowsOf(Enabled(shadows), Outer);
    var inner := ShadowsOf(Enabled(innerShadows), Inner);
    ShadowsOrdered(outer, inner);
    ShadowsFront(shadows, outer, inner);
    ShadowsBack(innerShadows, outer, inner);
    OuterPresent(shadows, outer, inner);
    InnerPresent(innerShadows, outer, inner);
    OuterInOrder(shadows, outer, inner);
    InnerInOrder(innerShadows, outer, inner);
    outer + inner
  }

  /** The contract of `GetShadows` leaves no freedom: any list of the same
      length holding the enabled outer then inner conversions in order is
      its result. */
  lemma ShadowsDetermined<N>(shadows: seq<Shadow<N>>, innerShadows: seq<Shadow<N>>, r: seq<SMShadow<N>>)
    requires ShadowsReadable(shadows) && ShadowsReadable(innerShadows)
    requires |r| == |Enabled(shadows)| + |Enabled(innerShadows)|
    requires ConvertsAt(r, 0, Enabled(shadows), Outer)
    requires ConvertsAt(r, |Enabled(shadows)|, Enabled(innerShadows), Inner)
    ensures r == GetShadows(shadows, innerShadows)
  {
    var g := GetShadows(shadows, innerShadows);
    SameConversions(r, g, Enabled(shadows), Enabled(innerShadows));
  }

  /** Two lists that both hold the conversions of `front` then of `back`,
      and nothing more, are equal. */
  lemma SameConversions<N>(r: seq<SMShadow<N>>, g: seq<SMShadow<N>>, front: seq<Shadow<N>>, back: seq<Shadow<N>>)
    requires |r| == |g| == |front| + |back|
    requires ConvertsAt(r, 0, front, Outer) && ConvertsAt(g, 0, front, Outer)
    requires ConvertsAt(r, |front|, back, Inner) && ConvertsAt(g, |front|, back, Inner)
    ensures r == g
  {
    var n := |front|;
    forall j | 0 <= j < |r|
      ensures r[j] == g[j]
    {
      if j < n {
        var f := front[j];
        assert r[0 + j] == ShadowOf(f, Outer) == g[0 + j];
      } else {
        var b := back[j - n];
        assert r[n + (j - n)] == ShadowOf(b, Inner) == g[n + (j - n)];
      }
    }
  }

  /** The join starts with the enabled outer shadows, converted in order. */
  lemma OuterInOrder<N>(shadows: seq<Shadow<N>>, outer: seq<SMShadow<N>>, inner: seq<SMShadow<N>>)
    requires ShadowsReadable(shadows)
    requires outer == ShadowsOf(Enabled(shadows), Outer)
    ensures ConvertsAt(outer + inner, 0, Enabled(shadows), Outer)
  {
  }

  /** After them come the enabled inner shadows, converted in order. */
  lemma InnerInOrder<N>(innerShadows: seq<Shadow<N>>, outer: seq<SMShadow<N>>, inner: seq<SMShadow<N>>)
    requires ShadowsReadable(innerShadows)
    requires inner == ShadowsOf(Enabled(innerShadows), Inner)
    ensures ConvertsAt(outer + inner, |outer|, Enabled(innerShadows), Inner)
  {
  }

  /** The converted outer list then the converted inner list keeps the
      outer entries first. */
  lemma ShadowsOrdered<N>(outer: seq<SMShadow<N>>, inner: seq<SMShadow<N>>)
    requires forall k :: 0 <= k < |outer| ==> outer[k].shadowType == Outer
    requires forall k :: 0 <= k < |inner| ==> inner[k].shadowType == Inner
    ensures OuterFirst(outer + inner)
  {
    var r := outer + inner;
    forall j | |outer| <= j < |r|
      ensures r[j].shadowType == Inner
    {
      assert r[j] == inner[j - |outer|];
    }
    forall i | 0 <= i < |outer|
      ensures r[i].shadowType == Outer
    {
      assert r[i] == outer[i];
    }
  }

  /** Each `outer` entry of the join comes from an enabled outer shadow. */
  lemma ShadowsFront<N>(shadows: seq<Shadow<N>>, outer: seq<SMShadow<N>>, inner: seq<SMShadow<N>>)
    requires ShadowsReadable(shadows)
    requires outer == ShadowsOf(Enabled(shadows), Outer)
    requires forall k :: 0 <= k < |inner| ==> inner[k].shadowType == Inner
    ensures ExportsOnly(outer + inner, shadows, Outer)
  {
    var r := outer + inner;
    forall j | |outer| <= j < |r|
      ensures r[j].shadowType == Inner
    {
      assert r[j] == inner[j - |outer|];
    }
    forall j | 0 <= j < |outer|
      ensures exists s :: s in shadows && s.enabled && WellFormedColor(s.color) && r[j] == ShadowOf(s, Outer)
    {
      EnabledAt(shadows, Outer, j);
      var s := Enabled(shadows)[j];
      assert outer[j] == ShadowOf(s, Outer);
      assert r[j] == outer[j];
    }
  }

  /** Each `inner` entry of the join comes from an enabled inner shadow. */
  lemma ShadowsBack<N>(innerShadows: seq<Shadow<N>>, outer: seq<SMShadow<N>>, inner: seq<SMShadow<N>>)
    requires ShadowsReadable(innerShadows)
    requires inner == ShadowsOf(Enabled(innerShadows), Inner)
    requires forall k :: 0 <= k < |outer| ==> outer[k].shadowType == Outer
    ensures ExportsOnly(outer + inner, innerShadows, Inner)
  {
    var r := outer + inner;
    forall j | |outer| <= j < |r|
      ensures exists s :: s in innerShadows && s.enabled && WellFormedColor(s.color) && r[j] == ShadowOf(s, Inner)
    {
      EnabledAt(innerShadows, Inner, j - |outer|);
      var s := Enabled(innerShadows)[j - |outer|];
      assert r[j] == inner[j - |outer|] == ShadowOf(s, Inner);
    }
    forall j | 0 <= j < |outer|
      ensures r[j].shadowType == Outer
    {
      assert r[j] == outer[j];
    }
  }

  /** Every enabled outer shadow has its conversion in the join. */
  lemma OuterPresent<N>(shadows: seq<Shadow<N>>, outer: seq<SMShadow<N>>, inner: seq<SMShadow<N>>)
    requires ShadowsReadable(shadows)
    requires outer == ShadowsOf(Enabled(shadows), Outer)
    ensures ExportsAll(outer + inner, shadows, Outer)
  {
    forall s | s in shadows && s.enabled
      ensures WellFormedColor(s.color) && ShadowOf(s, Outer) in outer + inner
    {
      var k := EnabledFind(shadows, s);
      EnabledAt(shadows, Outer, k);
      assert (outer + inner)[k] == outer[k];
    }
  }

  /** Every enabled inner shadow has its conversion in the join. */
  lemma InnerPresent<N>(innerShadows: seq<Shadow<N>>, outer: seq<SMShadow<N>>, inner: seq<SMShadow<N>>)
    requires ShadowsReadable(innerShadows)
    requires inner == ShadowsOf(Enabled(innerShadows), Inner)
    ensures ExportsAll(outer + inner, innerShadows, Inner)
  {
    forall s | s in innerShadows && s.enabled
      ensures WellFormedColor(s.color) && ShadowOf(s, Inner) in outer + inner
    {
      var k := EnabledFind(innerShadows, s);
      EnabledAt(innerShadows, Inner, k);
      assert (outer + inner)[|outer| + k] == inner[k];
    }
  }

  /** Where an enabled shadow sits in the filtered list. */
  lemma {:induction false} EnabledFind<N>(shadows: seq<Shadow<N>>, s: Shadow<N>) returns (k: nat)
    requires s in shadows && s.enabled
    ensures k < |Enabled(shadows)| && Enabled(shadows)[k] == s
  {
    var rest := Enabled(shadows[1..]);
    if shadows[0] == s {
      assert Enabled(shadows) == [s] + rest;
      k := 0;
    } else {
      assert s in shadows[1..] by {
        var i :| 0 <= i < |shadows| && shadows[i] == s;
        assert shadows[1..][i - 1] == s;
      }
      var k' := EnabledFind(shadows[1..], s);
      if shadows[0].enabled {
        assert Enabled(shadows) == [shadows[0]] + rest;
        k := k' + 1;
      } else {
        assert Enabled(shadows) == rest;
        k := k';
      }
    }
  }

  /** The `k`-th exported shadow of a list comes from an enabled shadow of
      that list. */
  lemma EnabledAt<N>(shadows: seq<Shadow<N>>, t: ShadowType, k: nat)
    requires ShadowsReadable(shadows)
    requires k < |Enabled(shadows)|
    ensures var s := Enabled(shadows)[k];
            && s in shadows && s.enabled && WellFormedColor(s.color)
            && ShadowsOf(Enabled(shadows), t)[k] == ShadowOf(s, t)
  {
    EnabledIndex(shadows, k);
  }

  lemma {:induction false} EnabledIndex<N>(shadows: seq<Shadow<N>>, k: nat)
    requires k < |Enabled(shadows)|
    ensures Enabled(shadows)[k] in shadows && Enabled(shadows)[k].enabled
  {
    var rest := Enabled(shadows[1..]);
    if shadows[0].enabled {
      assert Enabled(shadows) == [shadows[0]] + rest;
      if k > 0 {
        EnabledIndex(shadows[1..], k - 1);
      }
    } else {
      assert Enabled(shadows) == rest;
      EnabledIndex(shadows[1..], k);
    }
  }
}

=== FILE: svg_lines.dfy ===
/** The line grouper of `getFragmentLinesFromSVG`
    (src/meaxure/export/textFragment.ts): the renderer's text runs, already
    extracted as `(y, text)` records in document order, are cut into visual
    lines wherever the vertical coordinate changes. */
module SvgLines {
  import opened Wrappers
  import opened Seqs

  /** One extracted `<tspan>`: its vertical coordinate and its text. The
      horizontal coordinate is parsed by the source but never used. */
  datatype TextRun<Y> = TextRun(y: Y, text: string)

  function Texts<Y>(rs: seq<TextRun<Y>>): (ts: seq<string>)
    ensures |ts| == |rs|
    ensures forall i :: 0 <= i < |rs| ==> ts[i] == rs[i].text
  {
    seq(|rs|, i requires 0 <= i < |rs| => rs[i].text)
  }

  function TextsOf<Y>(groups: seq<seq<TextRun<Y>>>): (lines: seq<seq<string>>)
    ensures |lines| == |groups|
    ensures forall k :: 0 <= k < |groups| ==> lines[k] == Texts(groups[k])
  {
    seq(|groups|, k requires 0 <= k < |groups| => Texts(groups[k]))
  }

  lemma TextsSnoc<Y>(rs: seq<TextRun<Y>>, r: TextRun<Y>)
    ensures Texts(rs + [r]) == Texts(rs) + [r.text]
  {
    assert forall i :: 0 <= i < |rs| ==> (rs + [r])[i] == rs[i];
  }

  lemma TextsOfOpen<Y>(g: seq<seq<TextRun<Y>>>, r: TextRun<Y>)
    ensures TextsOf(g + [[r]]) == TextsOf(g) + [[r.text]]
  {
    assert forall k :: 0 <= k < |g| ==> (g + [[r]])[k] == g[k];
    assert Texts([r]) == [r.text];
  }

  lemma TextsOfJoin<Y>(g: seq<seq<TextRun<Y>>>, r: TextRun<Y>)
    requires |g| > 0
    ensures TextsOf(g[..|g| - 1] + [g[|g| - 1] + [r]]) == TextsOf(g)[..|g| - 1] + [Texts(g[|g| - 1]) + [r.text]]
  {
    var h := g[..|g| - 1] + [g[|g| - 1] + [r]];
    assert forall k :: 0 <= k < |g| - 1 ==> h[k] == g[k];
    TextsSnoc(g[|g| - 1], r);
  }

  // ---------------------------------------------------------------------
  // What a grouping is, and the reference grouping

  /** `groups` cuts `runs` into non-empty pieces, in order, each piece on
      one vertical coordinate and neighbouring pieces on different ones. */
  ghost predicate IsGrouping<Y>(runs: seq<TextRun<Y>>, groups: seq<seq<TextRun<Y>>>)
  {
    && Flatten(groups) == runs
    && (forall k :: 0 <= k < |groups| ==> |groups[k]| > 0)
    && (forall k, i :: 0 <= k < |groups| && 0 <= i < |groups[k]| ==> groups[k][i].y == groups[k][0].y)
    && (forall k :: 0 < k < |groups| ==> groups[k][0].y != groups[k - 1][0].y)
  }

  /** Grouping built the way the source's loop builds it: the next run
      either joins the last group or, on a new coordinate, opens a group. */
  function Group<Y(==)>(runs: seq<TextRun<Y>>): seq<seq<TextRun<Y>>>
  {
    if |runs| == 0 then []
    else
      var g := Group(runs[..|runs| - 1]);
      var r := runs[|runs| - 1];
      if |g| == 0 || g[|g| - 1][0].y != r.y then g + [[r]]
      else g[..|g| - 1] + [g[|g| - 1] + [r]]
  }

  /** Number of places where the coordinate changes between neighbours. */
  function Changes<Y(==)>(runs: seq<TextRun<Y>>): nat
  {
    if |runs| <= 1 then 0
    else Changes(runs[..|runs| - 1]) + (if runs[|runs| - 1].y != runs[|runs| - 2].y then 1 else 0)
  }

  /** The reference grouping has one group more than there are coordinate
      changes, and its last group is on the last run's coordinate. */
  lemma {:induction false} GroupCount<Y>(runs: seq<TextRun<Y>>)
    ensures |runs| == 0 <==> |Group(runs)| == 0
    ensures |runs| > 0 ==> |Group(runs)| == 1 + Changes(runs)
    ensures |runs| > 0 ==> |Group(runs)[|Group(runs)| - 1]| > 0
    ensures |runs| > 0 ==> Group(runs)[|Group(runs)| - 1][0].y == runs[|runs| - 1].y
  {
    if |runs| > 0 {
      var init := runs[..|runs| - 1];
      var r := runs[|runs| - 1];
      var g: seq<seq<TextRun<Y>>> := Group(init);
      GroupCount(init);
      if |init| == 0 {
        assert Group(runs) == [[r]];
      } else {
        assert init[|init| - 1] == runs[|runs| - 2];
        var n := |g|;
        if g[n - 1][0].y != r.y {
          assert Group(runs) == g + [[r]];
        } else {
          assert Group(runs) == g[..n - 1] + [g[n - 1] + [r]];
          assert Group(runs)[n - 1] == g[n - 1] + [r];
        }
      }
    }
  }

  /** A run on a new coordinate opens a group. */
  lemma OpenGroup<Y>(init: seq<TextRun<Y>>, g: seq<seq<TextRun<Y>>>, r: TextRun<Y>)
    requires IsGrouping(init, g)
    requires |g| == 0 || g[|g| - 1][0].y != r.y
    ensures IsGrouping(init + [r], g + [[r]])
  {
    var h: seq<seq<TextRun<Y>>> := g + [[r]];
    FlattenSnoc(g, [r]);
    forall k, i | 0 <= k < |h| && 0 <= i < |h[k]|
      ensures h[k][i].y == h[k][0].y
    {
      if k < |g| {
        assert h[k] == g[k];
      }
    }
    forall k | 0 < k < |h|
      ensures h[k][0].y != h[k - 1][0].y
    {
      if k < |g| {
        assert h[k] == g[k] && h[k - 1] == g[k - 1];
      }
    }
  }

  /** A run on the last group's coordinate joins that group. */
  lemma JoinGroup<Y>(init: seq<TextRun<Y>>, g: seq<seq<TextRun<Y>>>, r: TextRun<Y>)
    requires IsGrouping(init, g)
    requires |g| > 0 && g[|g| - 1][0].y == r.y
    ensures IsGrouping(init + [r], g[..|g| - 1] + [g[|g| - 1] + [r]])
  {
    var last := g[|g| - 1];
    var h: seq<seq<TextRun<Y>>> := g[..|g| - 1] + [last + [r]];
    assert g == g[..|g| - 1] + [last];
    FlattenSnoc(g[..|g| - 1], last);
    FlattenSnoc(g[..|g| - 1], last + [r]);
    forall k, i | 0 <= k < |h| && 0 <= i < |h[k]|
      ensures h[k][i].y == h[k][0].y
    {
      if k < |g| - 1 {
        assert h[k] == g[k];
      } else if i < |last| {
        assert h[k][i] == last[i];
      }
    }
    forall k | 0 < k < |h|
      ensures h[k][0].y != h[k - 1][0].y
    {
      assert h[k - 1] == g[k - 1];
      if k < |g| - 1 {
        assert h[k] == g[k];
      } else {
        assert h[k][0] == last[0];
      }
    }
  }

  /** The reference grouping is a grouping. */
  lemma {:induction false} GroupIsGrouping<Y>(runs: seq<TextRun<Y>>)
    ensures IsGrouping(runs, Group(runs))
  {
    if |runs| == 0 {
      assert Flatten(Group(runs)) == [];
    } else {
      var init := runs[..|runs| - 1];
      var r := runs[|runs| - 1];
      assert runs == init + [r];
      GroupIsGrouping(init);
      var g: seq<seq<TextRun<Y>>> := Group(init);
      if |g| == 0 || g[|g| - 1][0].y != r.y {
        OpenGroup(init, g, r);
      } else {
        JoinGroup(init, g, r);
      }
    }
  }

  /** A grouping of no runs has no groups: every group holds a run. */
  lemma EmptyGrouping<Y>(runs: seq<TextRun<Y>>, g: seq<seq<TextRun<Y>>>)
    requires IsGrouping(runs, g)
    ensures |runs| == 0 <==> |g| == 0
  {
    if |g| > 0 {
      assert Flatten(g) == g[0] + Flatten(g[1..]);
    }
  }

  /** Dropping the last run from a grouping whose last group is that run
      alone leaves a grouping of the other runs. */
  lemma DropLastGroup<Y>(runs: seq<TextRun<Y>>, g: seq<seq<TextRun<Y>>>)
    requires IsGrouping(runs, g)
    requires |g| > 0 && |g[|g| - 1]| == 1
    ensures |runs| > 0
    ensures IsGrouping(runs[..|runs| - 1], g[..|g| - 1])
    ensures g[|g| - 1] == [runs[|runs| - 1]]
  {
    var pre := g[..|g| - 1];
    var last := g[|g| - 1];
    assert g == pre + [last];
    FlattenSnoc(pre, last);
    assert runs == Flatten(pre) + last;
    assert runs[..|runs| - 1] == Flatten(pre);
    assert forall k :: 0 <= k < |pre| ==> pre[k] == g[k];
  }

  /** Dropping the last run from a grouping whose last group holds more
      leaves a grouping of the other runs with that group shortened. */
  lemma ShortenLastGroup<Y>(runs: seq<TextRun<Y>>, g: seq<seq<TextRun<Y>>>)
    requires IsGrouping(runs, g)
    requires |g| > 0 && |g[|g| - 1]| > 1
    ensures |runs| > 0
    ensures var last := g[|g| - 1];
            && IsGrouping(runs[..|runs| - 1], g[..|g| - 1] + [last[..|last| - 1]])
            && last == last[..|last| - 1] + [runs[|runs| - 1]]
  {
    var n := |g|;
    var pre := g[..n - 1];
    var last := g[n - 1];
    var shorter := last[..|last| - 1];
    var h: seq<seq<TextRun<Y>>> := pre + [shorter];
    assert g == pre + [last];
    FlattenSnoc(pre, last);
    FlattenSnoc(pre, shorter);
    assert last == shorter + [last[|last| - 1]];
    assert runs == Flatten(pre) + last;
    assert runs[..|runs| - 1] == Flatten(h);
    forall k, i | 0 <= k < |h| && 0 <= i < |h[k]|
      ensures h[k][i].y == h[k][0].y
    {
      if k < n - 1 {
        assert h[k] == g[k];
      } else {
        assert h[k][i] == last[i] && h[k][0] == last[0];
      }
    }
    forall k | 0 < k < |h|
      ensures h[k][0].y != h[k - 1][0].y
    {
      assert h[k - 1] == g[k - 1];
      if k < n - 1 {
        assert h[k] == g[k];
      } else {
        assert h[k][0] == last[0];
      }
    }
  }

  /** The grouping of a sequence of runs is unique: any grouping is the
      reference one. */
  lemma {:induction false} GroupingUnique<Y>(runs: seq<TextRun<Y>>, g: seq<seq<TextRun<Y>>>)
    requires IsGrouping(runs, g)
    ensures g == Group(runs)
  {
    EmptyGrouping(runs, g);
    if |runs| > 0 {
      var n := |g|;
      var last := g[n - 1];
      var init := runs[..|runs| - 1];
      var r := runs[|runs| - 1];
      assert r.y == last[0].y by {
        assert r == Flatten(g)[|Flatten(g)| - 1];
        FlattenSnoc(g[..n - 1], last);
        assert g == g[..n - 1] + [last];
      }
      if |last| == 1 {
        DropLastGroup(runs, g);
        GroupingUnique(init, g[..n - 1]);
        if n > 1 {
          assert g[..n - 1][n - 2] == g[n - 2];
        }
        assert g == g[..n - 1] + [[r]];
      } else {
        ShortenLastGroup(runs, g);
        var h := g[..n - 1] + [last[..|last| - 1]];
        GroupingUnique(init, h);
        assert h[..n - 1] == g[..n - 1];
        assert g == h[..n - 1] + [h[n - 1] + [r]];
      }
    }
  }

  /** A list of groups is a grouping of the runs exactly when it is the
      reference grouping. */
  lemma GroupingIff<Y>(runs: seq<TextRun<Y>>, g: seq<seq<TextRun<Y>>>)
    ensures IsGrouping(runs, g) <==> g == Group(runs)
  {
    GroupIsGrouping(runs);
    if IsGrouping(runs, g) {
      GroupingUnique(runs, g);
    }
  }

  /** Grouping keeps every run's text, in order. */
  lemma {:induction false} TextsOfFlatten<Y>(g: seq<seq<TextRun<Y>>>)
    ensures Flatten(TextsOf(g)) == Texts(Flatten(g))
  {
    if |g| > 0 {
      TextsOfFlatten(g[1..]);
      assert TextsOf(g)[1..] == TextsOf(g[1..]);
      TextsAppend(g[0], Flatten(g[1..]));
    }
  }

  lemma TextsAppend<Y>(a: seq<TextRun<Y>>, b: seq<TextRun<Y>>)
    ensures Texts(a + b) == Texts(a) + Texts(b)
  {
    assert forall i :: 0 <= i < |a| ==> (a + b)[i] == a[i];
    assert forall i :: |a| <= i < |a| + |b| ==> (a + b)[i] == b[i - |a|];
  }

  // ---------------------------------------------------------------------
  // The loop

  /** The first run opens the first line. */
  lemma FirstLine<Y>(runs: seq<TextRun<Y>>)
    requires |runs| > 0
    ensures [[runs[0].text]] == TextsOf(Group(runs[..1]))
  {
    assert runs[..1][..0] == [];
    TextsOfOpen([], runs[0]);
  }

  /** One more run of a prefix: it opens a group on a new coordinate and
      joins the last group otherwise. */
  lemma GroupStep<Y>(runs: seq<TextRun<Y>>, i: nat)
    requires 0 < i < |runs|
    ensures var g := Group(runs[..i]);
            && |g| > 0
            && (runs[i - 1].y != runs[i].y ==> Group(runs[..i + 1]) == g + [[runs[i]]])
            && (runs[i - 1].y == runs[i].y ==> Group(runs[..i + 1]) == g[..|g| - 1] + [g[|g| - 1] + [runs[i]]])
  {
    GroupCount(runs[..i]);
    assert runs[..i + 1][..i] == runs[..i] && runs[..i + 1][i] == runs[i];
    assert runs[..i][i - 1] == runs[i - 1];
  }

  /** A run on a new coordinate: the line built so far is complete and the
      run starts the next one. */
  lemma NewLine<Y>(runs: seq<TextRun<Y>>, i: nat, lines: seq<seq<string>>, lineElements: seq<string>)
    requires 0 < i < |runs|
    requires lines + [lineElements] == TextsOf(Group(runs[..i]))
    requires runs[i - 1].y != runs[i].y
    ensures (lines + [lineElements]) + [[runs[i].text]] == TextsOf(Group(runs[..i + 1]))
  {
    GroupStep(runs, i);
    TextsOfOpen(Group(runs[..i]), runs[i]);
  }

  /** A run on the current coordinate joins the line being built. */
  lemma SameLine<Y>(runs: seq<TextRun<Y>>, i: nat, lines: seq<seq<string>>, lineElements: seq<string>)
    requires 0 < i < |runs|
    requires lines + [lineElements] == TextsOf(Group(runs[..i]))
    requires runs[i - 1].y == runs[i].y
    ensures lines + [lineElements + [runs[i].text]] == TextsOf(Group(runs[..i + 1]))
  {
    var g := Group(runs[..i]);
    var n := |g|;
    GroupStep(runs, i);
    assert lines == TextsOf(g)[..n - 1] && lineElements == Texts(g[n - 1]) by {
      assert (lines + [lineElements])[..|lines|] == lines;
    }
    TextsOfJoin(g, runs[i]);
  }

  /** The lines of the reference grouping: one more than the coordinate
      changes, none empty, holding every run's text in order. */
  lemma GroupedLines<Y>(runs: seq<TextRun<Y>>)
    requires |runs| > 0
    ensures |TextsOf(Group(runs))| == 1 + Changes(runs)
    ensures forall k :: 0 <= k < |TextsOf(Group(runs))| ==> |TextsOf(Group(runs))[k]| > 0
    ensures Flatten(TextsOf(Group(runs))) == Texts(runs)
  {
    GroupCount(runs);
    GroupIsGrouping(runs);
    TextsOfFlatten(Group(runs));
  }

  /** `getFragmentLinesFromSVG` after extraction: `curY` starts undefined,
      a change of coordinate pushes the line built so far, and the last line
      is pushed after the loop, so no runs give one empty line. */
  method GetFragmentLines<Y(==)>(runs: seq<TextRun<Y>>) returns (lines: seq<seq<string>>)
    ensures |runs| == 0 ==> lines == [[]]
    ensures |runs| > 0 ==> lines == TextsOf(Group(runs))
    ensures |runs| > 0 ==> |lines| == 1 + Changes(runs)
    ensures |runs| > 0 ==> forall k :: 0 <= k < |lines| ==> |lines[k]| > 0
    ensures Flatten(lines) == Texts(runs)
  {
    var curY: Option<Y> := None;
    lines := [];
    var lineElements: seq<string> := [];
    var i := 0;
    while i < |runs|
      invariant 0 <= i <= |runs|
      invariant i == 0 ==> curY.None? && lines == [] && lineElements == []
      invariant i > 0 ==> curY == Some(runs[i - 1].y) && lines + [lineElements] == TextsOf(Group(runs[..i]))
    {
      var run := runs[i];
      if curY.None? {
        FirstLine(runs);
        curY := Some(run.y);
        lineElements := lineElements + [run.text];
        assert i == 0 && lines == [] && lineElements == [runs[0].text];
        assert lines + [lineElements] == [[runs[0].text]];
      } else if curY.value != run.y {
        NewLine(runs, i, lines, lineElements);
        lines := lines + [lineElements];
        lineElements := [run.text];
        curY := Some(run.y);
        assert lines + [lineElements] == TextsOf(Group(runs[..i + 1]));
      } else {
        SameLine(runs, i, lines, lineElements);
        lineElements := lineElements + [run.text];
        assert lines + [lineElements] == TextsOf(Group(runs[..i + 1]));
      }
      i := i + 1;
    }
    assert runs[..i] == runs;
    lines := lines + [lineElements];
    if |runs| > 0 {
      GroupedLines(runs);
    } else {
      assert Flatten(lines) == [] + Flatten(lines[1..]);
    }
  }
}

=== FILE: wrappers.dfy ===
/** The failure-compatible wrappers used throughout the model: `Option` for a
    value that may be absent (`undefined` in the source) and `Result` for an
    operation that either returns a value or throws. */
module Wrappers {

  datatype Option<+T> = None | Some(value: T)

  datatype Result<+T, +E> = Success(value: T) | Failure(error: E) {

    predicate IsFailure() {
      Failure?
    }

    function PropagateFailure<U>(): Result<U, E>
      requires Failure?
    {
      Failure(error)
    }

    function Extract(): T
      requires Success?
    {
      value
    }
  }
}
